=== FILE: README.md ===
# GBV companion app — a verified model of its core logic

The app supports people at risk of gender-based violence. Its core, as
modelled here, is:

- the **danger assessment service**: a weighted yes/no questionnaire whose
  score (0–28) is classified into the tiers variable, increased, severe and
  extreme, each with its interpretation and recommendations; an incident
  log; and a history of past assessments;
- the **risk assessment screen**: a second, yes/no questionnaire
  classified by the share of the maximum total (low, medium, high), which
  opens the safety assistant on a high result;
- the **risk calendar**: incidents marked on a calendar by severity colour,
  and the screen's forms on top of the assessment service;
- the **cache**: hashed items under a key prefix, expired after 24 hours
  and evicted oldest-first to keep the total under 50 MB;
- **safe places**: nearby places typed by priority (police, hospital,
  embassy), sorted by distance, capped at five and ranked from one;
- **meditation**: tracks from a music search grouped into four categories
  by keywords in the title, with artist and track search;
- **security helpers**: password strength, input sanitising, and the
  sensitive-data check (US social security and card numbers, the words
  "password" and "secret");
- the **resources directory**: seven South African services filtered by
  search text and type chips;
- the **daily check-in**: mood entries with a seven-entry history, and the
  activity toggle;
- **self-care reminders**: activities with daily reminder times, their
  `HH:MM` formatting and parsing, and the scheduler requests a toggle or
  delete makes;
- **emergency contacts**: the stored list, the SMS alert to every contact,
  the call to the primary contact, and how an emergency trigger ends;
- **crisis resources**: the `tel:` and WhatsApp links of the crisis lines;
- the **performance monitor**: the metric buffer flushed to a log file at a
  hundred entries, both for calls taken one at a time and for calls that
  overlap while a write is in flight, and the clean-up that keeps a
  thousand log files.

Everything is an immutable value and every operation a pure function (the
cache's eviction, with its free choice among equally old items, and the
password check are methods). Whatever the app asks of the outside world —
the key-value store, secure store, file system, SMS service, dialler,
notifications, the clock, the ids it makes from the clock, a hash function,
the music search's answer — is a parameter: a boolean for "did the write
succeed", an `int` for a time, a function for the hash.

Modules follow the source files: `DangerAssessment`, `RiskScreen`,
`RiskCalendar`, `Cache`, `SafePlaces`, `Meditation`, `Security`,
`Resources`, `DailyCheckIn`, `SelfCare`, `Emergency`, `CrisisResources`,
`Performance`, with `Seqs` (the model of `Array.prototype.filter`),
`Sorting` (of `Array.prototype.sort`) and `Text` (of the string methods the
app uses) beneath them.

## Model

| member | source | states |
|---|---|---|
| DangerAssessment.ScoreOver | src/services/dangerAssessmentService.ts:191-195 | the score over any question list is at most the sum of its weights |
| DangerAssessment.Score | src/services/dangerAssessmentService.ts:191-195 | the score of any answer map never exceeds the table's total weight |
| DangerAssessment.QuestionIdsDistinct | src/services/dangerAssessmentService.ts:33-124 | no two questions of the table share an id |
| DangerAssessment.QuestionTable | src/services/dangerAssessmentService.ts:33-124 | the weights of the fifteen questions sum to the maximum score 28, and the ids are distinct |
| DangerAssessment.ScoreBounds | src/services/dangerAssessmentService.ts:191-195 | every score lies between 0 and the maximum |
| DangerAssessment.ScoreOverIgnores | src/services/dangerAssessmentService.ts:191-195 | an answer under an id no listed question has leaves the score unchanged |
| DangerAssessment.UnknownIdIgnored | src/services/dangerAssessmentService.ts:187-195 | answering an id outside the question table does not change the score |
| DangerAssessment.ScoreOverUpdate | src/services/dangerAssessmentService.ts:191-195 | with distinct ids, changing one question's answer changes the score by exactly the change in that question's contribution |
| DangerAssessment.AnswerEffect | src/services/dangerAssessmentService.ts:187-195 | answering yes to a question not already yes raises the score by its weight; answering no scores like leaving it unanswered |
| DangerAssessment.ScoreOverMonotone | src/services/dangerAssessmentService.ts:191-195 | a yes answer never lowers the score |
| DangerAssessment.ScoreExtremes | src/services/dangerAssessmentService.ts:191-195 | no answers score 0; all yes scores the maximum |
| DangerAssessment.ScoreOverEmpty | src/services/dangerAssessmentService.ts:191-195 | the empty answer map scores 0 over any question list |
| DangerAssessment.ScoreOverAll | src/services/dangerAssessmentService.ts:191-195 | all-yes answers score the full weight of any question list |
| DangerAssessment.TierMonotone | src/services/dangerAssessmentService.ts:205-247 | a higher score never gives a lower tier |
| DangerAssessment.TierBoundaries | src/services/dangerAssessmentService.ts:205-247 | scores 7, 13 and 17 are the last of variable, increased and severe; 8, 14 and 18 the first of increased, severe and extreme |
| DangerAssessment.EveryTierReachable | src/services/dangerAssessmentService.ts:205-247 | each tier is the classification of some score between 0 and the maximum |
| DangerAssessment.TierOf | src/services/dangerAssessmentService.ts:205-247 | the tier's rank counts how many of the thresholds 8, 14 and 18 the score reaches |
| DangerAssessment.Interpretation | src/services/dangerAssessmentService.ts:207-237 | each tier's interpretation names that tier |
| DangerAssessment.Recommendations | src/services/dangerAssessmentService.ts:208-246 | the number of recommendations is four plus the tier's rank: 4, 5, 6 and 7 from variable to extreme |
| DangerAssessment.AddIncident | src/services/dangerAssessmentService.ts:164-171 | the new incident carries the given id, date, severity and description and is appended; answers and history are untouched |
| DangerAssessment.ApplyPatch | src/services/dangerAssessmentService.ts:173-177 | each field the patch carries replaces the incident's, each field it omits is kept |
| DangerAssessment.PatchIdempotent | src/services/dangerAssessmentService.ts:173-177 | applying a patch twice equals applying it once, and the empty patch changes nothing |
| DangerAssessment.Patched | src/services/dangerAssessmentService.ts:173-177 | every incident with the id gets the patch applied, every other one is kept, positions unchanged |
| DangerAssessment.UpdateIncident | src/services/dangerAssessmentService.ts:173-177 | incidents with other ids, the answers and the history are unchanged and the count stays |
| DangerAssessment.UpdateNoOp | src/services/dangerAssessmentService.ts:173-177 | an update of an unknown id, or with an empty patch, changes nothing |
| DangerAssessment.DeleteIncident | src/services/dangerAssessmentService.ts:179-181 | the incidents with other ids remain in order, each copy of them kept and no copy with the id; answers and history unchanged |
| DangerAssessment.DeleteMissing | src/services/dangerAssessmentService.ts:179-181 | deleting an id no incident has changes nothing |
| DangerAssessment.AddThenDelete | src/services/dangerAssessmentService.ts:164-181 | adding an incident under a fresh id and deleting that id restores the service |
| DangerAssessment.GetIncidents | src/services/dangerAssessmentService.ts:183-185 | the incidents are returned newest first, as a permutation of the log |
| DangerAssessment.SetAnswer | src/services/dangerAssessmentService.ts:187-189 | the question's answer is set, every other answer kept, the key set grows by that id only, incidents and history untouched |
| DangerAssessment.SetTrueNeverLowers | src/services/dangerAssessmentService.ts:187-247 | answering yes never lowers the score or the tier |
| DangerAssessment.Evaluate | src/services/dangerAssessmentService.ts:197-247 | the result's score is at most the maximum and its tier, interpretation and recommendations are those of that score |
| DangerAssessment.GetAssessmentResult | src/services/dangerAssessmentService.ts:197-271 | the result scores the current answers, and exactly one record — id, time, score, tier and a copy of the incidents — is appended to the history |
| DangerAssessment.EmptyAssessment | src/services/dangerAssessmentService.ts:205-213 | with no answers the result is score 0, tier variable, four recommendations |
| DangerAssessment.ThreeAssessments | src/services/dangerAssessmentService.ts:256-271 | three assessments in a row leave three records, each holding the incidents as they were at its own time |
| DangerAssessment.GetAssessmentHistory | src/services/dangerAssessmentService.ts:273-275 | the history is returned newest first, as a permutation of the records |
| DangerAssessment.GetAssessmentsByDateRange | src/services/dangerAssessmentService.ts:277-281 | the records dated within the range, both ends included, in insertion order, each one as often as it is in the history, and no other record |
| DangerAssessment.ClearAssessment | src/services/dangerAssessmentService.ts:283-286 | incidents and answers are emptied, the history is kept |
| DangerAssessment.ClearThenAssess | src/services/dangerAssessmentService.ts:283-286 | after clearing, an assessment scores 0, keeps the old history and records no incidents |
| RiskScreen.TotalOver | src/screens/RiskAssessmentScreen.tsx:106-115 | the total over any question list is at most the sum of its weights |
| RiskScreen.WeightsOfTable | src/screens/RiskAssessmentScreen.tsx:19-60 | the questionnaire's weights sum to the maximum total 20 |
| RiskScreen.Total | src/screens/RiskAssessmentScreen.tsx:106-115 | the total of the yes answers never exceeds the maximum total 20 |
| RiskScreen.LevelOf | src/screens/RiskAssessmentScreen.tsx:117-124 | high exactly when the percentage `total * 100 / max` reaches 60, medium exactly from 30 below 60, low exactly below 30; with a maximum of zero (a `NaN` percentage) low |
| RiskScreen.DivAtLeast | src/screens/RiskAssessmentScreen.tsx:117-121 | a quotient reaches a bound exactly when the dividend reaches the bound times the divisor, so the percentage test is the cross-multiplied one |
| RiskScreen.CalculateRiskLevel | src/screens/RiskAssessmentScreen.tsx:106-125 | the level is high, medium or low exactly as the yes answers' weight, as a percentage of the weight of every question, reaches 60, reaches 30 but not 60, or stays below 30 |
| RiskScreen.LevelBands | src/screens/RiskAssessmentScreen.tsx:117-124 | high exactly from a total of 12 (60 %), medium exactly from 6 (30 %) below 12, low exactly below 6 |
| RiskScreen.LevelMonotone | src/screens/RiskAssessmentScreen.tsx:117-124 | a larger total never gives a lower level |
| RiskScreen.TotalOverMonotone | src/screens/RiskAssessmentScreen.tsx:110-115 | a yes answer never lowers the total |
| RiskScreen.YesNeverLowers | src/screens/RiskAssessmentScreen.tsx:110-124 | answering yes never lowers the level |
| RiskScreen.TotalOverNone | src/screens/RiskAssessmentScreen.tsx:110-115 | with no yes answer the total is 0 |
| RiskScreen.TotalOverAll | src/screens/RiskAssessmentScreen.tsx:110-115 | with every answer yes the total is the full weight |
| RiskScreen.Extremes | src/screens/RiskAssessmentScreen.tsx:110-124 | no yes answer gives low, all yes gives high |
| RiskScreen.TableIdsDistinct | src/screens/RiskAssessmentScreen.tsx:19-60 | no two questions share an id |
| RiskScreen.CountingAnswers | src/screens/RiskAssessmentScreen.tsx:178 | with distinct ids and only question ids answered, there are at least as many answers as questions exactly when every question is answered |
| RiskScreen.SubmitEnabled | src/screens/RiskAssessmentScreen.tsx:178 | when only question ids are answered, the submit button, which counts answers, is enabled exactly when every question of the table is answered |
| RiskScreen.HandleAnswer | src/screens/RiskAssessmentScreen.tsx:127-132 | the answer is recorded and the rest of the screen is unchanged |
| RiskScreen.HandleSubmit | src/screens/RiskAssessmentScreen.tsx:134-141 | results show the level of the answers, and the assistant opens on a high level |
| RiskScreen.AssistantOpensIffHigh | src/screens/RiskAssessmentScreen.tsx:134-141 | from a closed assistant, a submit opens it exactly when the level is high |
| RiskScreen.HandleStartOver | src/screens/RiskAssessmentScreen.tsx:143-147 | answers, results and level are cleared, the assistant left as it was |
| RiskScreen.StartOverDisablesSubmit | src/screens/RiskAssessmentScreen.tsx:143-147 | after starting over the submit button is disabled |
| RiskCalendar.SeverityColor | src/components/riskAssessment/RiskAssessment.tsx:80-83 | severities 1 to 5 map to the five colours in order; anything else falls back to green |
| RiskCalendar.SeverityColorsDistinguish | src/components/riskAssessment/RiskAssessment.tsx:80-83 | equal colours mean equal severities, except that out-of-range severities look like severity 1 |
| RiskCalendar.RiskLevelColor | src/components/riskAssessment/RiskAssessment.tsx:186-194 | a tier's name gets that tier's colour; any text that names no tier gets black |
| RiskCalendar.RiskLevelColorMatchesService | src/components/riskAssessment/RiskAssessment.tsx:186-194 | the screen colours each tier name as the service colours the tier, never with the fallback black |
| RiskCalendar.MarkedDatesKeys | src/components/riskAssessment/RiskAssessment.tsx:68-78 | exactly the days that have an incident are marked |
| RiskCalendar.MarkedDates | src/components/riskAssessment/RiskAssessment.tsx:68-78 | every marked day is marked and dotted with one of the five severity colours; no incidents mark no day |
| RiskCalendar.MarkedDatesLastWins | src/components/riskAssessment/RiskAssessment.tsx:68-78 | a day shows the severity colour of its last incident in list order |
| RiskCalendar.LaterIncidentWins | src/components/riskAssessment/RiskAssessment.tsx:68-78 | of two incidents with the same day that come last in the list being marked, the later one in that list shows its colour |
| RiskCalendar.EarliestOfDayDecides | src/components/riskAssessment/RiskAssessment.tsx:68-78 | over the newest-first list the calendar marks, a day shows the colour of its earliest incident when no other incident of that day has the same time |
| RiskCalendar.HandleAddIncident | src/components/riskAssessment/RiskAssessment.tsx:36-48 | without a date or description nothing happens; otherwise the incident is appended, the form reset and the list reloaded |
| RiskCalendar.AddedIncidentShown | src/components/riskAssessment/RiskAssessment.tsx:36-48 | a completed form's incident appears in the reloaded list |
| RiskCalendar.HandleDeleteIncident | src/components/riskAssessment/RiskAssessment.tsx:51-54 | the service deletes the id, and the reloaded list is the service's `getIncidents()`, newest first, holding exactly its remaining incidents, none with the id; the rest of the form is unchanged |
| RiskCalendar.HandleAnswer | src/components/riskAssessment/RiskAssessment.tsx:56-59 | the screen's answers and the service's are updated with the same answer |
| RiskCalendar.AnswersStayInStep | src/components/riskAssessment/RiskAssessment.tsx:56-59 | answers that agree before an answer agree after it |
| RiskCalendar.HandleComplete | src/components/riskAssessment/RiskAssessment.tsx:61-66 | the result scores the service's answers and has their tier, one record is appended to the history with the incidents unchanged, the results step shows and the app moves to the RiskCheck screen |
| RiskCalendar.CompletedResultIsColoured | src/components/riskAssessment/RiskAssessment.tsx:61-66 | a completed assessment's tier is always drawn in its own colour, never the fallback black |
| Cache.CacheKeys | src/utils/cache.ts:94-95 | exactly the stored keys carrying the cache prefix |
| Cache.EnforceMaxSize | src/utils/cache.ts:111-143 | under the limit nothing changes; otherwise only cache items are removed, oldest first, until the total is within the limit, and no more than needed |
| Cache.Remove | src/utils/cache.ts:83-90 | the prefixed key is gone and every other entry is unchanged |
| Cache.Get | src/utils/cache.ts:59-81 | data is returned exactly when the item exists and its hash checks; otherwise the item is removed |
| Cache.Set | src/utils/cache.ts:36-57 | a failed digest or storage write leaves the store unchanged; otherwise the item is written with its hash and time and reads back; every entry left is the written store's entry; when the written store fits nothing is removed; otherwise only cache items go, oldest first, to within the limit |
| Cache.CleanExpired | src/utils/cache.ts:92-109 | only expired cache items are dropped; other entries stay unchanged |
| Cache.CleanExpiredExactly | src/utils/cache.ts:102-104 | a cache item survives exactly while at most 24 hours old, the boundary included |
| Cache.CleanExpiredIdempotent | src/utils/cache.ts:92-109 | cleaning twice at the same time equals cleaning once |
| Cache.WrittenItemLifetime | src/utils/cache.ts:39-47 | an item written at a time survives cleaning exactly until 24 hours later |
| Cache.ClearAll | src/utils/cache.ts:145-153 | no cache item remains and every other entry is kept |
| Cache.InitializeCache | src/utils/cache.ts:27-34 | what remains comes from the store unchanged, holds no expired cache item and every non-cache entry, and fits the limit; when the clean alone fits, nothing more is removed |
| SafePlaces.DetermineType | src/hooks/useSafePlaces.ts:63-70 | each label exactly when its type is present and no higher one is: police over hospital over embassy, otherwise a plain safe place, also for a place without types |
| SafePlaces.AllPlaces | src/hooks/useSafePlaces.ts:31-49 | one safe place per search hit, in order |
| SafePlaces.ByDistance | src/hooks/useSafePlaces.ts:52-53 | the places sorted nearest first, as a permutation |
| SafePlaces.RankFromOne | src/hooks/useSafePlaces.ts:55-58 | each place gets its position plus one as rank, nothing else changes |
| SafePlaces.ProcessPlaces | src/hooks/useSafePlaces.ts:30-61 | at most five places, ranked 1, 2, … and nearest first |
| SafePlaces.ProcessPlacesIsSortedPrefix | src/hooks/useSafePlaces.ts:52-54 | the result is the first five of the sorted list, apart from ranks |
| SafePlaces.ProcessPlacesFromInput | src/hooks/useSafePlaces.ts:31-54 | every result place comes from the input, without duplication |
| SafePlaces.ProcessPlacesKeepsClosest | src/hooks/useSafePlaces.ts:52-54 | an input place left out is at least as far as every place kept |
| Meditation.SearchTerm | src/services/meditationService.ts:66 | an empty term is replaced by the default, any other kept; the term searched is never empty |
| Meditation.AssignCategory | src/services/meditationService.ts:96-105 | each category exactly when its keywords occur and no earlier group's do: sleep, then focus, then mindfulness, otherwise stress relief |
| Meditation.CategoriesTable | src/services/meditationService.ts:34-55 | four categories with distinct ids |
| Meditation.MakeTrack | src/services/meditationService.ts:79-87 | a track carries the hit's key, title and subtitle as artist, its URI or the empty string, a five-minute duration, and the category of its lower-cased title |
| Meditation.MakeTracks | src/services/meditationService.ts:79-87 | one track per hit, in order |
| Meditation.MadeTracksHaveCategories | src/services/meditationService.ts:79-87 | every track made from a hit has one of the four category ids |
| Meditation.GroupTracksByCategory | src/services/meditationService.ts:107-115 | one session per category, in table order, holding exactly the tracks of that category in input order |
| Meditation.CategoryCounts | src/services/meditationService.ts:113 | with every track in one of the four categories the category filters together count every track once |
| Meditation.GroupIsPartition | src/services/meditationService.ts:107-115 | the four sessions together hold as many tracks as the input |
| Meditation.SearchByArtist | src/services/meditationService.ts:133-158 | one artist session titled after the query, holding the tracks of the first five hits whose artist contains the query ignoring case, in order |
| Meditation.ArtistSearchKeepsAllFewMatches | src/services/meditationService.ts:135-138 | with five or fewer matches all of them are kept in order, and a non-matching hit never appears |
| Meditation.SearchByTrack | src/services/meditationService.ts:181-199 | the title matches made into tracks and grouped as the fetch path groups all hits: one session per category with the category's id, a matching hit's track in a session iff the session is its category's, each session an in-order subsequence, session sizes summing to the number of matches; every listed title contains the query ignoring case |
| Meditation.TrackSearchFindsEveryMatch | src/services/meditationService.ts:183-199 | a hit's track is in a session iff the hit's title contains the query ignoring case and the session is that of the hit's category |
| Meditation.FetchMeditationTracks | src/services/meditationService.ts:77-89 | four sessions with the table's ids and categories; a hit's track is in a session exactly when its title's category is that session's; each session keeps the tracks' order; together they hold one track per hit |
| Security.ValidatePassword | src/utils/security.ts:111-124 | true exactly for passwords of at least six characters with an upper-case letter, a lower-case letter, a digit and a listed special character |
| Security.ShortPasswordsRejected | src/utils/security.ts:118-124 | anything shorter than six characters is weak, and a six-character password can be strong |
| Security.SanitizeData | src/utils/security.ts:94-98 | the result holds no angle brackets and is the input with its angle brackets removed, less only white space at the start and at the end |
| Security.SanitizeIdempotent | src/utils/security.ts:94-98 | sanitising twice equals sanitising once |
| Security.SafetyOfNonStrings | src/utils/security.ts:66-79 | null and undefined are unsafe, any non-string value safe |
| Security.ContainsSensitiveData | src/utils/security.ts:78-89 | only strings are ever sensitive; a string mentioning "password" or "secret", or holding a social security or card number, is |
| Security.ValidateDataSafety | src/utils/security.ts:66-73 | null and undefined are unsafe, non-strings safe, and a string safe exactly when nothing sensitive is found in it |
| Security.SecretWordsFlagged | src/utils/security.ts:80-88 | text containing "password" or "secret" in any letter case is sensitive and fails the safety check |
| Security.SsnFlagged | src/utils/security.ts:81-88 | a social security number standing alone in text fails the safety check |
| Security.GluedDigitsNotAnSsn | src/utils/security.ts:82 | digits glued to a preceding word character do not count as a social security number |
| Resources.FilterResources | src/screens/ResourcesScreen.tsx:107-112 | an in-order selection of the list whose every element matches the search and the type, keeping every copy of each matching resource and none of the others |
| Resources.MatchesSearch | src/screens/ResourcesScreen.tsx:108-109 | a resource matches exactly when the lower-cased query occurs in its lower-cased name or description |
| Resources.MatchesType | src/screens/ResourcesScreen.tsx:110 | with no type selected every resource matches; with one selected exactly the resources of that type |
| Resources.FilteredMembership | src/screens/ResourcesScreen.tsx:107-112 | a resource is shown exactly when it matches both the search and the type |
| Resources.EmptyQueryMatches | src/screens/ResourcesScreen.tsx:108-109 | the empty query matches every resource |
| Resources.EmptySearchKeeps | src/screens/ResourcesScreen.tsx:107-112 | an empty query with no type selected keeps any list whole |
| Resources.EmptySearchShowsAll | src/screens/ResourcesScreen.tsx:17-112 | the screen initially shows the whole directory, in order |
| Resources.SevenResources | src/screens/ResourcesScreen.tsx:17-88 | the directory holds seven services |
| Resources.PressChip | src/screens/ResourcesScreen.tsx:138 | pressing the selected chip clears the selection, pressing another selects it |
| Resources.PressChipEffect | src/screens/ResourcesScreen.tsx:107-138 | after a press only the pressed kind shows, or the search alone decides |
| Resources.SearchOnly | src/screens/ResourcesScreen.tsx:110 | with no type selected the filter is the search filter |
| DailyCheckIn.HandleSubmit | src/components/mentalHealth/DailyCheckIn.tsx:50-76 | without a mood or a successful save nothing changes; otherwise the entry goes first, the history keeps at most seven, and the form resets |
| DailyCheckIn.HistoryStaysBounded | src/components/mentalHealth/DailyCheckIn.tsx:64 | any sequence of submissions keeps the history at seven entries or fewer |
| DailyCheckIn.ShortHistoryKeepsEverything | src/components/mentalHealth/DailyCheckIn.tsx:64 | below seven entries a submission drops nothing |
| DailyCheckIn.ToggleActivity | src/components/mentalHealth/DailyCheckIn.tsx:78-84 | an unselected activity is appended at the end; a selected one is removed with every copy, the others kept in order and with their counts; either way the activity is selected exactly when it was not |
| DailyCheckIn.ToggleKeepsDistinct | src/components/mentalHealth/DailyCheckIn.tsx:78-84 | toggling keeps a selection free of duplicates |
| DailyCheckIn.ToggleTwice | src/components/mentalHealth/DailyCheckIn.tsx:78-84 | toggling an unselected activity twice restores the selection |
| Text.ToDecimal | src/components/mentalHealth/SelfCareReminders.tsx:147 | a non-empty digit string, one digit below ten and at most two below a hundred |
| Text.ValueOfDecimal | src/components/mentalHealth/SelfCareReminders.tsx:147 | the decimal text reads back as the number |
| SelfCare.Pad2 | src/components/mentalHealth/SelfCareReminders.tsx:147 | the padded text is at least two characters long |
| SelfCare.PadValue | src/components/mentalHealth/SelfCareReminders.tsx:147 | padding keeps a digit string's digits and its value |
| SelfCare.FormatTime | src/components/mentalHealth/SelfCareReminders.tsx:146-150 | a clock time is five characters with a colon in the middle |
| SelfCare.Split | src/utils/notifications.ts:54 | splitting always yields at least one part |
| SelfCare.SplitJoin | src/utils/notifications.ts:54 | two separator-free parts joined by the separator split back into those parts |
| SelfCare.ToNumber | src/utils/notifications.ts:54 | a number exactly for digit strings |
| SelfCare.ParseTime | src/utils/notifications.ts:54 | a time is read only from text with a colon |
| SelfCare.FormatThenParse | src/components/mentalHealth/SelfCareReminders.tsx:146-150 | the formatted hours and minutes parse back as the same hours and minutes |
| SelfCare.ToggleActivity | src/components/mentalHealth/SelfCareReminders.tsx:92-116 | activities with the id flip their switch and nothing else changes; with no such activity no reminder request is made |
| SelfCare.ToggleTwice | src/components/mentalHealth/SelfCareReminders.tsx:92-116 | toggling twice restores the activities |
| SelfCare.ToggleEffect | src/components/mentalHealth/SelfCareReminders.tsx:98-107 | turning an activity on schedules its reminder, turning it off cancels it |
| SelfCare.AddActivity | src/components/mentalHealth/SelfCareReminders.tsx:118-133 | with a missing field nothing changes; otherwise the activity is appended switched off, the form cleared and the dialog closed |
| SelfCare.AddedActivityRemindsAtPickedTime | src/components/mentalHealth/SelfCareReminders.tsx:118-133 | a new activity, switched on, schedules exactly one reminder at the picked hours and minutes |
| SelfCare.Find | src/components/mentalHealth/SelfCareReminders.tsx:136 | the first activity with the id, or none exactly when no activity has it |
| SelfCare.DeleteActivity | src/components/mentalHealth/SelfCareReminders.tsx:135-144 | the reminder is cancelled exactly when the first activity with the id is switched on; a rejected cancel leaves the list unchanged; otherwise every activity with another id remains, each copy kept, in order, and none with the id |
| SelfCare.DeleteMissing | src/components/mentalHealth/SelfCareReminders.tsx:135-144 | deleting an unknown id changes nothing and cancels nothing |
| Emergency.AddContact | src/context/EmergencyContext.tsx:43-51 | the contact is appended once stored; a failed store changes nothing |
| Emergency.Primary | src/context/EmergencyContext.tsx:82 | the primary contact is the first one, absent exactly for an empty list |
| Emergency.AddKeepsPrimary | src/context/EmergencyContext.tsx:43-51 | adding never changes an existing primary, and the first contact added becomes it |
| Emergency.RemoveContact | src/context/EmergencyContext.tsx:53-61 | once stored, every contact with another id remains, each copy kept, in order, and none with the id; a failed store changes nothing |
| Emergency.RemoveMissing | src/context/EmergencyContext.tsx:53-61 | removing an unknown id changes nothing |
| Emergency.PhoneNumbers | src/context/EmergencyContext.tsx:68 | every contact's number, in order |
| Emergency.SendEmergencySms | src/context/EmergencyContext.tsx:63-77 | an SMS with the fixed alert to every contact exactly when the service is available and there are contacts; success only if it was sent |
| Emergency.CallEmergencyContact | src/context/EmergencyContext.tsx:79-92 | with contacts, the `tel:` URL of the first contact's digits; success exactly when there are contacts and the dialler opened |
| Emergency.CallDialsDigitsOfPrimary | src/context/EmergencyContext.tsx:81-84 | every character after `tel:` is a digit from the primary contact's number |
| Emergency.TriggerEmergency | src/context/EmergencyContext.tsx:94-124 | no contacts only alerts; with contacts, a declined confirmation cancels, and a confirmed alert is reported sent exactly when the SMS went out or the dialler opened, failed exactly when neither did |
| CrisisResources.CallUrlAsWritten | src/components/mentalHealth/CrisisResources.tsx:71-73 | the call URL is `tel:` followed by the number's digits and plus signs, in order, each copy of them kept and nothing else |
| CrisisResources.CallKeepsPlainNumbers | src/components/mentalHealth/CrisisResources.tsx:71-73 | a number of digits and plus signs only is dialled unchanged |
| CrisisResources.UssdCodeIsMangled | src/components/mentalHealth/CrisisResources.tsx:71-73 | a USSD code `*a*b#` is dialled as the plain digits `ab` |
| CrisisResources.DecodeEncode | src/components/mentalHealth/CrisisResources.tsx:71-73 | encoding `#` as `%23` is undone by decoding, for text without `%` |
| CrisisResources.CallUrl | src/components/mentalHealth/CrisisResources.tsx:71-73 | the corrected URL decodes to the number's digits, plus signs, stars and hashes |
| CrisisResources.CallUrlCorrect | src/components/mentalHealth/CrisisResources.tsx:71-73 | the corrected URL carries a USSD code whole, and dials plain numbers exactly as the screen does |
| CrisisResources.WhatsAppUrlAsWritten | src/components/mentalHealth/CrisisResources.tsx:75-77 | the chat URL is the `27` prefix followed by every digit of the number |
| CrisisResources.WhatsAppKeepsTrunkZero | src/components/mentalHealth/CrisisResources.tsx:75-77 | a national number `0…` is linked as `27 0…`, trunk zero kept |
| CrisisResources.NationalNumber | src/components/mentalHealth/CrisisResources.tsx:75-77 | the digits without their leading trunk zero, if any |
| CrisisResources.WhatsAppUrl | src/components/mentalHealth/CrisisResources.tsx:75-77 | the corrected URL is the `27` prefix followed by digits only |
| CrisisResources.WhatsAppUrlInternational | src/components/mentalHealth/CrisisResources.tsx:75-77 | a national number is linked as `27` and the number without its trunk zero; other digit strings as the screen links them |
| CrisisResources.DigitNumbersPassThrough | src/components/mentalHealth/CrisisResources.tsx:71-77 | an all-digit number reaches both links unchanged |
| Performance.Stamp | src/utils/performance.ts:35-39 | the metric keeps every field, its error included, and gains the current time |
| Performance.StampKeepsInput | src/utils/performance.ts:11-18 | stamping loses none of the caller's fields |
| Performance.LogMetric | src/utils/performance.ts:35-65 | for a call that finishes before the next starts: the stamped metric is appended; at a hundred metrics a successful write takes the whole buffer into a performance log and empties it, a failed one keeps it |
| Performance.LogFileName | src/utils/performance.ts:52 | the flush's file name is a performance log name |
| Performance.StepKeeps | src/utils/performance.ts:35-65 | one call, finishing before the next starts, loses nothing: what it wrote, then its buffer, is the old buffer and the new metric |
| Performance.NothingLost | src/utils/performance.ts:35-65 | over any sequence of calls each finishing before the next starts, the written files then the buffer hold exactly the starting buffer and every metric logged, in order |
| Performance.BufferStaysBelowThreshold | src/utils/performance.ts:41-58 | for calls each finishing before the next starts, while writes succeed the buffer stays below a hundred between calls |
| Performance.StepAsWritten | src/utils/performance.ts:41-58 | with calls overlapping: a call never takes metrics out of the buffer, a write started at the threshold holds the whole buffer, and only a successful write empties the buffer, whatever was pushed meanwhile |
| Performance.OverlappingFlushLosesMetric | src/utils/performance.ts:41-58 | two calls overlapping at the threshold grow the buffer past a hundred, write the first metrics twice and lose a metric logged between the two writes' ends |
| Performance.StepSwapped | src/utils/performance.ts:41-58 | the corrected flush, which takes the buffer out when the write starts and puts it back on failure: each event holds every metric once more exactly for a logged one, and a call leaves the buffer below a hundred |
| Performance.SwappedNothingLost | src/utils/performance.ts:35-65 | with the corrected flush, however calls and write ends interleave and whichever writes fail, the metrics written, in flight and buffered are the starting ones and every metric logged, each exactly once |
| Performance.SwappedBufferBelowThreshold | src/utils/performance.ts:41-58 | with the corrected flush the buffer stays below a hundred after every event while writes succeed, even with writes in flight |
| Performance.LexLeIsTotalPreorder | src/utils/performance.ts:74 | the default string order is total and transitive |
| Performance.Retain | src/utils/performance.ts:73-82 | up to a thousand logs nothing is deleted; above, exactly the excess is deleted and a thousand kept, together a permutation of the logs |
| Performance.CleanOldLogs | src/utils/performance.ts:67-86 | the selection over the directory's performance logs: nothing deleted up to a thousand, otherwise the excess, deleted and kept together a permutation of the logs |
| Performance.CleanOldLogsDeletesSmallest | src/utils/performance.ts:71-82 | only performance logs from the directory are deleted or kept, and every deleted name sorts no later than every kept one |
| Performance.RetainDeletesSmallest | src/utils/performance.ts:73-75 | every deleted name sorts no later than every kept one |
| Performance.OtherFilesIgnored | src/utils/performance.ts:71 | files that are not performance logs never change the selection |
| Seqs.FilterIsSubseq | src/services/dangerAssessmentService.ts:180 | a filter keeps elements in their input order |
| Seqs.FilterMembers | src/services/dangerAssessmentService.ts:180 | a filter keeps exactly the elements that pass |
| Seqs.FilterCounts | src/services/dangerAssessmentService.ts:180 | a filter keeps every copy of a passing element and no copy of a failing one |
| Seqs.FilterAppend | src/components/mentalHealth/DailyCheckIn.tsx:81 | filtering a concatenation concatenates the filtered parts |
| Seqs.FilterDistinct | src/components/mentalHealth/DailyCheckIn.tsx:81 | filtering a list without duplicates leaves one without duplicates |
| Sorting.SortBy | src/hooks/useSafePlaces.ts:52-53 | the result is sorted by the comparator and a permutation of the input |
| Sorting.SortedPrefixIsSmallest | src/hooks/useSafePlaces.ts:52-54 | an element left out of a sorted list's prefix comes after every element of the prefix |
| Text.Lower | src/services/meditationService.ts:137 | every character is lower-cased in place |
| Text.LowerIdempotent | src/services/meditationService.ts:137 | lower-casing twice equals lower-casing once |
| Text.ContainsIff | src/services/meditationService.ts:137 | `includes` holds exactly when the needle occurs at some position |
| Text.Contains | src/services/meditationService.ts:137 | a text starting with the needle includes it, every text includes the empty needle, and a needle found is no longer than the text |
| Text.Trim | src/utils/security.ts:97 | the result is the input less white space at its start and at its end only, and has no white space at either end |
| Text.TrimStart | src/utils/security.ts:97 | a suffix of the input starting with no white space, everything before it white space |
| Text.TrimEnd | src/utils/security.ts:97 | a prefix of the input ending with no white space, everything after it white space |
| Text.TrimIdempotent | src/utils/security.ts:97 | trimming twice equals trimming once |
| Text.Digits | src/context/EmergencyContext.tsx:83 | only digits remain, in input order, each digit of the input kept as often as it occurs, and nothing else |
| Text.Keep | src/context/EmergencyContext.tsx:83 | a `replace` deleting the characters outside a class keeps only characters of the class, in input order |
| Text.KeepCounts | src/context/EmergencyContext.tsx:83 | such a `replace` keeps every copy of a character of the class and no other character |
| Text.LexLeTotal | src/utils/performance.ts:74 | any two strings are comparable in the default sort order |
| Text.LexLeTransitive | src/utils/performance.ts:74 | the default sort order is transitive |

## Left out

- Storage, secure storage, the file system, SMS, the dialler, notifications, location and the music, places and assistant services are outside the model; each outcome the app branches on is a parameter (`stored`, `written`, `available`, the hits of a search).
- JSON serialisation is taken to round-trip; loading stored state (`loadEmergencyContacts`, the stored check-ins and activities) is not modelled.
- Floating point is not modelled: the check-in's energy slider, the haversine distance and its formatting. Distances are integers given with each place, and the formatter is a parameter.
- The cache's SHA-256 is a parameter `hash`; its blob size is the `size` given with each item. `initializeCache` runs in the background from the constructor; its failures are only logged and not modelled.
- Cache.Set: the `expiryMs` argument is accepted and ignored, as in the source, which always expires after 24 hours.
- Cache.EnforceMaxSize: storage errors inside it (reading the keys or an item, removing an item) are only logged, which can leave the cache over its limit; the model takes every such call to succeed.
- Cache.EnforceMaxSize: the source sorts equally old items in the store's key order, which it does not define; the model may evict any of the oldest, which covers every such order.
- Cache.Get: a failed read of the underlying store is not modelled.
- Text.Lower lower-cases ASCII letters only; string lengths count characters, not UTF-16 code units, and the default sort order compares characters.
- Sorting.SortBy is a stable insertion sort; its stability is not stated as a property.
- The questionnaires' wording, help text and categories are display-only and omitted; only ids and weights are modelled.
- RiskScreen.CalculateRiskLevel: the source divides in floating point and compares percentages; the model compares `total * 100` with `60 * max` in integers, which agrees on every total from 0 to 20.
- RiskCalendar.HandleComplete: navigation is the name of the screen navigated to; rendering the results is not modelled.
- RiskCalendar.EarliestOfDayDecides: when two incidents of one day have the same time, which colour shows depends on the order the stable sort keeps them in, and Sorting.SortBy does not state stability.
- RiskScreen.LevelOf: the source divides in floating point; the model uses the integer part of the percentage, which reaches 60 or 30 exactly when the real percentage does.
- The danger assessment's and calendar's ids and times come from the clock; they are parameters, and so is the check-in's date and the day key a date is shown under.
- Performance.LogMetric: takes calls one at a time, each finishing before the next starts; no caller awaits `logMetric`, and overlapping calls are modelled separately by Performance.StepAsWritten. The clock at the metric and at the flush are separate parameters; the empty-buffer guard of the flush cannot trigger from `logMetric` and is not modelled.
- Performance.NothingLost: holds only for calls that do not overlap; with overlapping calls the source can lose metrics (see Findings), and Performance.SwappedNothingLost states it for the corrected flush.
- Performance.BufferStaysBelowThreshold: holds only for calls that do not overlap; while a write is in flight the source's buffer grows past a hundred, which Performance.SwappedBufferBelowThreshold rules out for the corrected flush.
- Performance.StepAsWritten: two writes started in the same millisecond get the same file name, and the later one replaces the earlier file; the model keeps both writes. Errors thrown by the clean-up after a write are not modelled.
- Performance.Stamp: a `null` and an absent stack of an error are both `None`.
- Performance.CleanOldLogs: a failed directory read or delete is not modelled; the deletions requested are the result.
- `withPerformanceTracking`, audio playback, the `SAFETY_RESOURCES` constant, navigation and rendering are not part of this model.
- SelfCare.ToNumber reads digit strings only; other inputs give no number, where `Number()` would give `NaN` or read signs, decimals and whitespace.

## Findings

| source | as written | input that shows it | evidently intended | confidence | as-written member | corrected member |
|---|---|---|---|---|---|---|
| src/components/mentalHealth/CrisisResources.tsx:71-73 | the call button keeps only digits and `+` | the TEARS Foundation number `*134*7355#` dials `tel:1347355` | a USSD code reaches the dialler whole, `#` encoded | not executed | CrisisResources.UssdCodeIsMangled | CrisisResources.CallUrlCorrect |
| src/components/mentalHealth/CrisisResources.tsx:75-77 | the WhatsApp link puts `27` before every digit of a national number | `0817 9937 28` links to `phone=270817993728` | `phone=27817993728`, the trunk `0` dropped | not executed | CrisisResources.WhatsAppKeepsTrunkZero | CrisisResources.WhatsAppUrlInternational |
| src/utils/performance.ts:41-58 | `logMetric` is not awaited by its callers, and the flush serialises the whole buffer, awaits the write, and only then empties the buffer | 99 metrics buffered; log m1 and m2 before either write ends; the first write ends; log m3; the second write ends: m1 and the 99 are written twice, m3 is never written, and the buffer held 101 metrics meanwhile | every logged metric written exactly once, by taking the buffer out before the write and putting it back if the write fails | not executed | Performance.OverlappingFlushLosesMetric | Performance.SwappedNothingLost |

=== FILE: cache.dfy ===
/** The integrity-checked key/value cache over the device's key/value
    store: time-to-live expiry, oldest-first eviction under a byte budget,
    and the get/set/remove/clear operations. Only keys carrying the cache
    prefix belong to the cache; every other key of the store is left alone. */
module Cache {
  import opened Options
  import Text

  /** A stored cache item. `data` is the JSON text of the cached value,
      `hash` the digest recorded when it was written, and `size` the byte
      size of the whole serialised item. */
  datatype Item = Item(data: string, timestamp: int, hash: string, size: nat)

  /** The device store: every key, cache or not. */
  type Store = map<string, Item>

  /** 24 hours in milliseconds. */
  const DefaultExpiry: int := 24 * 60 * 60 * 1000
  /** 50 MiB. */
  const MaxCacheSize: nat := 50 * 1024 * 1024
  const Prefix: string := "cache_"

  predicate IsCacheKey(k: string) {
    Text.StartsWith(k, Prefix)
  }

  /** The keys of `store` that belong to the cache. */
  function CacheKeys(store: Store): (r: set<string>)
    ensures forall k :: k in r <==> k in store && IsCacheKey(k)
  {
    set k | k in store && IsCacheKey(k)
  }

  /** Total byte size of the items under `ks` (absent keys weigh nothing). */
  ghost function SizeOf(store: Store, ks: set<string>): nat
    decreases ks
  {
    if ks == {} then 0
    else
      var k :| k in ks;
      (if k in store then store[k].size else 0) + SizeOf(store, ks - {k})
  }

  /** The byte size of the whole cache. */
  ghost function CacheSize(store: Store): nat {
    SizeOf(store, CacheKeys(store))
  }

  /** The sum does not depend on the order in which keys are taken. */
  lemma {:induction false} SizeOfRemove(store: Store, ks: set<string>, k: string)
    requires k in ks
    ensures SizeOf(store, ks) == (if k in store then store[k].size else 0) + SizeOf(store, ks - {k})
    decreases ks
  {
    var j :| j in ks && SizeOf(store, ks) == (if j in store then store[j].size else 0) + SizeOf(store, ks - {j});
    if j != k {
      SizeOfRemove(store, ks - {j}, k);
      SizeOfRemove(store, ks - {k}, j);
      assert ks - {j} - {k} == ks - {k} - {j};
    }
  }

  /** Two stores that agree on `ks` weigh the same over `ks`. */
  lemma {:induction false} SizeOfAgree(a: Store, b: Store, ks: set<string>)
    requires forall k :: k in ks ==> (k in a <==> k in b) && (k in a ==> a[k].size == b[k].size)
    ensures SizeOf(a, ks) == SizeOf(b, ks)
    decreases ks
  {
    if ks != {} {
      var k :| k in ks;
      SizeOfRemove(a, ks, k);
      SizeOfRemove(b, ks, k);
      SizeOfAgree(a, b, ks - {k});
    }
  }

  /** Every non-empty key set has an oldest member. */
  lemma {:induction false} OldestExists(store: Store, ks: set<string>)
    requires ks != {} && ks <= store.Keys
    ensures exists k :: k in ks && forall j :: j in ks ==> store[k].timestamp <= store[j].timestamp
    decreases ks
  {
    var k :| k in ks;
    if ks - {k} != {} {
      OldestExists(store, ks - {k});
      var m :| m in ks - {k} && forall j :: j in ks - {k} ==> store[m].timestamp <= store[j].timestamp;
      if store[k].timestamp <= store[m].timestamp {
        assert forall j :: j in ks ==> store[k].timestamp <= store[j].timestamp;
      } else {
        assert forall j :: j in ks ==> store[m].timestamp <= store[j].timestamp;
      }
    } else {
      assert ks == {k};
    }
  }

  /** `enforceMaxSize`: when the cache weighs more than the budget, evicts
      oldest items first until it fits. Items with equal timestamps may go
      in any order, as the source's ordering of equal keys is not fixed. */
  method EnforceMaxSize(store: Store) returns (r: Store)
    ensures CacheSize(store) <= MaxCacheSize ==> r == store
    ensures CacheSize(r) <= MaxCacheSize
    ensures forall k :: k in r ==> k in store && r[k] == store[k]
    ensures forall k :: k in store && !IsCacheKey(k) ==> k in r
    ensures forall e, s :: e in store && e !in r && s in CacheKeys(r) ==> store[e].timestamp <= store[s].timestamp
    ensures r != store ==> exists e :: e in store && e !in r && CacheSize(r) + store[e].size > MaxCacheSize
  {
    var keys := CacheKeys(store);
    var total := 0;
    var todo := keys;
    while todo != {}
      invariant todo <= keys
      invariant total + SizeOf(store, todo) == SizeOf(store, keys)
      decreases todo
    {
      var k :| k in todo;
      SizeOfRemove(store, todo, k);
      total := total + store[k].size;
      todo := todo - {k};
    }
    r := store;
    if total > MaxCacheSize {
      var items := keys;
      ghost var last: string := "";
      while total > MaxCacheSize && items != {}
        invariant items <= keys
        invariant total == SizeOf(store, items)
        invariant forall k :: k in r <==> k in store && (k in items || k !in keys)
        invariant forall k :: k in r ==> r[k] == store[k]
        invariant forall e, s :: e in keys - items && s in items ==> store[e].timestamp <= store[s].timestamp
        invariant r != store ==> last in store && last !in r && total + store[last].size > MaxCacheSize
        decreases items
      {
        OldestExists(store, items);
        var k :| k in items && forall j :: j in items ==> store[k].timestamp <= store[j].timestamp;
        SizeOfRemove(store, items, k);
        r := r - {k};
        total := total - store[k].size;
        items := items - {k};
        last := k;
      }
      assert CacheKeys(r) == items;
      SizeOfAgree(r, store, items);
    } else {
      assert CacheKeys(r) == keys;
    }
  }

  /** `remove`: drops the cache entry for `key`. */
  function Remove(store: Store, key: string): (r: Store)
    ensures Prefix + key !in r
    ensures forall k :: k != Prefix + key ==> (k in r <==> k in store) && (k in r ==> r[k] == store[k])
  {
    store - {Prefix + key}
  }

  /** `get`: the cached value, after an integrity check of its digest. A
      mismatching entry is removed. The second component is the store
      after the call. */
  function Get(store: Store, key: string, hash: string -> string): (r: (Option<string>, Store))
    ensures r.0.Some? <==> Prefix + key in store && hash(store[Prefix + key].data) == store[Prefix + key].hash
    ensures r.0.Some? ==> r.0.value == store[Prefix + key].data && r.1 == store
    ensures r.0.None? ==> r.1 == Remove(store, key)
  {
    var cacheKey := Prefix + key;
    if cacheKey !in store then (None, store)
    else
      var item := store[cacheKey];
      if hash(item.data) != item.hash then (None, Remove(store, key))
      else (Some(item.data), store)
  }

  /** `set`: stores the value with its digest and the current time, then
      enforces the size budget. `expiryMs` is accepted and ignored: the
      item keeps no expiry of its own. `size` is the byte size of the
      serialised item. `written` is whether the digest and the storage
      write succeeded; a failure is only logged and leaves the store as it
      was. */
  method Set(store: Store, key: string, data: string, expiryMs: int, now: int, hash: string -> string,
             size: nat, written: bool)
    returns (r: Store)
    ensures !written ==> r == store
    ensures written && Prefix + key in r ==> r[Prefix + key] == Item(data, now, hash(data), size)
    ensures written && Prefix + key in r ==> Get(r, key, hash).0 == Some(data)
    ensures written && CacheSize(store[Prefix + key := Item(data, now, hash(data), size)]) <= MaxCacheSize ==>
      Prefix + key in r
    ensures written ==> CacheSize(r) <= MaxCacheSize
    ensures forall k :: k in store && !IsCacheKey(k) && k != Prefix + key ==> k in r && r[k] == store[k]
    ensures var w := store[Prefix + key := Item(data, now, hash(data), size)];
      written ==> forall k :: k in r ==> k in w && r[k] == w[k]
    ensures var w := store[Prefix + key := Item(data, now, hash(data), size)];
      written && CacheSize(w) <= MaxCacheSize ==> r == w
    ensures var w := store[Prefix + key := Item(data, now, hash(data), size)];
      written ==> forall e, s :: e in w && e !in r && s in CacheKeys(r) ==> w[e].timestamp <= w[s].timestamp
  {
    if !written {
      return store;
    }
    var w := store[Prefix + key := Item(data, now, hash(data), size)];
    r := EnforceMaxSize(w);
  }

  /** `cleanExpiredCache` at time `now`: removes the cache items more than
      a day old; the comparison is strict. The source reads the clock once
      per key inside a loop that awaits each read; `now` stands for those
      reads taken as one snapshot. */
  function CleanExpired(store: Store, now: int): (r: Store)
    ensures forall k :: k in r ==> k in store && r[k] == store[k]
    ensures forall k :: k in store && !IsCacheKey(k) ==> k in r
  {
    map k | k in store && !(IsCacheKey(k) && now - store[k].timestamp > DefaultExpiry) :: store[k]
  }

  /** An item survives cleaning exactly when it is not a cache item or is
      at most a day old; in particular an item exactly a day old stays. */
  lemma CleanExpiredExactly(store: Store, now: int, k: string)
    requires k in store
    ensures k in CleanExpired(store, now) <==> !IsCacheKey(k) || now - store[k].timestamp <= DefaultExpiry
    ensures now == store[k].timestamp + DefaultExpiry ==> k in CleanExpired(store, now)
  {
  }

  /** Cleaning twice at the same time removes nothing more. */
  lemma CleanExpiredIdempotent(store: Store, now: int)
    ensures CleanExpired(CleanExpired(store, now), now) == CleanExpired(store, now)
  {
  }

  /** An item written by `set` expires a day after it was written, whatever
      `expiryMs` was passed. */
  lemma WrittenItemLifetime(store: Store, key: string, data: string, written: int, now: int, hash: string -> string, size: nat)
    ensures var s := CleanExpired(store[Prefix + key := Item(data, written, hash(data), size)], now);
      Prefix + key in s <==> now <= written + DefaultExpiry
  {
    assert IsCacheKey(Prefix + key);
  }

  /** `initializeCache` at time `now`: cleans expired items, then enforces
      the size budget. What is left is unexpired, within budget, untouched
      otherwise, and only trimmed further when the clean alone was not
      enough. */
  method InitializeCache(store: Store, now: int) returns (r: Store)
    ensures forall k :: k in r ==> k in store && r[k] == store[k]
    ensures forall k :: k in r && IsCacheKey(k) ==> now - store[k].timestamp <= DefaultExpiry
    ensures forall k :: k in store && !IsCacheKey(k) ==> k in r
    ensures CacheSize(r) <= MaxCacheSize
    ensures CacheSize(CleanExpired(store, now)) <= MaxCacheSize ==> r == CleanExpired(store, now)
  {
    var cleaned := CleanExpired(store, now);
    r := EnforceMaxSize(cleaned);
  }

  /** `clearAll`: removes every cache key and nothing else. */
  function ClearAll(store: Store): (r: Store)
    ensures CacheKeys(r) == {}
    ensures forall k :: k in store && !IsCacheKey(k) ==> k in r && r[k] == store[k]
    ensures forall k :: k in r ==> k in store
  {
    map k | k in store && !IsCacheKey(k) :: store[k]
  }
}

=== FILE: crisis_resources.dfy ===
/** The crisis-resources screen's number handling: the `tel:` URL of the
    call buttons and the WhatsApp chat URL. Each comes twice: as the
    screen builds it, and corrected for the two inputs the screen's own
    list shows it gets wrong (see the findings in the README). */
module CrisisResources {
  import Seqs
  import Text

  // ---------------------------------------------------------------------
  // Calls

  /** The characters `replace(/[^0-9+]/g, '')` keeps. */
  predicate IsDialChar(c: char) {
    Text.IsDigit(c) || c == '+'
  }

  const TelPrefix: string := "tel:"

  /** `handleCall` as written: `tel:` and the number with everything but
      digits and `+` removed. */
  function CallUrlAsWritten(number: string): (r: string)
    ensures Text.StartsWith(r, TelPrefix)
    ensures forall i :: |TelPrefix| <= i < |r| ==> IsDialChar(r[i])
    ensures Seqs.IsSubseq(r[|TelPrefix|..], number)
    ensures forall c :: multiset(r[|TelPrefix|..])[c] == if IsDialChar(c) then multiset(number)[c] else 0
  {
    var kept := Text.Keep(number, IsDialChar);
    Text.KeepCounts(number, IsDialChar);
    assert (TelPrefix + kept)[|TelPrefix|..] == kept;
    TelPrefix + kept
  }

  /** A number made of dial characters only is dialled as it is. */
  lemma CallKeepsPlainNumbers(number: string)
    requires forall i :: 0 <= i < |number| ==> IsDialChar(number[i])
    ensures CallUrlAsWritten(number) == TelPrefix + number
  {
    Seqs.FilterKeepsAll(number, IsDialChar);
  }

  /** The USSD code of the list's TEARS entry, `*134*7355#`, loses its
      `*` and `#`: the call button dials the plain number `1347355`. */
  lemma UssdCodeIsMangled(a: string, b: string)
    requires forall i :: 0 <= i < |a| ==> Text.IsDigit(a[i])
    requires forall i :: 0 <= i < |b| ==> Text.IsDigit(b[i])
    ensures CallUrlAsWritten("*" + a + "*" + b + "#") == TelPrefix + a + b
  {
    var s1 := "*" + a;
    var s2 := s1 + "*";
    var s3 := s2 + b;
    assert Seqs.Filter("*", IsDialChar) == [] && Seqs.Filter("#", IsDialChar) == [];
    Seqs.FilterKeepsAll(a, IsDialChar);
    Seqs.FilterKeepsAll(b, IsDialChar);
    Seqs.FilterAppend("*", a, IsDialChar);
    assert Seqs.Filter(s1, IsDialChar) == a;
    Seqs.FilterAppend(s1, "*", IsDialChar);
    assert Seqs.Filter(s2, IsDialChar) == a;
    Seqs.FilterAppend(s2, b, IsDialChar);
    assert Seqs.Filter(s3, IsDialChar) == a + b;
    Seqs.FilterAppend(s3, "#", IsDialChar);
    assert s3 + "#" == "*" + a + "*" + b + "#";
    assert Text.Keep(s3 + "#", IsDialChar) == a + b;
    assert TelPrefix + (a + b) == TelPrefix + a + b;
  }

  /** The characters a dial string may hold, USSD codes included. */
  predicate IsDialOrUssdChar(c: char) {
    IsDialChar(c) || c == '*' || c == '#'
  }

  /** Writes `#` as `%23`, so that it survives inside a URL. */
  function EncodeHash(s: string): (r: string)
    ensures '#' !in r
  {
    if |s| == 0 then ""
    else if s[0] == '#' then "%23" + EncodeHash(s[1..])
    else [s[0]] + EncodeHash(s[1..])
  }

  /** Reads `%23` back as `#`. */
  function DecodeHash(s: string): string {
    if |s| == 0 then ""
    else if Text.StartsWith(s, "%23") then "#" + DecodeHash(s[3..])
    else [s[0]] + DecodeHash(s[1..])
  }

  /** Encoding loses nothing on strings without `%`. */
  lemma {:induction false} DecodeEncode(s: string)
    requires '%' !in s
    ensures DecodeHash(EncodeHash(s)) == s
  {
    if |s| > 0 {
      DecodeEncode(s[1..]);
      var e := EncodeHash(s);
      if s[0] == '#' {
        assert e == "%23" + EncodeHash(s[1..]);
        assert Text.StartsWith(e, "%23");
        assert e[3..] == EncodeHash(s[1..]);
      } else {
        assert e == [s[0]] + EncodeHash(s[1..]);
        assert s[0] != '%' by { assert s[0] in s; }
        assert e[0] == s[0];
        assert !Text.StartsWith(e, "%23");
        assert e[1..] == EncodeHash(s[1..]);
      }
      assert s == [s[0]] + s[1..];
    }
  }

  /** `handleCall` corrected: keeps `*` and `#` as well, with `#` encoded,
      so a USSD code reaches the dialler whole. */
  function CallUrl(number: string): (r: string)
    ensures Text.StartsWith(r, TelPrefix)
    ensures DecodeHash(r[|TelPrefix|..]) == Text.Keep(number, IsDialOrUssdChar)
  {
    var kept := Text.Keep(number, IsDialOrUssdChar);
    DecodeEncode(kept);
    assert (TelPrefix + EncodeHash(kept))[|TelPrefix|..] == EncodeHash(kept);
    TelPrefix + EncodeHash(kept)
  }

  /** The corrected call dials a USSD code as written, and any number of
      digits and `+` exactly as the screen does. */
  lemma CallUrlCorrect(a: string, b: string, number: string)
    requires forall i :: 0 <= i < |a| ==> Text.IsDigit(a[i])
    requires forall i :: 0 <= i < |b| ==> Text.IsDigit(b[i])
    requires forall i :: 0 <= i < |number| ==> IsDialChar(number[i])
    ensures var url := CallUrl("*" + a + "*" + b + "#");
      DecodeHash(url[|TelPrefix|..]) == "*" + a + "*" + b + "#"
    ensures CallUrl(number) == CallUrlAsWritten(number)
  {
    var u := "*" + a + "*" + b + "#";
    Seqs.FilterKeepsAll(u, IsDialOrUssdChar);
    Seqs.FilterKeepsAll(number, IsDialOrUssdChar);
    Seqs.FilterKeepsAll(number, IsDialChar);
    EncodeHashPlain(number);
  }

  lemma {:induction false} EncodeHashPlain(s: string)
    requires '#' !in s
    ensures EncodeHash(s) == s
  {
    if |s| > 0 {
      EncodeHashPlain(s[1..]);
      assert s == [s[0]] + s[1..];
    }
  }

  // ---------------------------------------------------------------------
  // WhatsApp

  /** The chat URL up to the phone number, South Africa's country code 27
      included. */
  const WhatsAppPrefix: string := "whatsapp://send?phone=27"

  /** `handleWhatsApp` as written: the prefix and every digit of the number. */
  function WhatsAppUrlAsWritten(number: string): (r: string)
    ensures Text.StartsWith(r, WhatsAppPrefix)
    ensures r[|WhatsAppPrefix|..] == Text.Digits(number)
  {
    assert (WhatsAppPrefix + Text.Digits(number))[|WhatsAppPrefix|..] == Text.Digits(number);
    WhatsAppPrefix + Text.Digits(number)
  }

  /** A number that is all digits passes through both buttons unchanged
      apart from the prefix. */
  lemma DigitNumbersPassThrough(number: string)
    requires forall i :: 0 <= i < |number| ==> Text.IsDigit(number[i])
    ensures CallUrlAsWritten(number) == TelPrefix + number
    ensures WhatsAppUrlAsWritten(number) == WhatsAppPrefix + number
  {
    Seqs.FilterKeepsAll(number, IsDialChar);
    Seqs.FilterKeepsAll(number, Text.IsDigit);
  }

  /** A number in the national form the list uses (`0817 9937 28`, say)
      keeps its trunk `0` after the country code, so the chat goes to
      `+27 0…` instead of `+27 …`. */
  lemma WhatsAppKeepsTrunkZero(rest: string)
    requires forall i :: 0 <= i < |rest| ==> Text.IsDigit(rest[i])
    ensures WhatsAppUrlAsWritten("0" + rest) == WhatsAppPrefix + "0" + rest
  {
    Seqs.FilterKeepsAll("0" + rest, Text.IsDigit);
  }

  /** The national number: the digits without a leading trunk `0`. */
  function NationalNumber(digits: string): (r: string)
    ensures |digits| > 0 && digits[0] == '0' ==> r == digits[1..]
    ensures !(|digits| > 0 && digits[0] == '0') ==> r == digits
  {
    if |digits| > 0 && digits[0] == '0' then digits[1..] else digits
  }

  /** `handleWhatsApp` corrected: the country code followed by the national
      number, the international form the chat link expects. */
  function WhatsAppUrl(number: string): (r: string)
    ensures Text.StartsWith(r, WhatsAppPrefix)
    ensures forall i :: |WhatsAppPrefix| <= i < |r| ==> Text.IsDigit(r[i])
  {
    var n := NationalNumber(Text.Digits(number));
    assert forall i :: 0 <= i < |n| ==> Text.IsDigit(n[i]);
    WhatsAppPrefix + n
  }

  /** For a national-form number the corrected link carries `27` followed
      by the number without its trunk `0`; numbers already without it are
      linked as the screen links them. */
  lemma WhatsAppUrlInternational(rest: string, number: string)
    requires forall i :: 0 <= i < |rest| ==> Text.IsDigit(rest[i])
    requires forall i :: 0 <= i < |number| ==> Text.IsDigit(number[i])
    requires |number| > 0 && number[0] != '0'
    ensures WhatsAppUrl("0" + rest) == WhatsAppPrefix + rest
    ensures WhatsAppUrl(number) == WhatsAppUrlAsWritten(number)
  {
    Seqs.FilterKeepsAll("0" + rest, Text.IsDigit);
    Seqs.FilterKeepsAll(number, Text.IsDigit);
    assert ("0" + rest)[1..] == rest;
  }
}

=== FILE: daily_check_in.dfy ===
/** The daily mood check-in: submitting an entry into the bounded recent
    history, resetting the form, and the activity chips. */
module DailyCheckIn {
  import Seqs

  datatype MoodEntry = MoodEntry(date: string, mood: string, journal: string,
                                 activities: seq<string>, energyLevel: real)

  /** The form and the recent history it shows. */
  datatype CheckIn = CheckIn(mood: string, journal: string, activities: seq<string>,
                             energyLevel: real, recent: seq<MoodEntry>)

  /** How many entries the history keeps ("last 7 days"). */
  const HistoryLimit: nat := 7

  const DefaultEnergy: real := 0.5

  /** `handleSubmit`. `now` is the ISO date string of the moment of the
      call and `saved` tells whether the store accepted the new history;
      when it did not, nothing changes. */
  function HandleSubmit(c: CheckIn, now: string, saved: bool): (r: CheckIn)
    ensures c.mood == "" || !saved ==> r == c
    ensures c.mood != "" && saved ==>
      && |r.recent| == (if |c.recent| < HistoryLimit then |c.recent| + 1 else HistoryLimit)
      && r.recent[0] == MoodEntry(now, c.mood, c.journal, c.activities, c.energyLevel)
      && r.recent[1..] == c.recent[..|r.recent| - 1]
      && r.mood == "" && r.journal == "" && r.activities == [] && r.energyLevel == DefaultEnergy
  {
    if c.mood == "" then c
    else
      var all := [MoodEntry(now, c.mood, c.journal, c.activities, c.energyLevel)] + c.recent;
      var updated := all[..if |all| < HistoryLimit then |all| else HistoryLimit];
      if !saved then c
      else CheckIn("", "", [], DefaultEnergy, updated)
  }

  /** The history never grows beyond seven entries, whatever is submitted. */
  lemma {:induction false} HistoryStaysBounded(c: CheckIn, nows: seq<string>, saves: seq<bool>)
    requires |c.recent| <= HistoryLimit && |nows| == |saves|
    ensures |SubmitAll(c, nows, saves).recent| <= HistoryLimit
    decreases |nows|
  {
    if |nows| > 0 {
      var next := HandleSubmit(c, nows[0], saves[0]);
      HistoryStaysBounded(next.(mood := c.mood, journal := c.journal, activities := c.activities, energyLevel := c.energyLevel),
                          nows[1..], saves[1..]);
    }
  }

  /** A run of submissions, the next one only after the form is filled in
      again with the same contents. */
  function SubmitAll(c: CheckIn, nows: seq<string>, saves: seq<bool>): CheckIn
    requires |nows| == |saves|
    decreases |nows|
  {
    if |nows| == 0 then c
    else
      var next := HandleSubmit(c, nows[0], saves[0]);
      SubmitAll(next.(mood := c.mood, journal := c.journal, activities := c.activities, energyLevel := c.energyLevel),
                nows[1..], saves[1..])
  }

  /** Below the limit nothing is dropped: the new entry is simply put first. */
  lemma ShortHistoryKeepsEverything(c: CheckIn, now: string)
    requires c.mood != "" && |c.recent| < HistoryLimit
    ensures HandleSubmit(c, now, true).recent == [MoodEntry(now, c.mood, c.journal, c.activities, c.energyLevel)] + c.recent
  {
  }

  function Without(a: string): string -> bool {
    (x: string) => x != a
  }

  /** `toggleActivity`: removes the activity when present, else appends it. */
  function ToggleActivity(selected: seq<string>, activity: string): (r: seq<string>)
    ensures activity in r <==> activity !in selected
    ensures forall x :: x != activity ==> (x in r <==> x in selected)
    ensures activity !in selected ==> r == selected + [activity]
    ensures activity in selected ==> Seqs.IsSubseq(r, selected)
    ensures activity in selected ==>
      forall x :: multiset(r)[x] == if x != activity then multiset(selected)[x] else 0
  {
    if activity in selected then
      Seqs.FilterMembers(selected, Without(activity));
      Seqs.FilterIsSubseq(selected, Without(activity));
      Seqs.FilterCounts(selected, Without(activity));
      Seqs.Filter(selected, Without(activity))
    else selected + [activity]
  }

  /** Toggling keeps the selection free of repetitions. */
  lemma ToggleKeepsDistinct(selected: seq<string>, activity: string)
    requires Seqs.Distinct(selected)
    ensures Seqs.Distinct(ToggleActivity(selected, activity))
  {
    if activity in selected {
      Seqs.FilterDistinct(selected, Without(activity));
    }
  }

  /** Pressing a chip that was off twice restores the selection exactly. */
  lemma ToggleTwice(selected: seq<string>, activity: string)
    requires activity !in selected
    ensures ToggleActivity(ToggleActivity(selected, activity), activity) == selected
  {
    Seqs.FilterAppend(selected, [activity], Without(activity));
    Seqs.FilterKeepsAll(selected, Without(activity));
    assert Seqs.Filter([activity], Without(activity)) == [];
  }
}

=== FILE: danger_assessment.dfy ===
/** The danger-assessment engine: a weighted yes/no score over a fixed
    fifteen-question table, a four-tier risk level with fixed
    interpretations and recommendations, and the in-memory store of
    incidents, answers and the append-only assessment history.

    The single mutable service object of the source becomes the value
    `Service`; every operation returns the new value (and its result). */
module DangerAssessment {
  import opened Options
  import Seqs
  import Sorting
  import Text

  /** Risk tiers, in increasing order of danger. */
  datatype Tier = Variable | Increased | Severe | Extreme

  function Rank(t: Tier): nat {
    match t
    case Variable => 0
    case Increased => 1
    case Severe => 2
    case Extreme => 3
  }

  /** The tier's name as the source spells it. */
  function TierName(t: Tier): string {
    match t
    case Variable => "variable"
    case Increased => "increased"
    case Severe => "severe"
    case Extreme => "extreme"
  }

  /** The display colour of each tier (`RISK_LEVEL_COLORS`). */
  function TierColor(t: Tier): string {
    match t
    case Variable => "#4CAF50"
    case Increased => "#FF9800"
    case Severe => "#F44336"
    case Extreme => "#D32F2F"
  }

  /** A question of the table as far as scoring goes: its id and weight.
      The wording, help text and category are display-only. */
  datatype Question = Question(id: string, weight: nat)

  /** The question table (`ASSESSMENT_QUESTIONS`). */
  const Questions: seq<Question> := [
    Question("1", 1),
    Question("2", 1),
    Question("3", 2),
    Question("4", 1),
    Question("5", 1),
    Question("6", 3),
    Question("7", 3),
    Question("8", 3),
    Question("9", 1),
    Question("10", 1),
    Question("11", 2),
    Question("12", 2),
    Question("13", 3),
    Question("14", 2),
    Question("15", 2)
  ]

  /** The highest reachable score: every question answered `true`. */
  const MaxScore: nat := 28

  /** Tier thresholds: below 8 variable, below 14 increased, below 18 severe. */
  const IncreasedFrom: nat := 8
  const SevereFrom: nat := 14
  const ExtremeFrom: nat := 18

  ghost predicate DistinctIds(qs: seq<Question>) {
    forall i, j :: 0 <= i < j < |qs| ==> qs[i].id != qs[j].id
  }

  function WeightSum(qs: seq<Question>): nat {
    if |qs| == 0 then 0 else WeightSum(qs[..|qs| - 1]) + qs[|qs| - 1].weight
  }

  /** What one question adds: its weight when answered `true`, else 0. */
  function Contribution(q: Question, answers: map<string, bool>): nat {
    if q.id in answers && answers[q.id] then q.weight else 0
  }

  /** Left fold of the contributions over `qs` (the source's `reduce`). */
  function ScoreOver(qs: seq<Question>, answers: map<string, bool>): (r: nat)
    ensures r <= WeightSum(qs)
  {
    if |qs| == 0 then 0
    else ScoreOver(qs[..|qs| - 1], answers) + Contribution(qs[|qs| - 1], answers)
  }

  /** `calculateScore`. */
  function Score(answers: map<string, bool>): (r: nat)
    ensures r <= WeightSum(Questions)
  {
    ScoreOver(Questions, answers)
  }

  /** No two questions share an id. */
  lemma QuestionIdsDistinct()
    ensures DistinctIds(Questions)
  {
    forall i, j | 0 <= i < j < |Questions| ensures Questions[i].id != Questions[j].id {
      var a, b := Questions[i].id, Questions[j].id;
      assert |a| != |b| || a[|a| - 1] != b[|b| - 1];
    }
  }

  /** The question table's weights add up to the maximum score, and its ids are distinct. */
  lemma QuestionTable()
    ensures WeightSum(Questions) == MaxScore
    ensures DistinctIds(Questions)
  {
    QuestionIdsDistinct();
    assert WeightSum(Questions[..1]) == 1;
    assert Questions[..2][..1] == Questions[..1];
    assert WeightSum(Questions[..2]) == 2;
    assert Questions[..3][..2] == Questions[..2];
    assert WeightSum(Questions[..3]) == 4;
    assert Questions[..4][..3] == Questions[..3];
    assert WeightSum(Questions[..4]) == 5;
    assert Questions[..5][..4] == Questions[..4];
    assert WeightSum(Questions[..5]) == 6;
    assert Questions[..6][..5] == Questions[..5];
    assert WeightSum(Questions[..6]) == 9;
    assert Questions[..7][..6] == Questions[..6];
    assert WeightSum(Questions[..7]) == 12;
    assert Questions[..8][..7] == Questions[..7];
    assert WeightSum(Questions[..8]) == 15;
    assert Questions[..9][..8] == Questions[..8];
    assert WeightSum(Questions[..9]) == 16;
    assert Questions[..10][..9] == Questions[..9];
    assert WeightSum(Questions[..10]) == 17;
    assert Questions[..11][..10] == Questions[..10];
    assert WeightSum(Questions[..11]) == 19;
    assert Questions[..12][..11] == Questions[..11];
    assert WeightSum(Questions[..12]) == 21;
    assert Questions[..13][..12] == Questions[..12];
    assert WeightSum(Questions[..13]) == 24;
    assert Questions[..14][..13] == Questions[..13];
    assert WeightSum(Questions[..14]) == 26;
    assert Questions[..15][..14] == Questions[..14];
    assert WeightSum(Questions[..15]) == 28;
    assert Questions[..15] == Questions;
  }

  /** Every score lies between 0 and the maximum. */
  lemma ScoreBounds(answers: map<string, bool>)
    ensures 0 <= Score(answers) <= MaxScore
  {
    QuestionTable();
  }

  /** Answers for ids outside `qs` do not move the fold over `qs`. */
  lemma {:induction false} ScoreOverIgnores(qs: seq<Question>, answers: map<string, bool>, id: string, v: bool)
    requires forall i :: 0 <= i < |qs| ==> qs[i].id != id
    ensures ScoreOver(qs, answers[id := v]) == ScoreOver(qs, answers)
  {
    if |qs| > 0 {
      ScoreOverIgnores(qs[..|qs| - 1], answers, id, v);
    }
  }

  /** Unknown question ids are silently ignored by the scorer. */
  lemma UnknownIdIgnored(answers: map<string, bool>, id: string, v: bool)
    requires forall i :: 0 <= i < |Questions| ==> Questions[i].id != id
    ensures Score(answers[id := v]) == Score(answers)
  {
    ScoreOverIgnores(Questions, answers, id, v);
  }

  /** Answering question `k` changes the fold by exactly that question's
      change of contribution. */
  lemma {:induction false} ScoreOverUpdate(qs: seq<Question>, answers: map<string, bool>, k: nat, v: bool)
    requires DistinctIds(qs) && k < |qs|
    ensures ScoreOver(qs, answers[qs[k].id := v]) + Contribution(qs[k], answers)
         == ScoreOver(qs, answers) + Contribution(qs[k], answers[qs[k].id := v])
  {
    var id := qs[k].id;
    var init := qs[..|qs| - 1];
    if k == |qs| - 1 {
      ScoreOverIgnores(init, answers, id, v);
    } else {
      assert init[k] == qs[k];
      ScoreOverUpdate(init, answers, k, v);
      assert qs[|qs| - 1].id != id;
    }
  }

  /** Answering `true` to a question not yet answered `true` adds exactly
      its weight; answering `false` scores the same as leaving it unset. */
  lemma AnswerEffect(answers: map<string, bool>, k: nat)
    requires k < |Questions|
    ensures !(Questions[k].id in answers && answers[Questions[k].id]) ==>
      Score(answers[Questions[k].id := true]) == Score(answers) + Questions[k].weight
    ensures Score(answers[Questions[k].id := false]) == Score(answers - {Questions[k].id})
  {
    QuestionTable();
    var id := Questions[k].id;
    ScoreOverUpdate(Questions, answers, k, true);
    ScoreOverUpdate(Questions, answers, k, false);
    ScoreOverUpdate(Questions, answers - {id}, k, false);
    assert (answers - {id})[id := false] == answers[id := false];
  }

  /** Setting any answer to `true` never lowers the score. */
  lemma {:induction false} ScoreOverMonotone(qs: seq<Question>, answers: map<string, bool>, id: string)
    ensures ScoreOver(qs, answers[id := true]) >= ScoreOver(qs, answers)
  {
    if |qs| > 0 {
      ScoreOverMonotone(qs[..|qs| - 1], answers, id);
    }
  }

  /** An empty answer map scores 0; answering every question `true` scores the maximum. */
  lemma ScoreExtremes(all: map<string, bool>)
    requires forall i :: 0 <= i < |Questions| ==> Questions[i].id in all && all[Questions[i].id]
    ensures Score(map[]) == 0
    ensures Score(all) == MaxScore
  {
    QuestionTable();
    ScoreOverEmpty(Questions);
    ScoreOverAll(Questions, all);
  }

  lemma {:induction false} ScoreOverEmpty(qs: seq<Question>)
    ensures ScoreOver(qs, map[]) == 0
  {
    if |qs| > 0 {
      ScoreOverEmpty(qs[..|qs| - 1]);
    }
  }

  lemma {:induction false} ScoreOverAll(qs: seq<Question>, all: map<string, bool>)
    requires forall i :: 0 <= i < |qs| ==> qs[i].id in all && all[qs[i].id]
    ensures ScoreOver(qs, all) == WeightSum(qs)
  {
    if |qs| > 0 {
      ScoreOverAll(qs[..|qs| - 1], all);
    }
  }

  /** The tier of a score (the `if` chain of `getAssessmentResult`): its
      rank is the number of thresholds the score has reached. */
  function TierOf(score: int): (r: Tier)
    ensures Rank(r) == (if score >= IncreasedFrom then 1 else 0) + (if score >= SevereFrom then 1 else 0)
                       + (if score >= ExtremeFrom then 1 else 0)
  {
    if score < IncreasedFrom then Variable
    else if score < SevereFrom then Increased
    else if score < ExtremeFrom then Severe
    else Extreme
  }

  /** A higher score never gives a lower tier, and the boundaries fall
      between 7|8, 13|14 and 17|18. */
  lemma TierMonotone(s1: int, s2: int)
    requires s1 <= s2
    ensures Rank(TierOf(s1)) <= Rank(TierOf(s2))
  {
  }

  lemma TierBoundaries()
    ensures TierOf(0) == Variable && TierOf(7) == Variable
    ensures TierOf(8) == Increased && TierOf(13) == Increased
    ensures TierOf(14) == Severe && TierOf(17) == Severe
    ensures TierOf(18) == Extreme && TierOf(MaxScore) == Extreme
  {
  }

  /** Every tier is reached by some score in 0..MaxScore. */
  lemma EveryTierReachable(t: Tier)
    ensures exists s :: 0 <= s <= MaxScore && TierOf(s) == t
  {
    match t
    case Variable => assert TierOf(0) == t;
    case Increased => assert TierOf(8) == t;
    case Severe => assert TierOf(14) == t;
    case Extreme => assert TierOf(18) == t;
  }

  /** The interpretation of each tier, as the text before and after the
      tier's name. */
  function InterpretationAround(t: Tier): (string, string) {
    match t
    case Variable => ("Your current risk level is ",
      ". While some risk factors are present, they may not indicate immediate danger.")
    case Increased => ("Your assessment indicates an ",
      " risk level. This suggests the presence of several concerning factors.")
    case Severe => ("Your assessment indicates a ",
      " risk level. Multiple serious risk factors are present.")
    case Extreme => ("Your assessment indicates an ",
      " risk level. Immediate safety planning is strongly recommended.")
  }

  /** The interpretation of a tier, which names the tier's level. */
  function Interpretation(t: Tier): (r: string)
    ensures Text.Contains(r, TierName(t))
  {
    var (before, after) := InterpretationAround(t);
    Text.ContainsWord(before, TierName(t), after);
    before + TierName(t) + after
  }

  /** The recommendations of each tier. */
  const VariableSteps: seq<string> := [
      "Consider creating a safety plan",
      "Save emergency contact numbers",
      "Stay connected with trusted friends or family",
      "Document any concerning incidents"]

  const IncreasedSteps: seq<string> := [
      "Create or review your safety plan",
      "Share your situation with trusted people",
      "Save emergency contacts in your phone",
      "Consider reaching out to support services",
      "Keep important documents in a safe place"]

  const SevereSteps: seq<string> := [
      "Prioritize your safety plan",
      "Connect with domestic violence support services",
      "Consider legal protection options",
      "Ensure you have a safe place to go if needed",
      "Keep emergency numbers readily available",
      "Share your safety plan with trusted people"]

  const ExtremeSteps: seq<string> := [
      "Contact domestic violence support services immediately",
      "Consider seeking legal protection",
      "Review and implement your safety plan",
      "Connect with trusted support people",
      "Keep emergency numbers accessible",
      "Consider temporary alternative accommodation",
      "Document all incidents"]

  /** The recommendations of a tier; the lists grow with the tier: 4, 5, 6
      and 7 entries. */
  function Recommendations(t: Tier): (r: seq<string>)
    ensures |r| == 4 + Rank(t)
  {
    match t
    case Variable => VariableSteps
    case Increased => IncreasedSteps
    case Severe => SevereSteps
    case Extreme => ExtremeSteps
  }

  datatype Incident = Incident(id: string, date: int, severity: int, description: string)

  /** A partial incident (`Partial<IncidentRecord>`): `None` fields are absent. */
  datatype IncidentPatch = IncidentPatch(
    id: Option<string>, date: Option<int>, severity: Option<int>, description: Option<string>)

  const NoChanges := IncidentPatch(None, None, None, None)

  /** `{ ...incident, ...updates }`: a field present in the patch replaces
      the record's, an absent one leaves it. */
  function ApplyPatch(x: Incident, p: IncidentPatch): (r: Incident)
    ensures p.id.Some? ==> r.id == p.id.value
    ensures p.id.None? ==> r.id == x.id
    ensures p.date.Some? ==> r.date == p.date.value
    ensures p.date.None? ==> r.date == x.date
    ensures p.severity.Some? ==> r.severity == p.severity.value
    ensures p.severity.None? ==> r.severity == x.severity
    ensures p.description.Some? ==> r.description == p.description.value
    ensures p.description.None? ==> r.description == x.description
  {
    Incident(p.id.GetOr(x.id), p.date.GetOr(x.date), p.severity.GetOr(x.severity),
             p.description.GetOr(x.description))
  }

  /** Merging the same patch twice is merging it once, and the empty patch
      changes nothing. */
  lemma PatchIdempotent(x: Incident, p: IncidentPatch)
    ensures ApplyPatch(ApplyPatch(x, p), p) == ApplyPatch(x, p)
    ensures ApplyPatch(x, NoChanges) == x
  {
  }

  datatype AssessmentResult = AssessmentResult(
    score: nat, tier: Tier, interpretation: string, recommendations: seq<string>)

  datatype AssessmentRecord = AssessmentRecord(
    id: string, date: int, score: nat, tier: Tier, incidents: seq<Incident>)

  datatype Service = Service(
    incidents: seq<Incident>, answers: map<string, bool>, history: seq<AssessmentRecord>)

  /** The service as the application starts it. */
  const Fresh := Service([], map[], [])

  /** `addIncident`: the id (from the clock in the source) is supplied. */
  function AddIncident(svc: Service, id: string, date: int, severity: int, description: string)
    : (r: (Incident, Service))
    ensures r.0 == Incident(id, date, severity, description)
    ensures r.1.incidents == svc.incidents + [r.0]
    ensures r.1.answers == svc.answers && r.1.history == svc.history
  {
    var x := Incident(id, date, severity, description);
    (x, svc.(incidents := svc.incidents + [x]))
  }

  function Patched(s: seq<Incident>, id: string, p: IncidentPatch): (r: seq<Incident>)
    ensures |r| == |s|
    ensures forall i :: 0 <= i < |s| ==> r[i] == (if s[i].id == id then ApplyPatch(s[i], p) else s[i])
  {
    if |s| == 0 then [] else
      [if s[0].id == id then ApplyPatch(s[0], p) else s[0]] + Patched(s[1..], id, p)
  }

  /** `updateIncident`: merges the patch into every record with that id. */
  function UpdateIncident(svc: Service, id: string, p: IncidentPatch): (r: Service)
    ensures |r.incidents| == |svc.incidents|
    ensures forall i :: 0 <= i < |svc.incidents| && svc.incidents[i].id != id ==>
      r.incidents[i] == svc.incidents[i]
    ensures r.answers == svc.answers && r.history == svc.history
  {
    svc.(incidents := Patched(svc.incidents, id, p))
  }

  /** Updating an id nobody carries, or applying an empty patch, changes nothing. */
  lemma UpdateNoOp(svc: Service, id: string, p: IncidentPatch)
    requires (forall i :: 0 <= i < |svc.incidents| ==> svc.incidents[i].id != id) || p == NoChanges
    ensures UpdateIncident(svc, id, p) == svc
  {
    assert UpdateIncident(svc, id, p).incidents == svc.incidents;
  }

  /** Keeps the incidents whose id differs from `id`. */
  function OtherThan(id: string): Incident -> bool {
    (x: Incident) => x.id != id
  }

  /** `deleteIncident`. */
  function DeleteIncident(svc: Service, id: string): (r: Service)
    ensures forall i :: 0 <= i < |r.incidents| ==> r.incidents[i].id != id && r.incidents[i] in svc.incidents
    ensures forall i :: 0 <= i < |svc.incidents| && svc.incidents[i].id != id ==> svc.incidents[i] in r.incidents
    ensures forall x :: multiset(r.incidents)[x] == if x.id != id then multiset(svc.incidents)[x] else 0
    ensures Seqs.IsSubseq(r.incidents, svc.incidents)
    ensures r.answers == svc.answers && r.history == svc.history
  {
    Seqs.FilterCounts(svc.incidents, OtherThan(id));
    Seqs.FilterIsSubseq(svc.incidents, OtherThan(id));
    Seqs.FilterMembers(svc.incidents, OtherThan(id));
    svc.(incidents := Seqs.Filter(svc.incidents, OtherThan(id)))
  }

  /** Deleting a missing id is a no-op. */
  lemma DeleteMissing(svc: Service, id: string)
    requires forall i :: 0 <= i < |svc.incidents| ==> svc.incidents[i].id != id
    ensures DeleteIncident(svc, id) == svc
  {
    Seqs.FilterKeepsAll(svc.incidents, OtherThan(id));
  }

  /** Deleting the id just added, when that id was fresh, restores the store. */
  lemma AddThenDelete(svc: Service, id: string, date: int, severity: int, description: string)
    requires forall i :: 0 <= i < |svc.incidents| ==> svc.incidents[i].id != id
    ensures DeleteIncident(AddIncident(svc, id, date, severity, description).1, id) == svc
  {
    var x := Incident(id, date, severity, description);
    Seqs.FilterAppend(svc.incidents, [x], OtherThan(id));
    Seqs.FilterKeepsAll(svc.incidents, OtherThan(id));
    assert Seqs.Filter([x], OtherThan(id)) == [];
  }

  /** Orders incidents newest first (`b.date - a.date`). */
  function NewerIncident(): (Incident, Incident) -> bool {
    (a: Incident, b: Incident) => a.date >= b.date
  }

  function NewerRecord(): (AssessmentRecord, AssessmentRecord) -> bool {
    (a: AssessmentRecord, b: AssessmentRecord) => a.date >= b.date
  }

  /** `getIncidents`: a copy of the incidents, newest first. */
  function GetIncidents(svc: Service): (r: seq<Incident>)
    ensures multiset(r) == multiset(svc.incidents)
    ensures forall i, j :: 0 <= i < j < |r| ==> r[i].date >= r[j].date
  {
    Sorting.SortBy(svc.incidents, NewerIncident())
  }

  /** `setAnswer`: overwrites the stored answer, known id or not. */
  function SetAnswer(svc: Service, questionId: string, answer: bool): (r: Service)
    ensures questionId in r.answers && r.answers[questionId] == answer
    ensures forall q :: q in svc.answers && q != questionId ==> q in r.answers && r.answers[q] == svc.answers[q]
    ensures r.answers.Keys == svc.answers.Keys + {questionId}
    ensures r.incidents == svc.incidents && r.history == svc.history
  {
    svc.(answers := svc.answers[questionId := answer])
  }

  /** Setting an answer to `true` never lowers the score or the tier. */
  lemma SetTrueNeverLowers(svc: Service, questionId: string)
    ensures Score(SetAnswer(svc, questionId, true).answers) >= Score(svc.answers)
    ensures Rank(TierOf(Score(SetAnswer(svc, questionId, true).answers))) >= Rank(TierOf(Score(svc.answers)))
  {
    ScoreOverMonotone(Questions, svc.answers, questionId);
  }

  /** The result computed from the current answers (no history effect). */
  function Evaluate(answers: map<string, bool>): (r: AssessmentResult)
    ensures r.score <= MaxScore
    ensures r.tier == TierOf(r.score)
    ensures r.recommendations == Recommendations(r.tier)
    ensures r.interpretation == Interpretation(r.tier)
  {
    ScoreBounds(answers);
    var score := Score(answers);
    var tier := TierOf(score);
    AssessmentResult(score, tier, Interpretation(tier), Recommendations(tier))
  }

  /** `getAssessmentResult`: computes the result and appends one history
      record with a copy of the incidents; id and date come from the clock. */
  function GetAssessmentResult(svc: Service, recordId: string, now: int): (r: (AssessmentResult, Service))
    ensures r.0.score == Score(svc.answers) && r.0.tier == TierOf(r.0.score)
    ensures r.0.interpretation == Interpretation(r.0.tier)
    ensures r.0.recommendations == Recommendations(r.0.tier)
    ensures |r.1.history| == |svc.history| + 1
    ensures r.1.history[..|svc.history|] == svc.history
    ensures r.1.history[|svc.history|] == AssessmentRecord(recordId, now, r.0.score, r.0.tier, svc.incidents)
    ensures r.1.incidents == svc.incidents && r.1.answers == svc.answers
  {
    var result := Evaluate(svc.answers);
    var record := AssessmentRecord(recordId, now, result.score, result.tier, svc.incidents);
    var history := svc.history + [record];
    assert history[..|svc.history|] == svc.history;
    (result, Service(svc.incidents, svc.answers, history))
  }

  /** An assessment with no answers scores 0, is `variable`, and carries
      the four-item list. */
  lemma EmptyAssessment(svc: Service, recordId: string, now: int)
    requires svc.answers == map[]
    ensures var r := GetAssessmentResult(svc, recordId, now).0;
      r.score == 0 && r.tier == Variable && |r.recommendations| == 4
  {
    ScoreOverEmpty(Questions);
  }

  /** Three assessments in a row leave three records, each holding the
      incidents of its own moment, even when incidents change in between. */
  lemma ThreeAssessments(svc: Service, edit1: Service -> Service, edit2: Service -> Service,
                         ids: seq<string>, times: seq<int>)
    requires svc.history == [] && |ids| == 3 && |times| == 3
    requires forall s: Service :: edit1(s).history == s.history && edit2(s).history == s.history
    ensures var s1 := GetAssessmentResult(svc, ids[0], times[0]).1;
            var s2 := GetAssessmentResult(edit1(s1), ids[1], times[1]).1;
            var s3 := GetAssessmentResult(edit2(s2), ids[2], times[2]).1;
            && |s3.history| == 3
            && s3.history[0].incidents == svc.incidents
            && s3.history[1].incidents == edit1(s1).incidents
            && s3.history[2].incidents == edit2(s2).incidents
  {
    var s1 := GetAssessmentResult(svc, ids[0], times[0]).1;
    var s2 := GetAssessmentResult(edit1(s1), ids[1], times[1]).1;
    var s3 := GetAssessmentResult(edit2(s2), ids[2], times[2]).1;
    assert s3.history[..2] == s2.history;
    assert s2.history[..1] == s1.history;
  }

  /** `getAssessmentHistory`: a copy of the history, newest first. */
  function GetAssessmentHistory(svc: Service): (r: seq<AssessmentRecord>)
    ensures multiset(r) == multiset(svc.history)
    ensures forall i, j :: 0 <= i < j < |r| ==> r[i].date >= r[j].date
  {
    Sorting.SortBy(svc.history, NewerRecord())
  }

  function InRange(start: int, end: int): AssessmentRecord -> bool {
    (a: AssessmentRecord) => start <= a.date && a.date <= end
  }

  /** `getAssessmentsByDateRange`: the records dated within [start, end],
      both ends included, in insertion order. */
  function GetAssessmentsByDateRange(svc: Service, start: int, end: int): (r: seq<AssessmentRecord>)
    ensures forall i :: 0 <= i < |r| ==> r[i] in svc.history && start <= r[i].date <= end
    ensures forall i :: 0 <= i < |svc.history| && start <= svc.history[i].date <= end ==> svc.history[i] in r
    ensures forall x :: multiset(r)[x] == if start <= x.date <= end then multiset(svc.history)[x] else 0
    ensures Seqs.IsSubseq(r, svc.history)
  {
    Seqs.FilterCounts(svc.history, InRange(start, end));
    Seqs.FilterIsSubseq(svc.history, InRange(start, end));
    Seqs.FilterMembers(svc.history, InRange(start, end));
    Seqs.Filter(svc.history, InRange(start, end))
  }

  /** `clearAssessment`: forgets incidents and answers, keeps the history. */
  function ClearAssessment(svc: Service): (r: Service)
    ensures r.incidents == [] && r.answers == map[]
    ensures r.history == svc.history
  {
    svc.(incidents := [], answers := map[])
  }

  /** After clearing, a new assessment scores 0 while the earlier history
      is still there as a prefix. */
  lemma ClearThenAssess(svc: Service, recordId: string, now: int)
    ensures var r := GetAssessmentResult(ClearAssessment(svc), recordId, now);
      && r.0.score == 0
      && r.1.history[..|svc.history|] == svc.history
      && r.1.history[|svc.history|].incidents == []
  {
    ScoreOverEmpty(Questions);
  }
}

=== FILE: emergency.dfy ===
/** The emergency-contact context: the stored contact list, the SMS alert
    to every contact, the call to the primary contact, and the outcome of
    the emergency trigger. Each outside interaction (secure store, SMS,
    dialler, confirmation dialog) is a boolean the caller supplies. */
module Emergency {
  import opened Options
  import Seqs
  import Text

  datatype Contact = Contact(id: string, name: string, phoneNumber: string)

  const AlertMessage: string :=
    "EMERGENCY: I need help. This is an automated emergency alert. Please contact me immediately."

  /** `addEmergencyContact`: appends, but only once the store has accepted
      the new list (`stored`). */
  function AddContact(contacts: seq<Contact>, c: Contact, stored: bool): (r: seq<Contact>)
    ensures stored ==> r == contacts + [c]
    ensures !stored ==> r == contacts
  {
    if stored then contacts + [c] else contacts
  }

  /** The primary contact is the first one in the list. */
  function Primary(contacts: seq<Contact>): (r: Option<Contact>)
    ensures r.None? <==> |contacts| == 0
    ensures r.Some? ==> r.value == contacts[0]
  {
    if |contacts| == 0 then None else Some(contacts[0])
  }

  /** Adding never changes an existing primary; the first contact added
      becomes the primary. */
  lemma AddKeepsPrimary(contacts: seq<Contact>, c: Contact, stored: bool)
    ensures |contacts| > 0 ==> Primary(AddContact(contacts, c, stored)) == Primary(contacts)
    ensures |contacts| == 0 && stored ==> Primary(AddContact(contacts, c, stored)) == Some(c)
  {
  }

  function OtherThan(id: string): Contact -> bool {
    (c: Contact) => c.id != id
  }

  /** `removeEmergencyContact`: drops every contact with the id, keeping the
      others in order, once the store has accepted the new list. */
  function RemoveContact(contacts: seq<Contact>, id: string, stored: bool): (r: seq<Contact>)
    ensures !stored ==> r == contacts
    ensures stored ==> forall i :: 0 <= i < |r| ==> r[i].id != id
    ensures stored ==> forall i :: 0 <= i < |contacts| && contacts[i].id != id ==> contacts[i] in r
    ensures stored ==> forall c :: multiset(r)[c] == if c.id != id then multiset(contacts)[c] else 0
    ensures Seqs.IsSubseq(r, contacts)
  {
    if stored then
      Seqs.FilterCounts(contacts, OtherThan(id));
      Seqs.FilterIsSubseq(contacts, OtherThan(id));
      Seqs.FilterMembers(contacts, OtherThan(id));
      Seqs.Filter(contacts, OtherThan(id))
    else
      Seqs.SubseqOfSelf(contacts);
      contacts
  }

  /** Removing an id nobody has changes nothing. */
  lemma RemoveMissing(contacts: seq<Contact>, id: string, stored: bool)
    requires forall i :: 0 <= i < |contacts| ==> contacts[i].id != id
    ensures RemoveContact(contacts, id, stored) == contacts
  {
    Seqs.FilterKeepsAll(contacts, OtherThan(id));
  }

  function PhoneNumbers(contacts: seq<Contact>): (r: seq<string>)
    ensures |r| == |contacts|
    ensures forall i :: 0 <= i < |contacts| ==> r[i] == contacts[i].phoneNumber
  {
    seq(|contacts|, i requires 0 <= i < |contacts| => contacts[i].phoneNumber)
  }

  /** An SMS request: recipients and text. */
  datatype Sms = Sms(recipients: seq<string>, message: string)

  /** `sendEmergencySMS`: the request it makes, if any, and whether it
      reports success. `available` is the SMS service's availability and
      `delivered` whether sending completed without error. */
  function SendEmergencySms(contacts: seq<Contact>, available: bool, delivered: bool): (r: (Option<Sms>, bool))
    ensures r.0.Some? <==> available && |contacts| > 0
    ensures r.0.Some? ==> r.0.value == Sms(PhoneNumbers(contacts), AlertMessage)
    ensures r.1 <==> r.0.Some? && delivered
  {
    if available && |contacts| > 0 then (Some(Sms(PhoneNumbers(contacts), AlertMessage)), delivered)
    else (None, false)
  }

  /** `callEmergencyContact`: the `tel:` URL it opens, if any, and whether
      it reports success. `dialled` is whether opening the URL succeeded. */
  function CallEmergencyContact(contacts: seq<Contact>, dialled: bool): (r: (Option<string>, bool))
    ensures r.0.Some? <==> |contacts| > 0
    ensures r.0.Some? ==> r.0.value == "tel:" + Text.Digits(contacts[0].phoneNumber)
    ensures r.1 <==> |contacts| > 0 && dialled
  {
    if |contacts| > 0 then (Some("tel:" + Text.Digits(contacts[0].phoneNumber)), dialled)
    else (None, false)
  }

  /** The call reaches the primary contact's digits and nothing else: every
      character after `tel:` is a digit of the stored number. */
  lemma CallDialsDigitsOfPrimary(contacts: seq<Contact>, dialled: bool)
    requires |contacts| > 0
    ensures var url := CallEmergencyContact(contacts, dialled).0.value;
      && Text.StartsWith(url, "tel:")
      && (forall i :: 4 <= i < |url| ==> Text.IsDigit(url[i]) && url[i] in Primary(contacts).value.phoneNumber)
  {
    var d := Text.Digits(contacts[0].phoneNumber);
    var url := "tel:" + d;
    assert forall i :: 4 <= i < |url| ==> url[i] == d[i - 4];
  }

  /** How an emergency trigger ends. */
  datatype Outcome = NoContactsAlert | Cancelled | Sent | Failed

  /** `triggerEmergency`: with no contacts it only alerts; otherwise, once
      confirmed, it sends the SMS and places the call. A confirmed alert is
      reported sent exactly when the SMS went out or the dialler opened the
      call, so a working dialler alone is enough. */
  function TriggerEmergency(contacts: seq<Contact>, confirmed: bool,
                            smsAvailable: bool, smsDelivered: bool, callOpened: bool): (r: Outcome)
    ensures r == NoContactsAlert <==> |contacts| == 0
    ensures r == Cancelled <==> |contacts| > 0 && !confirmed
    ensures r == Sent <==> |contacts| > 0 && confirmed && ((smsAvailable && smsDelivered) || callOpened)
    ensures r == Failed <==> |contacts| > 0 && confirmed && !(smsAvailable && smsDelivered) && !callOpened
  {
    if |contacts| == 0 then NoContactsAlert
    else if !confirmed then Cancelled
    else
      var sms := SendEmergencySms(contacts, smsAvailable, smsDelivered);
      var call := CallEmergencyContact(contacts, callOpened);
      if sms.1 || call.1 then Sent else Failed
  }
}

=== FILE: meditation.dfy ===
/** The meditation-track service's pure logic: turning search hits into
    tracks, keyword categorisation, grouping into the four category
    sessions, and the artist and title search filters. The music search
    itself is outside the model: its hits are a parameter. */
module Meditation {
  import opened Options
  import Seqs
  import Text

  datatype Category = Category(id: string, name: string, description: string)

  const Categories: seq<Category> := [
    Category("stress-relief", "Stress Relief", "Calming sounds to help reduce stress and anxiety"),
    Category("sleep", "Sleep", "Peaceful melodies to help you fall asleep"),
    Category("focus", "Focus", "Background sounds to improve concentration"),
    Category("mindfulness", "Mindfulness", "Gentle music for mindfulness practice")
  ]

  /** The search term used when the caller gives none. */
  const DefaultTerm: string := "meditation music relaxation"

  /** One search hit: the track's key, title and subtitle, and the URI of
      its second hub action when there is one. */
  datatype Hit = Hit(key: string, title: string, subtitle: string, actionUri: Option<string>)

  datatype Track = Track(id: string, title: string, subtitle: string, artist: string,
                         duration: string, url: string, category: string)

  datatype Session = Session(id: string, title: string, description: string,
                             category: string, tracks: seq<Track>)

  datatype SearchKind = ArtistSearch | TrackSearch

  datatype SearchResult = SearchResult(kind: SearchKind, sessions: seq<Session>)

  /** `searchTerm || default`: only the empty term is replaced. */
  function SearchTerm(term: string): (r: string)
    ensures term == "" ==> r == DefaultTerm
    ensures term != "" ==> r == term
    ensures r != ""
  {
    if term == "" then DefaultTerm else term
  }

  predicate AnyOf(title: string, a: string, b: string, c: string) {
    Text.Contains(title, a) || Text.Contains(title, b) || Text.Contains(title, c)
  }

  predicate SleepWord(title: string) { AnyOf(title, "sleep", "night", "dream") }
  predicate FocusWord(title: string) { AnyOf(title, "focus", "concentration", "study") }
  predicate MindfulWord(title: string) { AnyOf(title, "mindful", "zen", "peace") }

  function CategoryIds(): set<string> {
    {"stress-relief", "sleep", "focus", "mindfulness"}
  }

  /** `assignCategory` on an already lower-cased title: always one of the
      four categories, with the keyword groups tried in the order sleep,
      focus, mindfulness and stress relief as the default. */
  function AssignCategory(title: string): (r: string)
    ensures r in CategoryIds()
    ensures r == "sleep" <==> SleepWord(title)
    ensures r == "focus" <==> !SleepWord(title) && FocusWord(title)
    ensures r == "mindfulness" <==> !SleepWord(title) && !FocusWord(title) && MindfulWord(title)
    ensures r == "stress-relief" <==> !SleepWord(title) && !FocusWord(title) && !MindfulWord(title)
  {
    if SleepWord(title) then "sleep"
    else if FocusWord(title) then "focus"
    else if MindfulWord(title) then "mindfulness"
    else "stress-relief"
  }

  /** The ids listed in `CATEGORIES` are the four category ids. */
  lemma CategoriesTable()
    ensures |Categories| == 4
    ensures forall i :: 0 <= i < 4 ==> Categories[i].id in CategoryIds()
    ensures forall i, j :: 0 <= i < j < 4 ==> Categories[i].id != Categories[j].id
  {
  }

  /** The track built from one hit: the subtitle doubles as the artist,
      every track lasts "5 min", a missing action URI gives "", and the
      category comes from the lower-cased title. */
  function MakeTrack(h: Hit): (r: Track)
    ensures r.id == h.key && r.title == h.title && r.subtitle == h.subtitle && r.artist == h.subtitle
    ensures r.url == h.actionUri.GetOr("") && r.duration == "5 min"
    ensures r.category == AssignCategory(Text.Lower(h.title)) && r.category in CategoryIds()
  {
    Track(h.key, h.title, h.subtitle, h.subtitle, "5 min", h.actionUri.GetOr(""), AssignCategory(Text.Lower(h.title)))
  }

  function MakeTracks(hits: seq<Hit>): (r: seq<Track>)
    ensures |r| == |hits|
    ensures forall i :: 0 <= i < |hits| ==> r[i] == MakeTrack(hits[i])
  {
    seq(|hits|, i requires 0 <= i < |hits| => MakeTrack(hits[i]))
  }

  function InCategory(id: string): Track -> bool {
    (t: Track) => t.category == id
  }

  /** `groupTracksByCategory`: one session per category, in table order,
      each holding the tracks of that category in input order. */
  function GroupTracksByCategory(tracks: seq<Track>): (r: seq<Session>)
    ensures |r| == |Categories|
    ensures forall i :: 0 <= i < |r| ==>
      && r[i].id == Categories[i].id && r[i].title == Categories[i].name
      && r[i].description == Categories[i].description && r[i].category == Categories[i].id
    ensures forall i :: 0 <= i < |r| ==> Seqs.IsSubseq(r[i].tracks, tracks)
    ensures forall i, k :: 0 <= i < |r| && 0 <= k < |tracks| ==>
      (tracks[k] in r[i].tracks <==> tracks[k].category == Categories[i].id)
    ensures forall i, j :: 0 <= i < |r| && 0 <= j < |r[i].tracks| ==>
      r[i].tracks[j] in tracks && r[i].tracks[j].category == Categories[i].id
  {
    var r := seq(|Categories|, i requires 0 <= i < |Categories| =>
      var c := Categories[i];
      Session(c.id, c.name, c.description, c.id, Seqs.Filter(tracks, InCategory(c.id))));
    forall i | 0 <= i < |r| ensures Seqs.IsSubseq(r[i].tracks, tracks) {
      Seqs.FilterIsSubseq(tracks, InCategory(Categories[i].id));
    }
    forall i | 0 <= i < |r| {
      Seqs.FilterMembers(tracks, InCategory(Categories[i].id));
    }
    r
  }

  /** The sizes of the four category filters add up to the whole list when
      every track's category is one of the four. */
  lemma {:induction false} CategoryCounts(tracks: seq<Track>)
    requires forall k :: 0 <= k < |tracks| ==> tracks[k].category in CategoryIds()
    ensures |Seqs.Filter(tracks, InCategory("stress-relief"))| + |Seqs.Filter(tracks, InCategory("sleep"))|
          + |Seqs.Filter(tracks, InCategory("focus"))| + |Seqs.Filter(tracks, InCategory("mindfulness"))| == |tracks|
  {
    if |tracks| > 0 {
      CategoryCounts(tracks[1..]);
    }
  }

  /** Grouping neither loses nor duplicates a track: the four sessions
      together hold as many tracks as the input. */
  lemma GroupIsPartition(tracks: seq<Track>)
    requires forall k :: 0 <= k < |tracks| ==> tracks[k].category in CategoryIds()
    ensures var r := GroupTracksByCategory(tracks);
      |r[0].tracks| + |r[1].tracks| + |r[2].tracks| + |r[3].tracks| == |tracks|
  {
    CategoryCounts(tracks);
  }

  /** Tracks made from hits always satisfy the grouping's premise. */
  lemma MadeTracksHaveCategories(hits: seq<Hit>)
    ensures forall k :: 0 <= k < |hits| ==> MakeTracks(hits)[k].category in CategoryIds()
  {
  }

  /** The case-insensitive `includes` of both searches. */
  predicate MatchesIgnoringCase(field: string, query: string) {
    Text.Contains(Text.Lower(field), Text.Lower(query))
  }

  function SubtitleMatches(query: string): Hit -> bool {
    (h: Hit) => MatchesIgnoringCase(h.subtitle, query)
  }

  function TitleMatches(query: string): Hit -> bool {
    (h: Hit) => MatchesIgnoringCase(h.title, query)
  }

  const ArtistLimit: nat := 5

  /** `searchByArtist`: the first five hits whose subtitle contains the
      query, in one artist session. */
  function SearchByArtist(query: string, hits: seq<Hit>): (r: SearchResult)
    ensures r.kind == ArtistSearch && |r.sessions| == 1
    ensures r.sessions[0].id == "artist-results" && r.sessions[0].category == "artist-search"
    ensures r.sessions[0].title == "Songs by " + query
    ensures r.sessions[0].description == "Top 5 meditation tracks by " + query
    ensures |r.sessions[0].tracks| <= ArtistLimit
    ensures forall i :: 0 <= i < |r.sessions[0].tracks| ==>
      MatchesIgnoringCase(r.sessions[0].tracks[i].subtitle, query)
    ensures var found := Seqs.Filter(hits, SubtitleMatches(query));
      && |r.sessions[0].tracks| == (if |found| < ArtistLimit then |found| else ArtistLimit)
      && forall i :: 0 <= i < |r.sessions[0].tracks| ==> r.sessions[0].tracks[i] == MakeTrack(found[i])
  {
    var hitsFound := Seqs.Filter(hits, SubtitleMatches(query));
    var kept := hitsFound[..if |hitsFound| < ArtistLimit then |hitsFound| else ArtistLimit];
    assert forall i :: 0 <= i < |kept| ==> SubtitleMatches(query)(kept[i]);
    SearchResult(ArtistSearch, [Session("artist-results", "Songs by " + query,
      "Top 5 meditation tracks by " + query, "artist-search", MakeTracks(kept))])
  }

  /** When at most five hits match, the artist search keeps every one of
      them, in order; a non-matching hit is never kept. */
  lemma ArtistSearchKeepsAllFewMatches(query: string, hits: seq<Hit>)
    ensures var found := Seqs.Filter(hits, SubtitleMatches(query));
      |found| <= ArtistLimit ==> SearchByArtist(query, hits).sessions[0].tracks == MakeTracks(found)
    ensures forall k :: 0 <= k < |hits| && !MatchesIgnoringCase(hits[k].subtitle, query) ==>
      MakeTrack(hits[k]) !in SearchByArtist(query, hits).sessions[0].tracks
  {
  }

  /** `searchByTrack`: the hits whose title contains the query, made into
      tracks and grouped by category: one session per category in table
      order, each holding exactly the matching tracks of its category. */
  function SearchByTrack(query: string, hits: seq<Hit>): (r: SearchResult)
    ensures r.kind == TrackSearch && |r.sessions| == |Categories|
    ensures forall i :: 0 <= i < |r.sessions| ==>
      r.sessions[i].id == Categories[i].id && r.sessions[i].category == Categories[i].id
    ensures forall i, j :: 0 <= i < |r.sessions| && 0 <= j < |r.sessions[i].tracks| ==>
      MatchesIgnoringCase(r.sessions[i].tracks[j].title, query)
    ensures var found := Seqs.Filter(hits, TitleMatches(query));
      && (forall i, k :: 0 <= i < |r.sessions| && 0 <= k < |found| ==>
            (MakeTrack(found[k]) in r.sessions[i].tracks <==> AssignCategory(Text.Lower(found[k].title)) == Categories[i].id))
      && (forall i :: 0 <= i < |r.sessions| ==> Seqs.IsSubseq(r.sessions[i].tracks, MakeTracks(found)))
      && |r.sessions[0].tracks| + |r.sessions[1].tracks| + |r.sessions[2].tracks| + |r.sessions[3].tracks| == |found|
  {
    var found := Seqs.Filter(hits, TitleMatches(query));
    var tracks := MakeTracks(found);
    assert forall k :: 0 <= k < |tracks| ==> MatchesIgnoringCase(tracks[k].title, query) by {
      forall k | 0 <= k < |tracks| ensures MatchesIgnoringCase(tracks[k].title, query) {
        assert TitleMatches(query)(found[k]);
      }
    }
    SearchResult(TrackSearch, FetchMeditationTracks(found))
  }

  /** A hit's track is in a session of the title search exactly when the
      hit's title matches and the session is that of the hit's category. */
  lemma TrackSearchFindsEveryMatch(query: string, hits: seq<Hit>, k: int, i: int)
    requires 0 <= k < |hits| && 0 <= i < |Categories|
    ensures var r := SearchByTrack(query, hits);
      MakeTrack(hits[k]) in r.sessions[i].tracks
      <==> MatchesIgnoringCase(hits[k].title, query) && MakeTrack(hits[k]).category == Categories[i].id
  {
    var found := Seqs.Filter(hits, TitleMatches(query));
    var r := SearchByTrack(query, hits);
    Seqs.FilterMembers(hits, TitleMatches(query));
    if MatchesIgnoringCase(hits[k].title, query) {
      assert TitleMatches(query)(hits[k]);
      var m :| 0 <= m < |found| && found[m] == hits[k];
    }
    if MakeTrack(hits[k]) in r.sessions[i].tracks {
      var j :| 0 <= j < |r.sessions[i].tracks| && r.sessions[i].tracks[j] == MakeTrack(hits[k]);
      assert MatchesIgnoringCase(hits[k].title, query);
      var m :| 0 <= m < |found| && found[m] == hits[k];
    }
  }

  /** The position of a category id in the table. */
  lemma CategoryIndex(id: string) returns (i: int)
    requires id in CategoryIds()
    ensures 0 <= i < |Categories| && Categories[i].id == id
  {
    i := if id == "stress-relief" then 0 else if id == "sleep" then 1 else if id == "focus" then 2 else 3;
  }

  /** The fetch path: tracks from every hit, grouped by category. Each
      hit's track lands in the session of its title's category and in no
      other, and the sessions hold nothing else. */
  function FetchMeditationTracks(hits: seq<Hit>): (r: seq<Session>)
    ensures |r| == |Categories|
    ensures forall i :: 0 <= i < |r| ==> r[i].id == Categories[i].id && r[i].category == Categories[i].id
    ensures forall i, k :: 0 <= i < |r| && 0 <= k < |hits| ==>
      (MakeTrack(hits[k]) in r[i].tracks <==> AssignCategory(Text.Lower(hits[k].title)) == Categories[i].id)
    ensures forall i :: 0 <= i < |r| ==> Seqs.IsSubseq(r[i].tracks, MakeTracks(hits))
    ensures |r[0].tracks| + |r[1].tracks| + |r[2].tracks| + |r[3].tracks| == |hits|
  {
    var tracks := MakeTracks(hits);
    MadeTracksHaveCategories(hits);
    GroupIsPartition(tracks);
    GroupTracksByCategory(tracks)
  }
}

=== FILE: performance.dfy ===
/** The performance monitor: the metric buffer that is written to a log
    file once it holds a hundred entries, and the clean-up that keeps the
    thousand log files with the greatest names. The clock, the file write
    and the directory listing are parameters. */
module Performance {
  import opened Options
  import Seqs
  import Text
  import Sorting

  /** `MAX_LOGS` and `FLUSH_THRESHOLD`. */
  const MaxLogs: nat := 1000
  const FlushThreshold: nat := 100

  /** The prefix that marks a file as a performance log. */
  const LogPrefix: string := "performance_"

  /** The error a metric may carry. An absent and a `null` stack are both
      `None`. */
  datatype ErrorInfo = ErrorInfo(message: string, stack: Option<string>, componentStack: Option<string>)

  /** What a caller hands to `logMetric`: a metric without its timestamp. */
  datatype MetricInput = MetricInput(kind: string, duration: int, memoryUsage: Option<int>,
                                     componentName: Option<string>, error: Option<ErrorInfo>)

  datatype Metric = Metric(timestamp: int, kind: string, duration: int, memoryUsage: Option<int>,
                           componentName: Option<string>, error: Option<ErrorInfo>)

  /** `{ ...metric, timestamp: Date.now() }`. */
  function Stamp(m: MetricInput, now: int): (r: Metric)
    ensures r.timestamp == now && r.kind == m.kind && r.duration == m.duration
    ensures r.memoryUsage == m.memoryUsage && r.componentName == m.componentName && r.error == m.error
  {
    Metric(now, m.kind, m.duration, m.memoryUsage, m.componentName, m.error)
  }

  /** The caller's part of a stored metric. */
  function Input(m: Metric): MetricInput {
    MetricInput(m.kind, m.duration, m.memoryUsage, m.componentName, m.error)
  }

  /** Stamping adds the time and loses nothing the caller gave. */
  lemma StampKeepsInput(m: MetricInput, now: int)
    ensures Input(Stamp(m, now)) == m && Stamp(m, now).timestamp == now
  {
  }

  // ---------------------------------------------------------------------
  // Retention

  /** The outcome of `cleanOldLogs`: the log files it deletes and the ones
      it leaves. */
  datatype Retention = Retention(deleted: seq<string>, kept: seq<string>)

  function IsLog(name: string): bool {
    Text.StartsWith(name, LogPrefix)
  }

  /** The default `sort()` order on strings is a total preorder. */
  lemma LexLeIsTotalPreorder()
    ensures Sorting.TotalPreorder(Text.LexLe)
  {
    forall a, b ensures Text.LexLe(a, b) || Text.LexLe(b, a) {
      Text.LexLeTotal(a, b);
    }
    forall a, b, c | Text.LexLe(a, b) && Text.LexLe(b, c) ensures Text.LexLe(a, c) {
      Text.LexLeTransitive(a, b, c);
    }
  }

  /** `cleanOldLogs` over the directory listing `files`: with more than
      `MaxLogs` performance logs, the names that sort first are deleted
      until `MaxLogs` remain; otherwise nothing is. */
  function CleanOldLogs(files: seq<string>): (r: Retention)
    ensures var logs := Seqs.Filter(files, IsLog);
      && (|logs| <= MaxLogs ==> r.deleted == [] && r.kept == logs)
      && (|logs| > MaxLogs ==> |r.deleted| == |logs| - MaxLogs && |r.kept| == MaxLogs)
      && multiset(r.deleted) + multiset(r.kept) == multiset(logs)
  {
    Retain(Seqs.Filter(files, IsLog))
  }

  /** The selection over the performance logs alone. */
  function Retain(logs: seq<string>): (r: Retention)
    ensures |logs| <= MaxLogs ==> r.deleted == [] && r.kept == logs
    ensures |logs| > MaxLogs ==> |r.deleted| == |logs| - MaxLogs && |r.kept| == MaxLogs
    ensures multiset(r.deleted) + multiset(r.kept) == multiset(logs)
  {
    if |logs| <= MaxLogs then Retention([], logs)
    else
      LexLeIsTotalPreorder();
      var sorted := Sorting.SortBy(logs, Text.LexLe);
      var n := |sorted| - MaxLogs;
      assert sorted == sorted[..n] + sorted[n..];
      Retention(sorted[..n], sorted[n..])
  }

  /** What the clean-up selects: only performance logs are ever deleted,
      and every deleted name sorts no later than every kept one. */
  lemma CleanOldLogsDeletesSmallest(files: seq<string>)
    ensures var r := CleanOldLogs(files);
      && (forall i :: 0 <= i < |r.deleted| ==> IsLog(r.deleted[i]) && r.deleted[i] in files)
      && (forall i :: 0 <= i < |r.kept| ==> IsLog(r.kept[i]) && r.kept[i] in files)
      && (forall i, j :: 0 <= i < |r.deleted| && 0 <= j < |r.kept| ==> Text.LexLe(r.deleted[i], r.kept[j]))
  {
    var logs := Seqs.Filter(files, IsLog);
    var r := CleanOldLogs(files);
    Seqs.FilterMembers(files, IsLog);
    DrawnFrom(r.deleted, logs, files);
    DrawnFrom(r.kept, logs, files);
    RetainDeletesSmallest(logs);
  }

  /** The selection deletes names that sort no later than every kept one. */
  lemma RetainDeletesSmallest(logs: seq<string>)
    ensures var r := Retain(logs);
      forall i, j :: 0 <= i < |r.deleted| && 0 <= j < |r.kept| ==> Text.LexLe(r.deleted[i], r.kept[j])
  {
    if |logs| > MaxLogs {
      LexLeIsTotalPreorder();
      var sorted := Sorting.SortBy(logs, Text.LexLe);
      var n := |sorted| - MaxLogs;
      var r := Retain(logs);
      forall i, j | 0 <= i < |r.deleted| && 0 <= j < |r.kept| ensures Text.LexLe(r.deleted[i], r.kept[j]) {
        assert r.deleted[i] == sorted[i] && r.kept[j] == sorted[n + j];
      }
    }
  }

  /** Names taken, with repetitions, from a list of logs found in `files`
      are logs found in `files`. */
  lemma DrawnFrom(part: seq<string>, logs: seq<string>, files: seq<string>)
    requires multiset(part) <= multiset(logs)
    requires forall i :: 0 <= i < |logs| ==> IsLog(logs[i]) && logs[i] in files
    ensures forall i :: 0 <= i < |part| ==> IsLog(part[i]) && part[i] in files
  {
    forall i | 0 <= i < |part| ensures IsLog(part[i]) && part[i] in files {
      assert part[i] in multiset(logs);
    }
  }

  /** Files that are not performance logs never enter the selection, so
      adding them to the directory changes nothing. */
  lemma OtherFilesIgnored(files: seq<string>, others: seq<string>)
    requires forall i :: 0 <= i < |others| ==> !IsLog(others[i])
    ensures CleanOldLogs(files + others) == CleanOldLogs(files)
  {
    Seqs.FilterAppend(files, others, IsLog);
    Seqs.FilterKeepsNone(others, IsLog);
    assert Seqs.Filter(files + others, IsLog) == Seqs.Filter(files, IsLog);
  }

  // ---------------------------------------------------------------------
  // Buffer

  /** A flush that reached the file system: the log file written, the
      metrics in it, and the directory listing the clean-up then read;
      the clean-up deletes `CleanOldLogs(listing).deleted`. */
  datatype Flush = Flush(fileName: string, contents: seq<Metric>, listing: seq<string>)

  /** `performance_<Date.now()>.json`. */
  function LogFileName(flushTime: nat): (r: string)
    ensures IsLog(r)
  {
    var name := LogPrefix + Text.ToDecimal(flushTime) + ".json";
    assert name[..|LogPrefix|] == LogPrefix;
    name
  }

  /** `logMetric`: stamps the metric with `now` and appends it; once the
      buffer holds `FlushThreshold` metrics it is written out. `written`
      is whether the write succeeded, `flushTime` the clock at the flush,
      and `files` the directory listing the clean-up then reads. A failed
      write keeps the buffer, to be tried again at the next metric. */
  function LogMetric(buffer: seq<Metric>, m: MetricInput, now: int,
                     flushTime: nat, written: bool, files: seq<string>): (r: (seq<Metric>, Option<Flush>))
    ensures r.1.Some? <==> |buffer| + 1 >= FlushThreshold && written
    ensures r.1.Some? ==> r.0 == [] && r.1.value.contents == buffer + [Stamp(m, now)]
    ensures r.1.Some? ==> IsLog(r.1.value.fileName) && r.1.value.listing == files
    ensures r.1.None? ==> r.0 == buffer + [Stamp(m, now)]
  {
    var buf := buffer + [Stamp(m, now)];
    if |buf| >= FlushThreshold && written then
      ([], Some(Flush(LogFileName(flushTime), buf, files)))
    else
      (buf, None)
  }

  /** One call of `logMetric` with the outside world's answers. */
  datatype Call = Call(input: MetricInput, now: int, flushTime: nat, written: bool, files: seq<string>)

  function Stamped(calls: seq<Call>): (r: seq<Metric>)
    ensures |r| == |calls|
  {
    if |calls| == 0 then [] else [Stamp(calls[0].input, calls[0].now)] + Stamped(calls[1..])
  }

  /** One call's effect: the buffer after it and the flushes it made. */
  function Step(buffer: seq<Metric>, c: Call): (seq<Metric>, seq<Flush>) {
    var s := LogMetric(buffer, c.input, c.now, c.flushTime, c.written, c.files);
    (s.0, if s.1.Some? then [s.1.value] else [])
  }

  /** A sequence of `logMetric` calls: the final buffer and the flushes
      that reached the file system, in order. */
  function Run(buffer: seq<Metric>, calls: seq<Call>): (seq<Metric>, seq<Flush>)
    decreases calls
  {
    if |calls| == 0 then (buffer, [])
    else
      var s := Step(buffer, calls[0]);
      var rest := Run(s.0, calls[1..]);
      (rest.0, s.1 + rest.1)
  }

  /** Every metric written, flush after flush. */
  function Contents(flushes: seq<Flush>): seq<Metric> {
    if |flushes| == 0 then [] else flushes[0].contents + Contents(flushes[1..])
  }

  lemma {:induction false} ContentsAppend(a: seq<Flush>, b: seq<Flush>)
    ensures Contents(a + b) == Contents(a) + Contents(b)
  {
    if |a| == 0 {
      assert a + b == b;
    } else {
      ContentsAppend(a[1..], b);
      assert (a + b)[1..] == a[1..] + b;
    }
  }

  /** One call loses nothing: what it wrote, then its buffer, is the old
      buffer followed by the new metric. */
  lemma StepKeeps(buffer: seq<Metric>, c: Call)
    ensures var s := Step(buffer, c);
      Contents(s.1) + s.0 == buffer + [Stamp(c.input, c.now)]
  {
    var s := Step(buffer, c);
    if |s.1| > 0 {
      assert Contents(s.1) == s.1[0].contents + Contents(s.1[1..]);
    }
  }

  /** No metric is lost or reordered: the written files, then the buffer,
      hold exactly the starting buffer followed by every logged metric. */
  lemma {:induction false} NothingLost(buffer: seq<Metric>, calls: seq<Call>)
    ensures var r := Run(buffer, calls);
      Contents(r.1) + r.0 == buffer + Stamped(calls)
    decreases calls
  {
    if |calls| > 0 {
      var m := Stamp(calls[0].input, calls[0].now);
      var s := Step(buffer, calls[0]);
      var rest := Run(s.0, calls[1..]);
      NothingLost(s.0, calls[1..]);
      StepKeeps(buffer, calls[0]);
      ContentsAppend(s.1, rest.1);
      Regroup(Contents(s.1), Contents(rest.1), rest.0, s.0, Stamped(calls[1..]), buffer, [m]);
    }
  }

  /** The sequence algebra behind `NothingLost`: what one call wrote, then
      what the later calls left, regrouped around the call's buffer. */
  lemma Regroup<T>(written: seq<T>, later: seq<T>, left: seq<T>, mid: seq<T>, rest: seq<T>, before: seq<T>, added: seq<T>)
    requires later + left == mid + rest
    requires written + mid == before + added
    ensures (written + later) + left == before + (added + rest)
  {
    calc {
      (written + later) + left;
      written + (later + left);
      written + (mid + rest);
      (written + mid) + rest;
      (before + added) + rest;
    }
  }

  /** While every write succeeds the buffer never reaches the threshold
      between calls. */
  lemma {:induction false} BufferStaysBelowThreshold(buffer: seq<Metric>, calls: seq<Call>)
    requires |buffer| < FlushThreshold
    requires forall i :: 0 <= i < |calls| ==> calls[i].written
    ensures |Run(buffer, calls).0| < FlushThreshold
    decreases calls
  {
    if |calls| > 0 {
      BufferStaysBelowThreshold(Step(buffer, calls[0]).0, calls[1..]);
    }
  }

  // ---------------------------------------------------------------------
  // Overlapping calls

  /** A file write that a flush has started and that has not finished: the
      file name and the buffer as serialised when the write started. */
  datatype Pending = Pending(fileName: string, contents: seq<Metric>)

  /** The monitor between events: its buffer, the writes in flight, and
      the flushes that reached the file system. */
  datatype Monitor = Monitor(buffer: seq<Metric>, pending: seq<Pending>, written: seq<Flush>)

  /** What can happen next. No caller awaits `logMetric`, so the
      synchronous part of a call (stamp, push, start a write) and the end
      of the write it started are separate events, and further calls can
      run while a write is in flight. `Finish` ends the write at position
      `slot` of the pending list, successfully or not; after a success the
      clean-up reads the listing `files`. */
  datatype Event =
    | Log(input: MetricInput, now: int, flushTime: nat)
    | Finish(slot: nat, ok: bool, files: seq<string>)

  /** The metrics of the writes in flight. */
  function InFlight(pending: seq<Pending>): multiset<Metric> {
    if |pending| == 0 then multiset{} else multiset(pending[0].contents) + InFlight(pending[1..])
  }

  /** Starting one more write puts its metrics in flight. */
  lemma {:induction false} InFlightPush(pending: seq<Pending>, p: Pending)
    ensures InFlight(pending + [p]) == InFlight(pending) + multiset(p.contents)
  {
    if |pending| == 0 {
      assert pending + [p] == [p] && [p][1..] == [];
    } else {
      InFlightPush(pending[1..], p);
      assert (pending + [p])[1..] == pending[1..] + [p];
    }
  }

  /** Taking one write out of the pending list takes out its metrics. */
  lemma {:induction false} InFlightRemoveAt(pending: seq<Pending>, i: nat)
    requires i < |pending|
    ensures InFlight(Seqs.RemoveAt(pending, i)) + multiset(pending[i].contents) == InFlight(pending)
  {
    if i == 0 {
      assert Seqs.RemoveAt(pending, 0) == pending[1..];
    } else {
      var rest := Seqs.RemoveAt(pending[1..], i - 1);
      InFlightRemoveAt(pending[1..], i - 1);
      assert Seqs.RemoveAt(pending, i) == [pending[0]] + rest;
      assert ([pending[0]] + rest)[1..] == rest;
    }
  }

  /** Every metric the monitor holds: written, in flight, or buffered. */
  function Held(s: Monitor): multiset<Metric> {
    multiset(Contents(s.written)) + InFlight(s.pending) + multiset(s.buffer)
  }

  /** The metrics the `Log` events stamp, in order. */
  function Logged(events: seq<Event>): (r: seq<Metric>)
    ensures |r| <= |events|
  {
    if |events| == 0 then []
    else (if events[0].Log? then [Stamp(events[0].input, events[0].now)] else []) + Logged(events[1..])
  }

  /** One event as the source handles it. A call pushes its metric and, at
      the threshold, starts writing the whole buffer without taking it out
      of the buffer; only a successful write empties the buffer, and with
      it whatever was pushed while the write was in flight. */
  function StepAsWritten(s: Monitor, e: Event): (r: Monitor)
    ensures e.Log? ==> r.buffer == s.buffer + [Stamp(e.input, e.now)] && r.written == s.written
    ensures e.Log? && |r.buffer| >= FlushThreshold ==>
      r.pending == s.pending + [Pending(LogFileName(e.flushTime), r.buffer)]
    ensures e.Log? && |r.buffer| < FlushThreshold ==> r.pending == s.pending
    ensures e.Finish? && e.slot < |s.pending| ==>
      && r.pending == Seqs.RemoveAt(s.pending, e.slot)
      && (e.ok ==> r.buffer == [] && r.written == s.written + [Flush(s.pending[e.slot].fileName, s.pending[e.slot].contents, e.files)])
      && (!e.ok ==> r.buffer == s.buffer && r.written == s.written)
    ensures e.Finish? && e.slot >= |s.pending| ==> r == s
  {
    match e
    case Log(input, now, flushTime) =>
      var buf := s.buffer + [Stamp(input, now)];
      if |buf| >= FlushThreshold then s.(buffer := buf, pending := s.pending + [Pending(LogFileName(flushTime), buf)])
      else s.(buffer := buf)
    case Finish(slot, ok, files) =>
      if slot >= |s.pending| then s
      else
        var p := s.pending[slot];
        var rest := Seqs.RemoveAt(s.pending, slot);
        if ok then Monitor([], rest, s.written + [Flush(p.fileName, p.contents, files)])
        else s.(pending := rest)
  }

  function RunAsWritten(s: Monitor, events: seq<Event>): Monitor
    decreases |events|
  {
    if |events| == 0 then s else RunAsWritten(StepAsWritten(s, events[0]), events[1..])
  }

  lemma RunAsWrittenFive(s: Monitor, e1: Event, e2: Event, e3: Event, e4: Event, e5: Event)
    ensures RunAsWritten(s, [e1, e2]) == StepAsWritten(StepAsWritten(s, e1), e2)
    ensures RunAsWritten(s, [e1, e2, e3, e4, e5])
         == StepAsWritten(StepAsWritten(StepAsWritten(StepAsWritten(StepAsWritten(s, e1), e2), e3), e4), e5)
  {
    var s1 := StepAsWritten(s, e1);
    var s2 := StepAsWritten(s1, e2);
    var s3 := StepAsWritten(s2, e3);
    var s4 := StepAsWritten(s3, e4);
    assert [e1, e2][1..] == [e2] && [e2][1..] == [];
    assert RunAsWritten(s, [e1, e2]) == RunAsWritten(s1, [e2]);
    assert RunAsWritten(s1, [e2]) == RunAsWritten(s2, []);
    var es := [e1, e2, e3, e4, e5];
    assert es[1..] == [e2, e3, e4, e5] && [e2, e3, e4, e5][1..] == [e3, e4, e5];
    assert [e3, e4, e5][1..] == [e4, e5] && [e4, e5][1..] == [e5];
    assert RunAsWritten(s, es) == RunAsWritten(s1, [e2, e3, e4, e5]);
    assert RunAsWritten(s1, [e2, e3, e4, e5]) == RunAsWritten(s2, [e3, e4, e5]);
    assert RunAsWritten(s2, [e3, e4, e5]) == RunAsWritten(s3, [e4, e5]);
    assert RunAsWritten(s3, [e4, e5]) == RunAsWritten(s4, [e5]);
    assert RunAsWritten(s4, [e5]) == RunAsWritten(StepAsWritten(s4, e5), []);
  }

  lemma LoggedThree(e1: Event, e2: Event, e3: Event, e4: Event, e5: Event)
    requires e1.Log? && e2.Log? && e3.Finish? && e4.Log? && e5.Finish?
    ensures Logged([e1, e2, e3, e4, e5])
         == [Stamp(e1.input, e1.now), Stamp(e2.input, e2.now), Stamp(e4.input, e4.now)]
  {
    var es := [e1, e2, e3, e4, e5];
    assert es[1..] == [e2, e3, e4, e5] && [e2, e3, e4, e5][1..] == [e3, e4, e5];
    assert [e3, e4, e5][1..] == [e4, e5] && [e4, e5][1..] == [e5];
    assert Logged([e5]) == [] + Logged([]);
    assert Logged([e4, e5]) == [Stamp(e4.input, e4.now)] + Logged([e5]);
    assert Logged([e3, e4, e5]) == [] + Logged([e4, e5]);
    assert Logged([e2, e3, e4, e5]) == [Stamp(e2.input, e2.now)] + Logged([e3, e4, e5]);
    assert Logged(es) == [Stamp(e1.input, e1.now)] + Logged([e2, e3, e4, e5]);
  }

  /** The states of the overlapping run below, event by event. */
  lemma OverlappingRun(b: seq<Metric>, e1: Event, e2: Event, e4: Event, files: seq<string>)
    requires |b| == FlushThreshold - 1 && e1.Log? && e2.Log? && e4.Log?
    ensures var m1, m2 := Stamp(e1.input, e1.now), Stamp(e2.input, e2.now);
      && RunAsWritten(Monitor(b, [], []), [e1, e2]).buffer == b + [m1, m2]
      && RunAsWritten(Monitor(b, [], []), [e1, e2, Finish(0, true, files), e4, Finish(0, true, files)])
         == Monitor([], [], [Flush(LogFileName(e1.flushTime), b + [m1], files),
                             Flush(LogFileName(e2.flushTime), b + [m1, m2], files)])
  {
    var m1, m2, m4 := Stamp(e1.input, e1.now), Stamp(e2.input, e2.now), Stamp(e4.input, e4.now);
    var e3 := Finish(0, true, files);
    RunAsWrittenFive(Monitor(b, [], []), e1, e2, e3, e4, e3);
    var p1, p2 := Pending(LogFileName(e1.flushTime), b + [m1]), Pending(LogFileName(e2.flushTime), b + [m1, m2]);
    var s2 := StepAsWritten(StepAsWritten(Monitor(b, [], []), e1), e2);
    OverlappingStart(b, e1, e2);
    var s3 := StepAsWritten(s2, e3);
    assert [p1, p2][..0] + [p1, p2][1..] == [p2];
    assert s3 == Monitor([], [p2], [Flush(p1.fileName, p1.contents, files)]);
    var s4 := StepAsWritten(s3, e4);
    assert s4 == Monitor([m4], [p2], s3.written);
    assert [p2][..0] + [p2][1..] == [];
  }

  /** Both calls of the overlapping run start a write. */
  lemma OverlappingStart(b: seq<Metric>, e1: Event, e2: Event)
    requires |b| == FlushThreshold - 1 && e1.Log? && e2.Log?
    ensures var m1, m2 := Stamp(e1.input, e1.now), Stamp(e2.input, e2.now);
      StepAsWritten(StepAsWritten(Monitor(b, [], []), e1), e2)
      == Monitor(b + [m1, m2], [Pending(LogFileName(e1.flushTime), b + [m1]),
                                Pending(LogFileName(e2.flushTime), b + [m1, m2])], [])
  {
    var m1, m2 := Stamp(e1.input, e1.now), Stamp(e2.input, e2.now);
    var p1 := Pending(LogFileName(e1.flushTime), b + [m1]);
    var s1 := StepAsWritten(Monitor(b, [], []), e1);
    assert s1 == Monitor(b + [m1], [p1], []);
    assert b + [m1] + [m2] == b + [m1, m2];
    assert [p1] + [Pending(LogFileName(e2.flushTime), b + [m1, m2])] == [p1, Pending(LogFileName(e2.flushTime), b + [m1, m2])];
  }

  /** Two calls overlap at the threshold: each starts a write of the whole
      buffer, the buffer grows past the threshold meanwhile, the first
      metrics are written twice, and a metric logged between the two
      writes' ends is lost. */
  lemma OverlappingFlushLosesMetric(b: seq<Metric>, i1: MetricInput, i2: MetricInput, i3: MetricInput,
                                    t1: int, t2: int, t3: int, f1: nat, f2: nat, f3: nat, files: seq<string>)
    requires |b| == FlushThreshold - 1
    requires Stamp(i3, t3) !in b + [Stamp(i1, t1), Stamp(i2, t2)]
    ensures var start := Monitor(b, [], []);
      |RunAsWritten(start, [Log(i1, t1, f1), Log(i2, t2, f2)]).buffer| == FlushThreshold + 1
    ensures var start := Monitor(b, [], []);
      var events := [Log(i1, t1, f1), Log(i2, t2, f2), Finish(0, true, files), Log(i3, t3, f3), Finish(0, true, files)];
      var s := RunAsWritten(start, events);
      && s.buffer == [] && s.pending == []
      && Contents(s.written) == (b + [Stamp(i1, t1)]) + (b + [Stamp(i1, t1), Stamp(i2, t2)])
      && Stamp(i3, t3) !in Contents(s.written)
      && Logged(events) == [Stamp(i1, t1), Stamp(i2, t2), Stamp(i3, t3)]
  {
    var m1, m2 := Stamp(i1, t1), Stamp(i2, t2);
    var e1, e2, e4 := Log(i1, t1, f1), Log(i2, t2, f2), Log(i3, t3, f3);
    OverlappingRun(b, e1, e2, e4, files);
    LoggedThree(e1, e2, Finish(0, true, files), e4, Finish(0, true, files));
    var w := [Flush(LogFileName(f1), b + [m1], files), Flush(LogFileName(f2), b + [m1, m2], files)];
    assert w[1..][1..] == [];
    assert Contents(w) == (b + [m1]) + ((b + [m1, m2]) + Contents([]));
  }

  /** One event with the flush corrected: the buffer is swapped out when a
      write starts, so later calls fill a fresh one, and a failed write puts
      its metrics back in front of the buffer. Nothing is lost or
      duplicated, and a call never leaves the buffer at the threshold. */
  function StepSwapped(s: Monitor, e: Event): (r: Monitor)
    ensures Held(r) == Held(s) + (if e.Log? then multiset{Stamp(e.input, e.now)} else multiset{})
    ensures e.Log? ==> |r.buffer| < FlushThreshold
    ensures e.Finish? && e.ok ==> r.buffer == s.buffer
  {
    match e
    case Log(input, now, flushTime) =>
      var buf := s.buffer + [Stamp(input, now)];
      if |buf| >= FlushThreshold then
        var pending := s.pending + [Pending(LogFileName(flushTime), buf)];
        InFlightPush(s.pending, Pending(LogFileName(flushTime), buf));
        s.(buffer := [], pending := pending)
      else s.(buffer := buf)
    case Finish(slot, ok, files) =>
      if slot >= |s.pending| then s
      else
        var p := s.pending[slot];
        var rest := Seqs.RemoveAt(s.pending, slot);
        InFlightRemoveAt(s.pending, slot);
        if ok then
          ContentsAppend(s.written, [Flush(p.fileName, p.contents, files)]);
          assert Contents([Flush(p.fileName, p.contents, files)]) == p.contents + Contents([]);
          Monitor(s.buffer, rest, s.written + [Flush(p.fileName, p.contents, files)])
        else Monitor(p.contents + s.buffer, rest, s.written)
  }

  function RunSwapped(s: Monitor, events: seq<Event>): Monitor
    decreases |events|
  {
    if |events| == 0 then s else RunSwapped(StepSwapped(s, events[0]), events[1..])
  }

  /** With the corrected flush, however calls and write completions
      interleave and whichever writes fail, every metric logged is held
      exactly once more: written, in flight or buffered. */
  lemma {:induction false} SwappedNothingLost(s: Monitor, events: seq<Event>)
    ensures Held(RunSwapped(s, events)) == Held(s) + multiset(Logged(events))
    decreases |events|
  {
    if |events| > 0 {
      var e := events[0];
      var next := StepSwapped(s, e);
      SwappedNothingLost(next, events[1..]);
      var head := if e.Log? then [Stamp(e.input, e.now)] else [];
      assert Logged(events) == head + Logged(events[1..]);
      assert multiset(head) == if e.Log? then multiset{Stamp(e.input, e.now)} else multiset{};
    }
  }

  /** With the corrected flush the buffer stays below the threshold after
      every event while writes succeed, even with writes in flight. */
  lemma {:induction false} SwappedBufferBelowThreshold(s: Monitor, events: seq<Event>)
    requires |s.buffer| < FlushThreshold
    requires forall i :: 0 <= i < |events| && events[i].Finish? ==> events[i].ok
    ensures |RunSwapped(s, events).buffer| < FlushThreshold
    decreases |events|
  {
    if |events| > 0 {
      assert events[0].Finish? ==> events[0].ok;
      SwappedBufferBelowThreshold(StepSwapped(s, events[0]), events[1..]);
    }
  }
}

=== FILE: resources.dfy ===
/** The support-resources directory: the fixed list of services, the
    search-and-type filter over it, and the type chips. */
module Resources {
  import opened Options
  import Seqs
  import Text

  datatype Kind = Legal | Support | Emergency

  datatype Resource = Resource(
    id: string, name: string, kind: Kind, description: string, phone: string,
    address: string, available24h: bool, languages: seq<string>)

  /** `mockResources`. */
  const All: seq<Resource> := [
    Resource("1", "GBV Command Centre", Emergency,
      "South Africa's 24/7 national helpline for victims of gender-based violence. Provides counseling, support and referral services.",
      "0800 428 428", "National Service", true, ["English", "Afrikaans", "Zulu", "Xhosa"]),
    Resource("2", "POWA (People Opposing Women Abuse)", Support,
      "Provides counselling, legal advice, court support and shelter services to women survivors of domestic and sexual violence.",
      "011 642 4345", "64 Mitchell Street, Berea, Johannesburg", false, ["English", "Zulu", "Sotho"]),
    Resource("3", "Lawyers Against Abuse (LvA)", Legal,
      "Provides free legal services and psychosocial support to victims of gender-based violence.",
      "087 150 7130", "Diepsloot, Johannesburg", false, ["English", "Zulu"]),
    Resource("4", "Rape Crisis Cape Town Trust", Support,
      "Offers counselling, support, and advocacy for survivors of sexual violence. Provides court support and prevention programs.",
      "021 447 1467", "Observatory, Cape Town", false, ["English", "Afrikaans", "Xhosa"]),
    Resource("5", "SAPS Emergency", Emergency,
      "South African Police Service emergency response for immediate danger or crime reporting.",
      "10111", "National Service", true, ["English", "Afrikaans", "Zulu", "Xhosa", "Sotho"]),
    Resource("6", "Thuthuzela Care Centres", Support,
      "One-stop facilities for survivors of sexual violence, providing medical care, counselling, and assistance with case reporting.",
      "012 845 6000", "Multiple locations across South Africa", true, ["English", "Afrikaans", "Zulu", "Xhosa", "Sotho"]),
    Resource("7", "Legal Aid South Africa", Legal,
      "Provides free legal services to those who cannot afford it, including cases of domestic violence and sexual offenses.",
      "0800 110 110", "National Service", false, ["English", "Afrikaans", "Zulu", "Xhosa", "Sotho"])
  ]

  /** The search part of the filter: the lower-cased query occurs in the
      lower-cased name or description. */
  function MatchesSearch(r: Resource, query: string): (ok: bool)
    ensures ok <==> (exists i :: Text.OccursAt(Text.Lower(r.name), Text.Lower(query), i))
                    || (exists i :: Text.OccursAt(Text.Lower(r.description), Text.Lower(query), i))
  {
    Text.ContainsIff(Text.Lower(r.name), Text.Lower(query));
    Text.ContainsIff(Text.Lower(r.description), Text.Lower(query));
    Text.Contains(Text.Lower(r.name), Text.Lower(query))
    || Text.Contains(Text.Lower(r.description), Text.Lower(query))
  }

  /** The type part: no selected type lets everything through, a selected
      type only resources of that type. */
  function MatchesType(r: Resource, selected: Option<Kind>): (ok: bool)
    ensures selected.None? ==> ok
    ensures forall k :: selected == Some(k) ==> (ok <==> r.kind == k)
  {
    selected.None? || r.kind == selected.value
  }

  function SearchMatches(query: string): Resource -> bool {
    (r: Resource) => MatchesSearch(r, query)
  }

  function Matches(query: string, selected: Option<Kind>): Resource -> bool {
    (r: Resource) => MatchesSearch(r, query) && MatchesType(r, selected)
  }

  /** `filteredResources` over a resource list: the ones matching both
      the search and the selected type, in list order. */
  function FilterResources(rs: seq<Resource>, query: string, selected: Option<Kind>): (r: seq<Resource>)
    ensures Seqs.IsSubseq(r, rs)
    ensures forall i :: 0 <= i < |r| ==> MatchesSearch(r[i], query) && MatchesType(r[i], selected)
    ensures forall x :: multiset(r)[x] == if MatchesSearch(x, query) && MatchesType(x, selected) then multiset(rs)[x] else 0
  {
    Seqs.FilterCounts(rs, Matches(query, selected));
    Seqs.FilterIsSubseq(rs, Matches(query, selected));
    Seqs.Filter(rs, Matches(query, selected))
  }

  /** What the screen shows: the filter over `All`. */
  function Filtered(query: string, selected: Option<Kind>): seq<Resource> {
    FilterResources(All, query, selected)
  }

  /** A listed resource is shown exactly when it matches both parts. */
  lemma FilteredMembership(rs: seq<Resource>, query: string, selected: Option<Kind>, i: int)
    requires 0 <= i < |rs|
    ensures rs[i] in FilterResources(rs, query, selected) <==> MatchesSearch(rs[i], query) && MatchesType(rs[i], selected)
  {
    Seqs.FilterMembers(rs, Matches(query, selected));
  }

  /** The empty query occurs in every name. */
  lemma EmptyQueryMatches(r: Resource)
    ensures Matches("", None)(r)
  {
    Text.ContainsEmpty(Text.Lower(r.name));
  }

  /** An empty query and no selected type keep any list as it is. */
  lemma EmptySearchKeeps(rs: seq<Resource>)
    ensures FilterResources(rs, "", None) == rs
  {
    forall i | 0 <= i < |rs| ensures Matches("", None)(rs[i]) {
      EmptyQueryMatches(rs[i]);
    }
    Seqs.FilterKeepsAll(rs, Matches("", None));
  }

  /** With an empty query and no selected type the whole list shows, in order. */
  lemma EmptySearchShowsAll()
    ensures Filtered("", None) == All
  {
    EmptySearchKeeps(All);
  }

  /** The directory lists seven services. */
  lemma SevenResources()
    ensures |All| == 7
  {
  }

  /** The label a chip sets: pressing the selected chip clears the
      selection, pressing another selects it. */
  function PressChip(selected: Option<Kind>, pressed: Kind): (r: Option<Kind>)
    ensures r.None? <==> selected == Some(pressed)
    ensures r.Some? ==> r.value == pressed
  {
    if selected == Some(pressed) then None else Some(pressed)
  }

  /** After pressing a chip, either only that chip's kind is shown or the
      type filter is off and the search alone decides. */
  lemma PressChipEffect(rs: seq<Resource>, query: string, selected: Option<Kind>, pressed: Kind)
    ensures var s := PressChip(selected, pressed);
      s.Some? ==> forall i :: 0 <= i < |FilterResources(rs, query, s)| ==> FilterResources(rs, query, s)[i].kind == pressed
    ensures PressChip(selected, pressed).None? ==>
      FilterResources(rs, query, PressChip(selected, pressed)) == Seqs.Filter(rs, SearchMatches(query))
  {
    if PressChip(selected, pressed).None? {
      SearchOnly(rs, query);
    }
  }

  /** With no type selected only the search decides. */
  lemma SearchOnly(rs: seq<Resource>, query: string)
    ensures Seqs.Filter(rs, Matches(query, None)) == Seqs.Filter(rs, SearchMatches(query))
  {
    FilterSameSelection(rs, Matches(query, None), SearchMatches(query));
  }

  /** Filters that agree on every element select the same elements. */
  lemma {:induction false} FilterSameSelection<T>(s: seq<T>, p: T -> bool, q: T -> bool)
    requires forall i :: 0 <= i < |s| ==> p(s[i]) == q(s[i])
    ensures Seqs.Filter(s, p) == Seqs.Filter(s, q)
  {
    if |s| > 0 {
      FilterSameSelection(s[1..], p, q);
    }
  }
}

=== FILE: risk_calendar.dfy ===
/** The incident-calendar assessment component: severity and tier colours,
    the calendar's marked days, and the add-incident and answer handlers
    that drive the danger-assessment service. */
module RiskCalendar {
  import opened Options
  import Seqs
  import DangerAssessment

  /** Dot colours for severities 1..5. */
  const SeverityColors: seq<string> := ["#4CAF50", "#8BC34A", "#FFEB3B", "#FF9800", "#F44336"]

  /** `getSeverityColor`: out-of-table severities fall back to the first colour. */
  function SeverityColor(severity: int): (r: string)
    ensures r in SeverityColors
    ensures 1 <= severity <= 5 ==> r == SeverityColors[severity - 1]
    ensures !(1 <= severity <= 5) ==> r == "#4CAF50"
  {
    if 1 <= severity <= |SeverityColors| then SeverityColors[severity - 1] else SeverityColors[0]
  }

  /** The five in-range severities get five different colours, and no
      out-of-range severity looks like anything but severity 1. */
  lemma SeverityColorsDistinguish(s1: int, s2: int)
    requires SeverityColor(s1) == SeverityColor(s2)
    ensures (1 <= s1 <= 5 && 1 <= s2 <= 5) ==> s1 == s2
    ensures !(1 <= s1 <= 5) ==> s2 == 1 || !(1 <= s2 <= 5)
  {
  }

  /** `getRiskLevelColor` on the tier's string name: each tier name gets
      its tier's colour, and any other name is black. */
  function RiskLevelColor(level: string): (r: string)
    ensures forall t :: level == DangerAssessment.TierName(t) ==> r == DangerAssessment.TierColor(t)
    ensures (forall t :: level != DangerAssessment.TierName(t)) ==> r == "#000000"
  {
    assert DangerAssessment.TierName(DangerAssessment.Variable) == "variable";
    assert DangerAssessment.TierName(DangerAssessment.Increased) == "increased";
    assert DangerAssessment.TierName(DangerAssessment.Severe) == "severe";
    assert DangerAssessment.TierName(DangerAssessment.Extreme) == "extreme";
    if level == "variable" then "#4CAF50"
    else if level == "increased" then "#FF9800"
    else if level == "severe" then "#F44336"
    else if level == "extreme" then "#D32F2F"
    else "#000000"
  }

  /** The component's colours agree with the service's `RISK_LEVEL_COLORS`,
      and no tier is shown in the fallback black. */
  lemma RiskLevelColorMatchesService(t: DangerAssessment.Tier)
    ensures RiskLevelColor(DangerAssessment.TierName(t)) == DangerAssessment.TierColor(t)
    ensures RiskLevelColor(DangerAssessment.TierName(t)) != "#000000"
  {
  }

  datatype Mark = Mark(marked: bool, dotColor: string)

  /** No later incident falls on the same day as incident `i`. */
  ghost predicate LastOfItsDay(incidents: seq<DangerAssessment.Incident>, dayKey: int -> string, i: int) {
    && 0 <= i < |incidents|
    && forall j :: i < j < |incidents| ==> dayKey(incidents[j].date) != dayKey(incidents[i].date)
  }

  /** `getMarkedDates`: one entry per day, each incident overwriting the
      entry of its day in list order. `dayKey` is the `yyyy-MM-dd`
      formatting of a date in the device's time zone. */
  function MarkedDates(incidents: seq<DangerAssessment.Incident>, dayKey: int -> string): (r: map<string, Mark>)
    ensures forall k :: k in r ==> r[k].marked && r[k].dotColor in SeverityColors
    ensures |incidents| == 0 ==> r == map[]
  {
    if |incidents| == 0 then map[]
    else
      var last := incidents[|incidents| - 1];
      MarkedDates(incidents[..|incidents| - 1], dayKey)[dayKey(last.date) := Mark(true, SeverityColor(last.severity))]
  }

  /** The marked days are exactly the days of the incidents. */
  lemma {:induction false} MarkedDatesKeys(incidents: seq<DangerAssessment.Incident>, dayKey: int -> string)
    ensures forall i :: 0 <= i < |incidents| ==> dayKey(incidents[i].date) in MarkedDates(incidents, dayKey)
    ensures forall k :: k in MarkedDates(incidents, dayKey) ==>
      exists i :: 0 <= i < |incidents| && dayKey(incidents[i].date) == k
  {
    if |incidents| > 0 {
      var n := |incidents| - 1;
      var init := incidents[..n];
      MarkedDatesKeys(init, dayKey);
      var r := MarkedDates(incidents, dayKey);
      forall i | 0 <= i < n ensures dayKey(incidents[i].date) in r {
        assert init[i] == incidents[i];
      }
      forall k | k in r
        ensures exists i :: 0 <= i < |incidents| && dayKey(incidents[i].date) == k
      {
        if k != dayKey(incidents[n].date) {
          var i :| 0 <= i < |init| && dayKey(init[i].date) == k;
          assert incidents[i] == init[i];
        }
      }
    }
  }

  /** Each day's dot has the colour of the last incident on that day. */
  lemma {:induction false} MarkedDatesLastWins(incidents: seq<DangerAssessment.Incident>, dayKey: int -> string, i: int)
    requires LastOfItsDay(incidents, dayKey, i)
    ensures var r := MarkedDates(incidents, dayKey);
      dayKey(incidents[i].date) in r && r[dayKey(incidents[i].date)] == Mark(true, SeverityColor(incidents[i].severity))
  {
    var n := |incidents| - 1;
    if i < n {
      var init := incidents[..n];
      assert init[i] == incidents[i];
      assert LastOfItsDay(init, dayKey, i) by {
        forall j | i < j < |init| ensures dayKey(init[j].date) != dayKey(init[i].date) {
          assert init[j] == incidents[j];
        }
      }
      MarkedDatesLastWins(init, dayKey, i);
    }
  }

  /** Of two incidents on the same day, the one later in the marked list
      decides the dot colour. */
  lemma LaterIncidentWins(incidents: seq<DangerAssessment.Incident>, dayKey: int -> string,
                          a: DangerAssessment.Incident, b: DangerAssessment.Incident)
    requires dayKey(a.date) == dayKey(b.date)
    ensures MarkedDates(incidents + [a, b], dayKey)[dayKey(a.date)] == Mark(true, SeverityColor(b.severity))
  {
    var s := incidents + [a, b];
    assert s[|s| - 1] == b;
  }

  /** The calendar marks the service's incidents newest first, so a day's
      dot shows the day's earliest incident: an incident strictly older than
      every other incident on its day decides that day's colour, whatever
      order the incidents were added in. */
  lemma EarliestOfDayDecides(svc: DangerAssessment.Service, dayKey: int -> string, x: DangerAssessment.Incident)
    requires x in svc.incidents
    requires forall y :: y in svc.incidents && y != x && dayKey(y.date) == dayKey(x.date) ==> y.date > x.date
    ensures var r := MarkedDates(DangerAssessment.GetIncidents(svc), dayKey);
      dayKey(x.date) in r && r[dayKey(x.date)] == Mark(true, SeverityColor(x.severity))
  {
    var s := DangerAssessment.GetIncidents(svc);
    assert x in multiset(s);
    var i := Seqs.LastIndex(s, x);
    forall j | i < j < |s| ensures dayKey(s[j].date) != dayKey(s[i].date) {
      assert s[j] in multiset(svc.incidents);
    }
    MarkedDatesLastWins(s, dayKey, i);
  }

  /** The component's own state around the calendar. */
  datatype Form = Form(
    selectedDate: Option<int>, showModal: bool, description: string, severity: int,
    shown: seq<DangerAssessment.Incident>, answers: map<string, bool>)

  /** `handleAddIncident`: needs a selected date and a non-empty description;
      then records the incident, refreshes the list and resets the form. */
  function HandleAddIncident(f: Form, svc: DangerAssessment.Service, newId: string)
    : (r: (Form, DangerAssessment.Service))
    ensures !(f.selectedDate.Some? && f.description != "") ==> r == (f, svc)
    ensures f.selectedDate.Some? && f.description != "" ==>
      && r.1.incidents == svc.incidents + [DangerAssessment.Incident(newId, f.selectedDate.value, f.severity, f.description)]
      && r.1.history == svc.history && r.1.answers == svc.answers
      && r.0 == Form(None, false, "", 1, DangerAssessment.GetIncidents(r.1), f.answers)
  {
    if f.selectedDate.Some? && f.description != "" then
      var added := DangerAssessment.AddIncident(svc, newId, f.selectedDate.value, f.severity, f.description);
      (Form(None, false, "", 1, DangerAssessment.GetIncidents(added.1), f.answers), added.1)
    else (f, svc)
  }

  /** After a successful add the refreshed list holds the new incident. */
  lemma AddedIncidentShown(f: Form, svc: DangerAssessment.Service, newId: string)
    requires f.selectedDate.Some? && f.description != ""
    ensures DangerAssessment.Incident(newId, f.selectedDate.value, f.severity, f.description)
      in HandleAddIncident(f, svc, newId).0.shown
  {
    var r := HandleAddIncident(f, svc, newId);
    var x := DangerAssessment.Incident(newId, f.selectedDate.value, f.severity, f.description);
    assert x in multiset(r.1.incidents);
  }

  /** `handleDeleteIncident`: deletes the incident in the service and shows
      the refreshed list, newest first as the service returns it, in which
      no incident has the id any more. */
  function HandleDeleteIncident(f: Form, svc: DangerAssessment.Service, id: string)
    : (r: (Form, DangerAssessment.Service))
    ensures r.1 == DangerAssessment.DeleteIncident(svc, id)
    ensures r.0.shown == DangerAssessment.GetIncidents(r.1)
    ensures forall i :: 0 <= i < |r.0.shown| ==> r.0.shown[i].id != id
    ensures multiset(r.0.shown) == multiset(r.1.incidents)
    ensures r.0 == f.(shown := r.0.shown)
  {
    var svc' := DangerAssessment.DeleteIncident(svc, id);
    var shown := DangerAssessment.GetIncidents(svc');
    assert forall i :: 0 <= i < |shown| ==> shown[i].id != id by {
      forall i | 0 <= i < |shown| ensures shown[i].id != id {
        assert shown[i] in multiset(svc'.incidents);
      }
    }
    (f.(shown := shown), svc')
  }

  /** Where the assessment flow stands. */
  datatype Step = QuestionsStep | ResultsStep

  /** `handleComplete`: computes and records an assessment, keeps its result
      for display, switches to the results step and navigates to the risk
      check screen. */
  function HandleComplete(svc: DangerAssessment.Service, recordId: string, now: int)
    : (r: (DangerAssessment.AssessmentResult, Step, string, DangerAssessment.Service))
    ensures r.0.score == DangerAssessment.Score(svc.answers) && r.0.tier == DangerAssessment.TierOf(r.0.score)
    ensures r.1 == ResultsStep && r.2 == "RiskCheck"
    ensures r.3.history == svc.history + [DangerAssessment.AssessmentRecord(recordId, now, r.0.score, r.0.tier, svc.incidents)]
    ensures r.3.incidents == svc.incidents && r.3.answers == svc.answers
  {
    var done := DangerAssessment.GetAssessmentResult(svc, recordId, now);
    assert done.1.history == done.1.history[..|svc.history|] + [done.1.history[|svc.history|]];
    (done.0, ResultsStep, "RiskCheck", done.1)
  }

  /** The result shown after completing is always drawn in its tier's
      colour, never in the fallback black. */
  lemma CompletedResultIsColoured(svc: DangerAssessment.Service, recordId: string, now: int)
    ensures var t := HandleComplete(svc, recordId, now).0.tier;
      RiskLevelColor(DangerAssessment.TierName(t)) == DangerAssessment.TierColor(t) != "#000000"
  {
  }

  /** `handleAnswer`: the service and the component record the same answer. */
  function HandleAnswer(f: Form, svc: DangerAssessment.Service, questionId: string, answer: bool)
    : (r: (Form, DangerAssessment.Service))
    ensures r.0.answers == f.answers[questionId := answer]
    ensures r.1 == DangerAssessment.SetAnswer(svc, questionId, answer)
  {
    (f.(answers := f.answers[questionId := answer]), DangerAssessment.SetAnswer(svc, questionId, answer))
  }

  /** Handling answers keeps the component's record in step with the service's. */
  lemma AnswersStayInStep(f: Form, svc: DangerAssessment.Service, questionId: string, answer: bool)
    requires f.answers == svc.answers
    ensures HandleAnswer(f, svc, questionId, answer).0.answers == HandleAnswer(f, svc, questionId, answer).1.answers
  {
  }
}

=== FILE: risk_screen.dfy ===
/** The stand-alone risk questionnaire screen: eight weighted yes/no
    questions, a percentage classifier into low / medium / high, submit
    enabling, the safety-assistant trigger and start-over. */
module RiskScreen {
  import opened Options

  datatype Level = Low | Medium | High

  function LevelRank(l: Level): nat {
    match l
    case Low => 0
    case Medium => 1
    case High => 2
  }

  datatype Question = Question(id: string, text: string, weight: nat)

  const Questions: seq<Question> := [
    Question("physical_violence", "Has there been physical violence in the last 6 months?", 3),
    Question("threats", "Have there been threats of harm to you or your loved ones?", 3),
    Question("weapons", "Does the person have access to weapons?", 3),
    Question("control", "Do they try to control your daily activities or monitor your movements?", 2),
    Question("jealousy", "Do they show extreme jealousy or possessiveness?", 2),
    Question("isolation", "Have they tried to isolate you from family or friends?", 2),
    Question("financial_control", "Do they control your access to money or resources?", 2),
    Question("children", "Have there been threats involving children (if applicable)?", 3)
  ]

  /** The sum of all weights (`maxPossibleScore`). */
  const MaxTotal: nat := 20

  /** Percent thresholds, both inclusive. */
  const HighPercent: nat := 60
  const MediumPercent: nat := 30

  function IsYes(answers: map<string, string>, id: string): bool {
    id in answers && answers[id] == "yes"
  }

  function Weights(qs: seq<Question>): nat {
    if |qs| == 0 then 0 else Weights(qs[..|qs| - 1]) + qs[|qs| - 1].weight
  }

  /** `totalScore`: the weights of the questions answered exactly `"yes"`. */
  function TotalOver(qs: seq<Question>, answers: map<string, string>): (r: nat)
    ensures r <= Weights(qs)
  {
    if |qs| == 0 then 0
    else TotalOver(qs[..|qs| - 1], answers) + (if IsYes(answers, qs[|qs| - 1].id) then qs[|qs| - 1].weight else 0)
  }

  /** The screen's total, never above the table's maximum. */
  function Total(answers: map<string, string>): (r: nat)
    ensures r <= MaxTotal
  {
    WeightsOfTable();
    TotalOver(Questions, answers)
  }

  lemma WeightsOfTable()
    ensures Weights(Questions) == MaxTotal
  {
    assert Weights(Questions[..1]) == 3;
    assert Questions[..2][..1] == Questions[..1];
    assert Weights(Questions[..2]) == 6;
    assert Questions[..3][..2] == Questions[..2];
    assert Weights(Questions[..3]) == 9;
    assert Questions[..4][..3] == Questions[..3];
    assert Weights(Questions[..4]) == 11;
    assert Questions[..5][..4] == Questions[..4];
    assert Weights(Questions[..5]) == 13;
    assert Questions[..6][..5] == Questions[..5];
    assert Weights(Questions[..6]) == 15;
    assert Questions[..7][..6] == Questions[..6];
    assert Weights(Questions[..7]) == 17;
    assert Questions[..8][..7] == Questions[..7];
    assert Weights(Questions[..8]) == 20;
    assert Questions[..8] == Questions;
  }

  /** `a / m` reaches `k` exactly when `a` reaches `k * m`. */
  lemma DivAtLeast(a: nat, m: nat, k: nat)
    requires m > 0
    ensures a / m >= k <==> a >= k * m
  {
    var q, rem := a / m, a % m;
    assert a == q * m + rem && 0 <= rem < m;
    if q >= k {
      assert q * m >= k * m by {
        assert (q - k) * m >= 0;
      }
    } else {
      assert (k - q) * m >= m by {
        assert (k - q - 1) * m >= 0;
      }
    }
  }

  /** The classifier of `calculateRiskLevel`: the source compares the
      percentage `total / max * 100` with 60 and 30; the model
      cross-multiplies. As the thresholds are whole numbers, the percentage
      rounded down reaches them exactly when the exact one does. With no
      weight at all the source's percentage is not a number, every
      comparison fails and the level is low. */
  function LevelOf(total: nat, max: nat): (r: Level)
    ensures max > 0 ==> (r == High <==> total * 100 / max >= HighPercent)
    ensures max > 0 ==> (r == Medium <==> MediumPercent <= total * 100 / max < HighPercent)
    ensures max > 0 ==> (r == Low <==> total * 100 / max < MediumPercent)
    ensures max == 0 ==> r == Low
  {
    if max == 0 then Low
    else
      DivAtLeast(total * 100, max, HighPercent);
      DivAtLeast(total * 100, max, MediumPercent);
      if total * 100 >= HighPercent * max then High
      else if total * 100 >= MediumPercent * max then Medium
      else Low
  }

  /** `calculateRiskLevel`: the level of the yes answers' total as a share
      of the weights of every question. */
  function CalculateRiskLevel(answers: map<string, string>): (r: Level)
    ensures var pct := TotalOver(Questions, answers) * 100 / Weights(Questions);
      && (r == High <==> pct >= HighPercent)
      && (r == Medium <==> MediumPercent <= pct < HighPercent)
      && (r == Low <==> pct < MediumPercent)
  {
    WeightsOfTable();
    LevelOf(Total(answers), MaxTotal)
  }

  /** With the table's maximum of 20: high from 12, medium from 6 to 11. */
  lemma LevelBands(answers: map<string, string>)
    ensures CalculateRiskLevel(answers) == High <==> Total(answers) >= 12
    ensures CalculateRiskLevel(answers) == Medium <==> 6 <= Total(answers) < 12
    ensures CalculateRiskLevel(answers) == Low <==> Total(answers) < 6
  {
  }

  /** A larger total never gives a lower level. */
  lemma LevelMonotone(t1: nat, t2: nat, max: nat)
    requires t1 <= t2
    ensures LevelRank(LevelOf(t1, max)) <= LevelRank(LevelOf(t2, max))
  {
  }

  lemma {:induction false} TotalOverMonotone(qs: seq<Question>, answers: map<string, string>, id: string)
    ensures TotalOver(qs, answers[id := "yes"]) >= TotalOver(qs, answers)
  {
    if |qs| > 0 {
      TotalOverMonotone(qs[..|qs| - 1], answers, id);
    }
  }

  /** Flipping any answer to `"yes"` never lowers the level. */
  lemma YesNeverLowers(answers: map<string, string>, id: string)
    ensures LevelRank(CalculateRiskLevel(answers[id := "yes"])) >= LevelRank(CalculateRiskLevel(answers))
  {
    TotalOverMonotone(Questions, answers, id);
  }

  lemma {:induction false} TotalOverNone(qs: seq<Question>, answers: map<string, string>)
    requires forall i :: 0 <= i < |qs| ==> !IsYes(answers, qs[i].id)
    ensures TotalOver(qs, answers) == 0
  {
    if |qs| > 0 {
      TotalOverNone(qs[..|qs| - 1], answers);
    }
  }

  lemma {:induction false} TotalOverAll(qs: seq<Question>, answers: map<string, string>)
    requires forall i :: 0 <= i < |qs| ==> IsYes(answers, qs[i].id)
    ensures TotalOver(qs, answers) == Weights(qs)
  {
    if |qs| > 0 {
      TotalOverAll(qs[..|qs| - 1], answers);
    }
  }

  /** No `"yes"` at all gives low; `"yes"` everywhere gives high. */
  lemma Extremes(noes: map<string, string>, yeses: map<string, string>)
    requires forall i :: 0 <= i < |Questions| ==> !IsYes(noes, Questions[i].id)
    requires forall i :: 0 <= i < |Questions| ==> IsYes(yeses, Questions[i].id)
    ensures CalculateRiskLevel(noes) == Low
    ensures CalculateRiskLevel(yeses) == High
  {
    TotalOverNone(Questions, noes);
    TotalOverAll(Questions, yeses);
    WeightsOfTable();
  }

  function IdSet(qs: seq<Question>): set<string> {
    set i | 0 <= i < |qs| :: qs[i].id
  }

  ghost predicate DistinctIds(qs: seq<Question>) {
    forall i, j :: 0 <= i < j < |qs| ==> qs[i].id != qs[j].id
  }

  lemma {:induction false} IdSetSize(qs: seq<Question>)
    requires DistinctIds(qs)
    ensures |IdSet(qs)| == |qs|
  {
    if |qs| > 0 {
      var init := qs[..|qs| - 1];
      IdSetSize(init);
      assert IdSet(qs) == IdSet(init) + {qs[|qs| - 1].id} by {
        forall x | x in IdSet(qs) ensures x in IdSet(init) + {qs[|qs| - 1].id} {
          var i :| 0 <= i < |qs| && qs[i].id == x;
          if i < |qs| - 1 { assert init[i] == qs[i]; }
        }
        forall x | x in IdSet(init) ensures x in IdSet(qs) {
          var i :| 0 <= i < |init| && init[i].id == x;
          assert qs[i] == init[i];
        }
      }
      assert qs[|qs| - 1].id !in IdSet(init);
    }
  }

  /** The submit button's `disabled` test, negated: at least as many
      answers as questions. Answers are only ever recorded under question
      ids; under that condition submit is enabled exactly when every
      question is answered. */
  function SubmitEnabled(answers: map<string, string>): (r: bool)
    ensures answers.Keys <= IdSet(Questions) ==>
      (r <==> forall i :: 0 <= i < |Questions| ==> Questions[i].id in answers)
  {
    TableIdsDistinct();
    if answers.Keys <= IdSet(Questions) then
      CountingAnswers(Questions, answers);
      |answers| >= |Questions|
    else |answers| >= |Questions|
  }

  /** Over any table with distinct ids, holding at least as many answers
      as questions, all under question ids, means every question is answered. */
  lemma CountingAnswers(qs: seq<Question>, answers: map<string, string>)
    requires DistinctIds(qs) && answers.Keys <= IdSet(qs)
    ensures |answers| >= |qs| <==> forall i :: 0 <= i < |qs| ==> qs[i].id in answers
  {
    var ids := IdSet(qs);
    IdSetSize(qs);
    var missing := ids - answers.Keys;
    assert ids == answers.Keys + missing;
    assert |ids| == |answers.Keys| + |missing|;
    if |answers| >= |qs| {
      assert missing == {};
    } else {
      var m :| m in missing;
      var i :| 0 <= i < |qs| && qs[i].id == m;
    }
  }

  lemma TableIdsDistinct()
    ensures DistinctIds(Questions)
  {
  }

  datatype Screen = Screen(
    answers: map<string, string>, showResults: bool, level: Option<Level>, showAssistant: bool)

  /** `handleAnswer`. */
  function HandleAnswer(s: Screen, questionId: string, value: string): (r: Screen)
    ensures r.answers.Keys == s.answers.Keys + {questionId} && r.answers[questionId] == value
    ensures r.showResults == s.showResults && r.level == s.level && r.showAssistant == s.showAssistant
  {
    s.(answers := s.answers[questionId := value])
  }

  /** `handleSubmit`: shows the results and opens the assistant on a high level. */
  function HandleSubmit(s: Screen): (r: Screen)
    ensures r.showResults && r.level == Some(CalculateRiskLevel(s.answers))
    ensures r.showAssistant == (s.showAssistant || CalculateRiskLevel(s.answers) == High)
    ensures r.answers == s.answers
  {
    var level := CalculateRiskLevel(s.answers);
    Screen(s.answers, true, Some(level), if level == High then true else s.showAssistant)
  }

  /** From a closed assistant, submitting opens it exactly on a high level. */
  lemma AssistantOpensIffHigh(s: Screen)
    requires !s.showAssistant
    ensures HandleSubmit(s).showAssistant <==> HandleSubmit(s).level == Some(High)
  {
  }

  /** `handleStartOver`: clears answers, results and level. */
  function HandleStartOver(s: Screen): (r: Screen)
    ensures r.answers == map[] && !r.showResults && r.level == None
    ensures r.showAssistant == s.showAssistant
  {
    Screen(map[], false, None, s.showAssistant)
  }

  /** After starting over, submit is disabled again. */
  lemma StartOverDisablesSubmit(s: Screen)
    ensures !SubmitEnabled(HandleStartOver(s).answers)
  {
  }
}

=== FILE: safe_places.dfy ===
/** The nearest-safe-places ranking: raw places from the places search
    become safe places with a type label, sorted by distance, cut to the
    five closest and ranked 1..5. Distances are given numbers; computing
    them from coordinates is outside the model. */
module SafePlaces {
  import opened Options
  import Sorting

  /** A place as the places search returns it; `distance` is its computed
      distance from the user. */
  datatype RawPlace = RawPlace(name: string, vicinity: string, placeId: string,
                               types: Option<seq<string>>, distance: int)

  datatype SafePlace = SafePlace(name: string, vicinity: string, distance: int,
                                 formattedDistance: string, placeId: string,
                                 placeType: string, rank: int)

  const MaxPlaces: nat := 5

  predicate HasType(types: Option<seq<string>>, t: string) {
    types.Some? && t in types.value
  }

  /** `determineType`: the first of police, hospital, embassy that the
      place's types include; a place without types is a plain safe place.
      Each label is chosen exactly when its type is present and no
      higher-priority type is. */
  function DetermineType(types: Option<seq<string>>): (r: string)
    ensures r == "Police Station" <==> HasType(types, "police")
    ensures r == "Hospital" <==> !HasType(types, "police") && HasType(types, "hospital")
    ensures r == "Embassy" <==> !HasType(types, "police") && !HasType(types, "hospital") && HasType(types, "embassy")
    ensures r == "Safe Place" <==>
      !HasType(types, "police") && !HasType(types, "hospital") && !HasType(types, "embassy")
    ensures types.None? ==> r == "Safe Place"
  {
    if HasType(types, "police") then "Police Station"
    else if HasType(types, "hospital") then "Hospital"
    else if HasType(types, "embassy") then "Embassy"
    else "Safe Place"
  }

  /** The unranked safe place built from one raw place. */
  function ToSafePlace(p: RawPlace, format: int -> string): SafePlace {
    SafePlace(p.name, p.vicinity, p.distance, format(p.distance), p.placeId, DetermineType(p.types), 0)
  }

  function Closer(): (SafePlace, SafePlace) -> bool {
    (a: SafePlace, b: SafePlace) => a.distance <= b.distance
  }

  /** The unranked safe places, in input order. */
  function AllPlaces(raw: seq<RawPlace>, format: int -> string): (r: seq<SafePlace>)
    ensures |r| == |raw|
    ensures forall i :: 0 <= i < |raw| ==> r[i] == ToSafePlace(raw[i], format)
  {
    if |raw| == 0 then [] else AllPlaces(raw[..|raw| - 1], format) + [ToSafePlace(raw[|raw| - 1], format)]
  }

  /** The places in the order the comparator sorts them, before cutting. */
  function ByDistance(raw: seq<RawPlace>, format: int -> string): (r: seq<SafePlace>)
    ensures |r| == |raw|
    ensures Sorting.SortedBy(r, Closer())
    ensures multiset(r) == multiset(AllPlaces(raw, format))
  {
    Sorting.SortBy(AllPlaces(raw, format), Closer())
  }

  function Unranked(ps: seq<SafePlace>): seq<SafePlace> {
    seq(|ps|, i requires 0 <= i < |ps| => ps[i].(rank := 0))
  }

  /** Numbers the places 1, 2, … in order. */
  function RankFromOne(ps: seq<SafePlace>): (r: seq<SafePlace>)
    ensures |r| == |ps|
    ensures forall i :: 0 <= i < |r| ==> r[i] == ps[i].(rank := i + 1)
  {
    seq(|ps|, i requires 0 <= i < |ps| => ps[i].(rank := i + 1))
  }

  /** `processPlaces`: sorts by distance, keeps the first five and numbers
      them from 1. `format` renders a distance for display. */
  function ProcessPlaces(raw: seq<RawPlace>, format: int -> string): (r: seq<SafePlace>)
    ensures |r| == if |raw| < MaxPlaces then |raw| else MaxPlaces
    ensures forall i :: 0 <= i < |r| ==> r[i].rank == i + 1
    ensures forall i, j :: 0 <= i < j < |r| ==> r[i].distance <= r[j].distance
  {
    var sorted := ByDistance(raw, format);
    RankFromOne(sorted[..if |sorted| < MaxPlaces then |sorted| else MaxPlaces])
  }

  /** Ranks aside, the result is the first places of the sorted list. */
  lemma {:induction false} ProcessPlacesIsSortedPrefix(raw: seq<RawPlace>, format: int -> string)
    ensures var sorted := ByDistance(raw, format);
      Unranked(ProcessPlaces(raw, format)) == sorted[..if |sorted| < MaxPlaces then |sorted| else MaxPlaces]
  {
    var sorted := ByDistance(raw, format);
    Sorting.PermutationKeeps(AllPlaces(raw, format), sorted, (x: SafePlace) => x.rank == 0);
  }

  /** The ranked places, ranks aside, are drawn from the input. */
  lemma ProcessPlacesFromInput(raw: seq<RawPlace>, format: int -> string)
    ensures multiset(Unranked(ProcessPlaces(raw, format))) <= multiset(AllPlaces(raw, format))
  {
    var sorted := ByDistance(raw, format);
    var k := if |sorted| < MaxPlaces then |sorted| else MaxPlaces;
    ProcessPlacesIsSortedPrefix(raw, format);
    assert sorted == sorted[..k] + sorted[k..];
    assert multiset(sorted) == multiset(sorted[..k]) + multiset(sorted[k..]);
    assert multiset(sorted[..k]) <= multiset(AllPlaces(raw, format));
  }

  /** No place left out is strictly closer than a place kept. */
  lemma ProcessPlacesKeepsClosest(raw: seq<RawPlace>, format: int -> string)
    ensures var r := ProcessPlaces(raw, format);
      forall j :: 0 <= j < |raw| ==>
        AllPlaces(raw, format)[j] in Unranked(r) || forall i :: 0 <= i < |r| ==> r[i].distance <= raw[j].distance
  {
    var r := ProcessPlaces(raw, format);
    var all := AllPlaces(raw, format);
    var sorted := ByDistance(raw, format);
    var k := if |sorted| < MaxPlaces then |sorted| else MaxPlaces;
    ProcessPlacesIsSortedPrefix(raw, format);
    forall j | 0 <= j < |raw| ensures all[j] in sorted[..k] || forall i :: 0 <= i < |r| ==> r[i].distance <= raw[j].distance {
      assert all[j] in multiset(sorted);
      Sorting.SortedPrefixIsSmallest(sorted, Closer(), k, all[j]);
    }
  }
}

=== FILE: security.dfy ===
/** The pure rules of the security helpers: password strength, the
    storage sanitiser, and the sensitive-data check behind
    `validateDataSafety`. Hashing, key generation and the secure store are
    outside the model. */
module Security {
  import Seqs
  import Text

  /** `passwordMinLength` of the application configuration. */
  const PasswordMinLength: nat := 6

  /** The class `[!@#$%^&*(),.?":{}|<>]`. */
  predicate IsSpecial(c: char) {
    c in "!@#$%^&*(),.?\":{}|<>"
  }

  /** Some character of `s` satisfies `f`: the `test` of a one-class regex. */
  predicate Has(s: string, f: char -> bool) {
    exists i :: 0 <= i < |s| && f(s[i])
  }

  /** The strength rule: long enough, and an upper-case letter, a
      lower-case letter, a digit and a listed special character. */
  predicate StrongPassword(p: string) {
    && |p| >= PasswordMinLength
    && Has(p, Text.IsUpper) && Has(p, Text.IsLower) && Has(p, Text.IsDigit) && Has(p, IsSpecial)
  }

  /** `validatePassword`, as one left-to-right scan recording which
      classes have been seen. */
  method ValidatePassword(p: string) returns (ok: bool)
    ensures ok <==> StrongPassword(p)
  {
    var upper, lower, digit, special := false, false, false, false;
    var i := 0;
    while i < |p|
      invariant 0 <= i <= |p|
      invariant upper <==> Has(p[..i], Text.IsUpper)
      invariant lower <==> Has(p[..i], Text.IsLower)
      invariant digit <==> Has(p[..i], Text.IsDigit)
      invariant special <==> Has(p[..i], IsSpecial)
    {
      var c := p[i];
      assert forall f: char -> bool :: Has(p[..i + 1], f) <==> Has(p[..i], f) || f(c) by {
        forall f: char -> bool ensures Has(p[..i + 1], f) <==> Has(p[..i], f) || f(c) {
          if Has(p[..i + 1], f) && !f(c) {
            var j :| 0 <= j < i + 1 && f(p[..i + 1][j]);
            assert p[..i][j] == p[..i + 1][j];
          }
          if Has(p[..i], f) {
            var j :| 0 <= j < i && f(p[..i][j]);
            assert p[..i + 1][j] == p[..i][j];
          }
          if f(c) {
            assert p[..i + 1][i] == c;
          }
        }
      }
      upper := upper || Text.IsUpper(c);
      lower := lower || Text.IsLower(c);
      digit := digit || Text.IsDigit(c);
      special := special || IsSpecial(c);
      i := i + 1;
    }
    assert p[..|p|] == p;
    ok := |p| >= PasswordMinLength && upper && lower && digit && special;
  }

  /** A password shorter than six characters is rejected whatever it holds,
      and a strong one can be as short as six. */
  lemma ShortPasswordsRejected(p: string)
    requires |p| < PasswordMinLength
    ensures !StrongPassword(p)
    ensures StrongPassword("Aa1!aa")
  {
    var w := "Aa1!aa";
    assert Text.IsUpper(w[0]) && Text.IsLower(w[1]) && Text.IsDigit(w[2]) && IsSpecial(w[3]);
  }

  predicate NotAngle(c: char) {
    c != '<' && c != '>'
  }

  /** `sanitizeData`: drops every `<` and `>`, then trims. */
  function SanitizeData(data: string): (r: string)
    ensures forall i :: 0 <= i < |r| ==> NotAngle(r[i])
    ensures |r| > 0 ==> !Text.IsWhitespace(r[0]) && !Text.IsWhitespace(r[|r| - 1])
    ensures Text.StripsEnds(r, Text.Keep(data, NotAngle))
    ensures Text.IsInfix(r, Text.Keep(data, NotAngle))
  {
    var kept := Text.Keep(data, NotAngle);
    var r := Text.Trim(kept);
    Text.InfixKeeps(r, kept, NotAngle);
    r
  }

  /** Sanitising a sanitised string changes nothing. */
  lemma SanitizeIdempotent(data: string)
    ensures SanitizeData(SanitizeData(data)) == SanitizeData(data)
  {
    var once := SanitizeData(data);
    Seqs.FilterKeepsAll(once, NotAngle);
    Text.TrimIdempotent(Text.Keep(data, NotAngle));
  }

  /** `\w`: the characters a regex word boundary separates from others. */
  predicate IsWordChar(c: char) {
    Text.IsDigit(c) || Text.IsUpper(c) || Text.IsLower(c) || c == '_'
  }

  /** A word boundary before position `i` of `s`, where `s[i]` is a word
      character. */
  predicate BoundaryBefore(s: string, i: int)
    requires 0 <= i <= |s|
  {
    i == 0 || !IsWordChar(s[i - 1])
  }

  /** A word boundary after `s[..j]`, whose last character is a word character. */
  predicate BoundaryAfter(s: string, j: int)
    requires 0 <= j <= |s|
  {
    j == |s| || !IsWordChar(s[j])
  }

  predicate DigitsIn(s: string, from: int, to: int)
    requires 0 <= from <= to <= |s|
  {
    forall k :: from <= k < to ==> Text.IsDigit(s[k])
  }

  /** `\b\d{3}-\d{2}-\d{4}\b` matches at position `i`. */
  predicate SsnAt(s: string, i: int) {
    && 0 <= i && i + 11 <= |s|
    && DigitsIn(s, i, i + 3) && s[i + 3] == '-' && DigitsIn(s, i + 4, i + 6)
    && s[i + 6] == '-' && DigitsIn(s, i + 7, i + 11)
    && BoundaryBefore(s, i) && BoundaryAfter(s, i + 11)
  }

  /** `\b\d{16}\b` matches at position `i`. */
  predicate CardAt(s: string, i: int) {
    && 0 <= i && i + 16 <= |s|
    && DigitsIn(s, i, i + 16)
    && BoundaryBefore(s, i) && BoundaryAfter(s, i + 16)
  }

  /** `/password/i` and `/secret/i`. Case-insensitive matching outside
      unicode mode never maps a non-ASCII character onto an ASCII one, so
      ASCII lower-casing decides these two patterns exactly. */
  predicate MentionsSecret(s: string) {
    Text.Contains(Text.Lower(s), "password") || Text.Contains(Text.Lower(s), "secret")
  }

  /** `containsSensitiveData` on a string. */
  predicate SensitiveText(s: string) {
    || (exists i :: 0 <= i <= |s| && SsnAt(s, i))
    || (exists i :: 0 <= i <= |s| && CardAt(s, i))
    || MentionsSecret(s)
  }

  /** The values `validateDataSafety` can be handed. */
  datatype JsValue = Null | Undefined | Str(s: string) | Other

  /** `containsSensitiveData`: only strings are ever inspected. */
  function ContainsSensitiveData(v: JsValue): (r: bool)
    ensures r ==> v.Str?
    ensures v.Str? && MentionsSecret(v.s) ==> r
    ensures forall i :: v.Str? && 0 <= i <= |v.s| && (SsnAt(v.s, i) || CardAt(v.s, i)) ==> r
  {
    v.Str? && SensitiveText(v.s)
  }

  /** `validateDataSafety`: a value is safe to store when it is present and
      nothing sensitive is found in it. */
  function ValidateDataSafety(v: JsValue): (r: bool)
    ensures v == Null || v == Undefined ==> !r
    ensures v == Other ==> r
    ensures v.Str? ==> (r <==> !SensitiveText(v.s))
  {
    v != Null && v != Undefined && !ContainsSensitiveData(v)
  }

  /** Missing values are never safe; values that are not strings always are. */
  lemma SafetyOfNonStrings()
    ensures !ValidateDataSafety(Null) && !ValidateDataSafety(Undefined)
    ensures ValidateDataSafety(Other)
  {
  }

  lemma {:induction false} LowerAppend(a: string, b: string)
    ensures Text.Lower(a + b) == Text.Lower(a) + Text.Lower(b)
  {
  }

  /** Any string holding `password` or `secret`, in any letter case, is
      flagged and so not safe to store. */
  lemma SecretWordsFlagged(a: string, word: string, b: string)
    requires Text.Lower(word) == "password" || Text.Lower(word) == "secret"
    ensures ContainsSensitiveData(Str(a + word + b))
    ensures !ValidateDataSafety(Str(a + word + b))
  {
    LowerAppend(a + word, b);
    LowerAppend(a, word);
    Text.ContainsEmpty(Text.Lower(word));
    assert Text.StartsWith(Text.Lower(word), Text.Lower(word));
    Text.ContainsInfix(Text.Lower(a), Text.Lower(word), Text.Lower(b), Text.Lower(word));
  }

  /** A social-security-shaped number standing on its own is flagged. */
  lemma SsnFlagged()
    ensures !ValidateDataSafety(Str("id 123-45-6789."))
  {
    assert SsnAt("id 123-45-6789.", 3);
  }

  /** Digits glued to a letter do not form a word, so no boundary and no flag. */
  lemma GluedDigitsNotAnSsn()
    ensures !SsnAt("x123-45-6789", 1)
  {
  }
}

=== FILE: self_care.dfy ===
/** Self-care reminders: the `HH:mm` time the picker produces, how the
    notification scheduler reads it back, and the activity list with the
    reminder effects of switching, adding and deleting activities. */
module SelfCare {
  import opened Options
  import Seqs
  import Text

  // ---------------------------------------------------------------------
  // Time text

  /** `padStart(2, '0')`. */
  function Pad2(s: string): (r: string)
    ensures |r| == if |s| < 2 then 2 else |s|
  {
    if |s| == 0 then "00" else if |s| == 1 then "0" + s else s
  }

  /** `onTimeConfirm`'s text for a picked time. */
  function FormatTime(hours: nat, minutes: nat): (r: string)
    ensures hours <= 23 && minutes <= 59 ==> |r| == 5 && r[2] == ':'
  {
    Pad2(Text.ToDecimal(hours)) + ":" + Pad2(Text.ToDecimal(minutes))
  }

  // ---------------------------------------------------------------------
  // Reading a time back

  /** `split(sep)`: the pieces between separators, always at least one. */
  function Split(s: string, sep: char): (r: seq<string>)
    ensures |r| >= 1
  {
    if |s| == 0 then [""]
    else
      var rest := Split(s[1..], sep);
      if s[0] == sep then [""] + rest else [[s[0]] + rest[0]] + rest[1..]
  }

  /** A prefix without separators joins the first piece. */
  lemma {:induction false} SplitNoSeparator(a: string, t: string, sep: char)
    requires sep !in a
    ensures Split(a + t, sep) == [a + Split(t, sep)[0]] + Split(t, sep)[1..]
  {
    if |a| > 0 {
      SplitNoSeparator(a[1..], t, sep);
      assert (a + t)[1..] == a[1..] + t;
      assert [a[0]] + (a[1..] + Split(t, sep)[0]) == a + Split(t, sep)[0];
    } else {
      var p := Split(t, sep);
      assert a + t == t;
      assert a + p[0] == p[0];
      assert p == [p[0]] + p[1..];
    }
  }

  /** Two separator-free pieces joined by the separator split back apart. */
  lemma SplitJoin(a: string, b: string, sep: char)
    requires sep !in a && sep !in b
    ensures Split(a + [sep] + b, sep) == [a, b]
  {
    SplitNoSeparator(b, "", sep);
    assert b + "" == b;
    assert Split([sep] + b, sep) == [""] + Split(b, sep);
    SplitNoSeparator(a, [sep] + b, sep);
    assert a + [sep] + b == a + ([sep] + b);
    assert a + "" == a;
  }

  /** `Number(s)` for the texts a time can hold: the empty text is 0, a
      digit string is its value, anything else is not a number. */
  function ToNumber(s: string): (r: Option<nat>)
    ensures r.None? <==> exists i :: 0 <= i < |s| && !Text.IsDigit(s[i])
  {
    if forall i :: 0 <= i < |s| ==> Text.IsDigit(s[i]) then Some(Text.Value(s)) else None
  }

  /** The hour and minute `scheduleDailyReminder` reads from a time text:
      the first two pieces of `split(':')`, each through `Number`. */
  function ParseTime(time: string): (r: Option<(nat, nat)>)
    ensures r.Some? ==> |Split(time, ':')| >= 2
  {
    var parts := Split(time, ':');
    if |parts| < 2 then None
    else
      match (ToNumber(parts[0]), ToNumber(parts[1]))
      case (Some(h), Some(m)) => Some((h, m))
      case _ => None
  }

  lemma PadValue(s: string)
    requires forall i :: 0 <= i < |s| ==> Text.IsDigit(s[i])
    ensures forall i :: 0 <= i < |Pad2(s)| ==> Text.IsDigit(Pad2(s)[i])
    ensures Text.Value(Pad2(s)) == Text.Value(s)
  {
    if |s| == 0 {
      assert Text.Value("00") == 0 by { assert "00"[..1] == "0"; }
    } else if |s| == 1 {
      Text.LeadingZero(s);
    }
  }

  /** The text `onTimeConfirm` writes is read back by the scheduler as the
      picked hour and minute. */
  lemma FormatThenParse(hours: nat, minutes: nat)
    ensures ParseTime(FormatTime(hours, minutes)) == Some((hours, minutes))
  {
    var hs := Pad2(Text.ToDecimal(hours));
    var ms := Pad2(Text.ToDecimal(minutes));
    PadValue(Text.ToDecimal(hours));
    PadValue(Text.ToDecimal(minutes));
    Text.ValueOfDecimal(hours);
    Text.ValueOfDecimal(minutes);
    assert ':' !in hs && ':' !in ms;
    SplitJoin(hs, ms, ':');
    assert FormatTime(hours, minutes) == hs + [':'] + ms;
  }

  // ---------------------------------------------------------------------
  // Activities

  datatype Activity = Activity(id: string, title: string, description: string, isEnabled: bool, time: string)

  /** What a switch or a delete asks of the notification scheduler. */
  datatype Effect = Schedule(id: string, title: string, body: string, time: string) | Cancel(id: string)

  const DefaultActivities: seq<Activity> := [
    Activity("1", "Morning Meditation", "Start your day with 5 minutes of mindful breathing", false, "08:00"),
    Activity("2", "Hydration Check", "Remember to drink water regularly throughout the day", false, "10:00"),
    Activity("3", "Movement Break", "Take a short walk or stretch", false, "14:00"),
    Activity("4", "Gratitude Practice", "Write down three things you're grateful for", false, "20:00")
  ]

  function Flip(a: Activity, id: string): Activity {
    if a.id == id then a.(isEnabled := !a.isEnabled) else a
  }

  /** The scheduler request for switching `a`: scheduling when it turns on,
      cancelling when it turns off. */
  function SwitchEffect(a: Activity): Effect {
    if !a.isEnabled then Schedule(a.id, a.title, a.description, a.time) else Cancel(a.id)
  }

  /** `toggleActivity`: flips every activity with the id and issues one
      scheduler request for each, in list order. */
  function ToggleActivity(acts: seq<Activity>, id: string): (r: (seq<Activity>, seq<Effect>))
    ensures |r.0| == |acts|
    ensures forall i :: 0 <= i < |acts| && acts[i].id != id ==> r.0[i] == acts[i]
    ensures forall i :: 0 <= i < |acts| && acts[i].id == id ==>
      r.0[i].isEnabled == !acts[i].isEnabled && r.0[i] == acts[i].(isEnabled := r.0[i].isEnabled)
    ensures (forall i :: 0 <= i < |acts| ==> acts[i].id != id) ==> r.1 == []
  {
    if |acts| == 0 then ([], [])
    else
      var rest := ToggleActivity(acts[1..], id);
      var a := acts[0];
      ([Flip(a, id)] + rest.0, (if a.id == id then [SwitchEffect(a)] else []) + rest.1)
  }

  /** Switching the same activity twice restores the list. */
  lemma {:induction false} ToggleTwice(acts: seq<Activity>, id: string)
    ensures ToggleActivity(ToggleActivity(acts, id).0, id).0 == acts
  {
    var once := ToggleActivity(acts, id).0;
    var twice := ToggleActivity(once, id).0;
    assert forall i :: 0 <= i < |acts| ==> once[i].id == acts[i].id;
  }

  /** With distinct ids, switching one activity on schedules exactly its
      reminder at its time, and switching it off cancels exactly it. */
  lemma {:induction false} ToggleEffect(acts: seq<Activity>, i: int)
    requires 0 <= i < |acts|
    requires forall j :: 0 <= j < |acts| && j != i ==> acts[j].id != acts[i].id
    ensures var a := acts[i];
      ToggleActivity(acts, a.id).1 ==
        if a.isEnabled then [Cancel(a.id)] else [Schedule(a.id, a.title, a.description, a.time)]
  {
    if i == 0 {
      assert forall j :: 0 <= j < |acts[1..]| ==> acts[1..][j].id != acts[0].id by {
        forall j | 0 <= j < |acts[1..]| ensures acts[1..][j].id != acts[0].id {
          assert acts[1..][j] == acts[j + 1];
        }
      }
    } else {
      assert forall j :: 0 <= j < |acts[1..]| && j != i - 1 ==> acts[1..][j].id != acts[1..][i - 1].id by {
        forall j | 0 <= j < |acts[1..]| && j != i - 1 ensures acts[1..][j].id != acts[1..][i - 1].id {
          assert acts[1..][j] == acts[j + 1];
        }
      }
      ToggleEffect(acts[1..], i - 1);
      assert acts[1..][i - 1] == acts[i];
    }
  }

  /** The add form's three fields. */
  datatype NewActivity = NewActivity(title: string, description: string, time: string)

  /** `addActivity`: with all three fields filled in, appends a switched-off
      activity under the fresh `newId` and empties the form; otherwise
      changes nothing. The boolean is whether the add dialog stays open. */
  function AddActivity(acts: seq<Activity>, form: NewActivity, newId: string, dialogOpen: bool)
    : (r: (seq<Activity>, NewActivity, bool))
    ensures form.title == "" || form.description == "" || form.time == "" ==> r == (acts, form, dialogOpen)
    ensures form.title != "" && form.description != "" && form.time != "" ==>
      && r.0 == acts + [Activity(newId, form.title, form.description, false, form.time)]
      && r.1 == NewActivity("", "", "") && !r.2
  {
    if form.title != "" && form.description != "" && form.time != "" then
      (acts + [Activity(newId, form.title, form.description, false, form.time)], NewActivity("", "", ""), false)
    else (acts, form, dialogOpen)
  }

  /** An activity added with a picked time, once switched on, asks for a
      daily reminder at exactly that hour and minute. */
  lemma AddedActivityRemindsAtPickedTime(acts: seq<Activity>, title: string, description: string,
                                         hours: nat, minutes: nat, newId: string)
    requires title != "" && description != ""
    requires forall j :: 0 <= j < |acts| ==> acts[j].id != newId
    ensures var added := AddActivity(acts, NewActivity(title, description, FormatTime(hours, minutes)), newId, true).0;
      var effects := ToggleActivity(added, newId).1;
      |effects| == 1 && effects[0].Schedule? && ParseTime(effects[0].time) == Some((hours, minutes))
  {
    var time := FormatTime(hours, minutes);
    assert |time| >= 3;
    var added := AddActivity(acts, NewActivity(title, description, time), newId, true).0;
    assert added[|acts|].id == newId;
    ToggleEffect(added, |acts|);
    FormatThenParse(hours, minutes);
  }

  function NotId(id: string): Activity -> bool {
    (a: Activity) => a.id != id
  }

  /** Activity `i` is the first one with the id. */
  predicate FirstWithId(acts: seq<Activity>, id: string, i: int) {
    0 <= i < |acts| && acts[i].id == id && forall j :: 0 <= j < i ==> acts[j].id != id
  }

  /** `find`: the first activity with the id, if any. */
  function Find(acts: seq<Activity>, id: string): (r: Option<Activity>)
    ensures r.Some? ==> exists i :: FirstWithId(acts, id, i) && acts[i] == r.value
    ensures r.None? <==> forall i :: 0 <= i < |acts| ==> acts[i].id != id
  {
    if |acts| == 0 then None
    else if acts[0].id == id then
      assert FirstWithId(acts, id, 0);
      Some(acts[0])
    else
      var r := Find(acts[1..], id);
      if r.Some? then
        var i :| FirstWithId(acts[1..], id, i) && acts[1..][i] == r.value;
        assert FirstWithId(acts, id, i + 1);
        r
      else r
  }

  /** `deleteActivity`: asks for the reminder to be cancelled when the
      first activity with the id is switched on, then removes every activity
      with the id. `cancelled` is whether that cancellation succeeded; when
      it fails the delete stops before the list is touched. */
  function DeleteActivity(acts: seq<Activity>, id: string, cancelled: bool): (r: (seq<Activity>, seq<Effect>))
    ensures r.1 == [Cancel(id)] <==> exists i :: FirstWithId(acts, id, i) && acts[i].isEnabled
    ensures r.1 != [Cancel(id)] ==> r.1 == []
    ensures r.1 == [Cancel(id)] && !cancelled ==> r.0 == acts
    ensures r.1 == [] || cancelled ==> forall i :: 0 <= i < |r.0| ==> r.0[i].id != id
    ensures r.1 == [] || cancelled ==> forall i :: 0 <= i < |acts| && acts[i].id != id ==> acts[i] in r.0
    ensures r.1 == [] || cancelled ==>
      forall a :: multiset(r.0)[a] == if a.id != id then multiset(acts)[a] else 0
    ensures Seqs.IsSubseq(r.0, acts)
  {
    var found := Find(acts, id);
    if found.Some? && found.value.isEnabled && !cancelled then
      Seqs.SubseqOfSelf(acts);
      (acts, [Cancel(id)])
    else
      Seqs.FilterIsSubseq(acts, NotId(id));
      Seqs.FilterMembers(acts, NotId(id));
      Seqs.FilterCounts(acts, NotId(id));
      (Seqs.Filter(acts, NotId(id)), if found.Some? && found.value.isEnabled then [Cancel(id)] else [])
  }

  /** Deleting an id that is not listed changes nothing and cancels nothing. */
  lemma DeleteMissing(acts: seq<Activity>, id: string, cancelled: bool)
    requires forall i :: 0 <= i < |acts| ==> acts[i].id != id
    ensures DeleteActivity(acts, id, cancelled) == (acts, [])
  {
    Seqs.FilterKeepsAll(acts, NotId(id));
  }
}

=== FILE: seqs.dfy ===
/** Optional values: the model's rendering of `null`/`undefined` results. */
module Options {

  datatype Option<+T> = None | Some(value: T) {

    /** The carried value, or `default` when there is none (the source's `x || d`). */
    function GetOr(default: T): T {
      match this
      case Some(v) => v
      case None => default
    }
  }
}

/** Sequence helpers shared by every part of the model: order-preserving
    filtering (`Array.prototype.filter`) and subsequences. */
module Seqs {

  /** Keeps the elements that satisfy `p`, in their original order. */
  function Filter<T>(s: seq<T>, p: T -> bool): (r: seq<T>)
    ensures |r| <= |s|
    ensures forall i :: 0 <= i < |r| ==> p(r[i])
  {
    if |s| == 0 then []
    else (if p(s[0]) then [s[0]] else []) + Filter(s[1..], p)
  }

  /** `a` can be obtained from `b` by deleting elements (order is kept). */
  ghost predicate IsSubseq<T>(a: seq<T>, b: seq<T>)
    decreases |b|
  {
    |a| == 0 || (|b| > 0 && ((a[0] == b[0] && IsSubseq(a[1..], b[1..])) || IsSubseq(a, b[1..])))
  }

  /** Filtering deletes elements and never reorders the survivors. */
  lemma {:induction false} FilterIsSubseq<T>(s: seq<T>, p: T -> bool)
    ensures IsSubseq(Filter(s, p), s)
  {
    if |s| > 0 {
      FilterIsSubseq(s[1..], p);
      if p(s[0]) {
        assert Filter(s, p) == [s[0]] + Filter(s[1..], p);
        assert Filter(s, p)[1..] == Filter(s[1..], p);
      } else {
        assert Filter(s, p) == Filter(s[1..], p);
      }
    }
  }

  /** Every sequence is a subsequence of itself. */
  lemma {:induction false} SubseqOfSelf<T>(s: seq<T>)
    ensures IsSubseq(s, s)
  {
    if |s| > 0 {
      SubseqOfSelf(s[1..]);
    }
  }

  /** A filter that every element passes changes nothing. */
  lemma {:induction false} FilterKeepsAll<T>(s: seq<T>, p: T -> bool)
    requires forall i :: 0 <= i < |s| ==> p(s[i])
    ensures Filter(s, p) == s
  {
    if |s| > 0 {
      FilterKeepsAll(s[1..], p);
      assert s == [s[0]] + s[1..];
    }
  }

  /** A filter that no element passes leaves nothing. */
  lemma {:induction false} FilterKeepsNone<T>(s: seq<T>, p: T -> bool)
    requires forall i :: 0 <= i < |s| ==> !p(s[i])
    ensures Filter(s, p) == []
  {
    if |s| > 0 {
      FilterKeepsNone(s[1..], p);
    }
  }

  /** The elements filtering keeps are exactly those of `s` that satisfy `p`. */
  lemma {:induction false} FilterMembers<T>(s: seq<T>, p: T -> bool)
    ensures forall i :: 0 <= i < |Filter(s, p)| ==> Filter(s, p)[i] in s
    ensures forall i :: 0 <= i < |s| && p(s[i]) ==> s[i] in Filter(s, p)
  {
    if |s| > 0 {
      FilterMembers(s[1..], p);
      var rest := Filter(s[1..], p);
      if p(s[0]) {
        assert Filter(s, p) == [s[0]] + rest;
      } else {
        assert Filter(s, p) == rest;
      }
      forall i | 0 <= i < |s| && p(s[i]) ensures s[i] in Filter(s, p) {
        if i > 0 {
          assert s[i] == s[1..][i - 1];
        }
      }
    }
  }

  /** Filtering keeps every copy of a passing value and no copy of a
      failing one. */
  lemma {:induction false} FilterCounts<T>(s: seq<T>, p: T -> bool)
    ensures forall x :: multiset(Filter(s, p))[x] == if p(x) then multiset(s)[x] else 0
  {
    if |s| > 0 {
      FilterCounts(s[1..], p);
      assert s == [s[0]] + s[1..];
      assert multiset(s) == multiset{s[0]} + multiset(s[1..]);
      if p(s[0]) {
        assert multiset(Filter(s, p)) == multiset{s[0]} + multiset(Filter(s[1..], p));
      } else {
        assert Filter(s, p) == Filter(s[1..], p);
      }
    }
  }

  /** Filtering distributes over concatenation. */
  lemma {:induction false} FilterAppend<T>(a: seq<T>, b: seq<T>, p: T -> bool)
    ensures Filter(a + b, p) == Filter(a, p) + Filter(b, p)
  {
    if |a| == 0 {
      assert a + b == b;
    } else {
      FilterAppend(a[1..], b, p);
      var head := if p(a[0]) then [a[0]] else [];
      assert (a + b)[0] == a[0];
      assert (a + b)[1..] == a[1..] + b;
      assert Filter(a + b, p) == head + Filter(a[1..] + b, p);
      assert Filter(a, p) == head + Filter(a[1..], p);
    }
  }

  /** The position of the last copy of `x` in `s`. */
  lemma {:induction false} LastIndex<T>(s: seq<T>, x: T) returns (i: int)
    requires x in s
    ensures 0 <= i < |s| && s[i] == x
    ensures forall j :: i < j < |s| ==> s[j] != x
  {
    if s[|s| - 1] == x {
      i := |s| - 1;
    } else {
      assert x in s[..|s| - 1] by {
        var k :| 0 <= k < |s| && s[k] == x;
        assert s[..|s| - 1][k] == x;
      }
      i := LastIndex(s[..|s| - 1], x);
      assert s[i] == s[..|s| - 1][i];
    }
  }

  /** `s` without its element at position `i`. */
  function RemoveAt<T>(s: seq<T>, i: nat): (r: seq<T>)
    requires i < |s|
    ensures |r| == |s| - 1
    ensures multiset(r) + multiset{s[i]} == multiset(s)
  {
    assert s == s[..i] + [s[i]] + s[i + 1..];
    s[..i] + s[i + 1..]
  }

  /** No element occurs twice. */
  predicate Distinct<T(==)>(s: seq<T>) {
    forall i, j :: 0 <= i < j < |s| ==> s[i] != s[j]
  }

  /** Filtering a list without repetitions gives one without repetitions. */
  lemma {:induction false} FilterDistinct<T>(s: seq<T>, p: T -> bool)
    requires Distinct(s)
    ensures Distinct(Filter(s, p))
  {
    if |s| > 0 {
      FilterDistinct(s[1..], p);
      var rest := Filter(s[1..], p);
      if p(s[0]) {
        FilterMembers(s[1..], p);
        assert s[0] !in rest;
        var r := Filter(s, p);
        assert r == [s[0]] + rest;
        forall i, j | 0 <= i < j < |r| ensures r[i] != r[j] {
          if i == 0 {
            assert r[j] == rest[j - 1];
          } else {
            assert r[i] == rest[i - 1] && r[j] == rest[j - 1];
          }
        }
      }
    }
  }
}

=== FILE: sorting.dfy ===
/** A stable insertion sort over any total preorder: the model of
    `Array.prototype.sort` with a comparator (stable since ES2019). */
module Sorting {

  ghost predicate TotalPreorder<T(!new)>(le: (T, T) -> bool) {
    && (forall a, b :: le(a, b) || le(b, a))
    && (forall a, b, c :: le(a, b) && le(b, c) ==> le(a, c))
  }

  predicate SortedBy<T>(s: seq<T>, le: (T, T) -> bool) {
    forall i, j :: 0 <= i < j < |s| ==> le(s[i], s[j])
  }

  /** Places `x` after every element that may precede it. */
  function InsertBy<T(!new)>(s: seq<T>, x: T, le: (T, T) -> bool): (r: seq<T>)
    requires TotalPreorder(le)
    requires SortedBy(s, le)
    ensures SortedBy(r, le)
    ensures multiset(r) == multiset(s) + multiset{x}
    ensures |r| == |s| + 1
  {
    if |s| == 0 then [x]
    else if le(s[|s| - 1], x) then s + [x]
    else
      var last := s[|s| - 1];
      var init := s[..|s| - 1];
      assert s == init + [last];
      var t := InsertBy(init, x, le);
      var below := (y: T) => le(y, last);
      assert forall i :: 0 <= i < |init + [x]| ==> below((init + [x])[i]) by {
        forall i | 0 <= i < |init + [x]| ensures below((init + [x])[i]) {
          if i < |init| {
            assert (init + [x])[i] == s[i];
          }
        }
      }
      PermutationKeeps(init + [x], t, below);
      AppendLargest(t, last, le);
      t + [last]
  }

  /** An element no smaller than any of a sorted list's may follow it. */
  lemma AppendLargest<T>(s: seq<T>, x: T, le: (T, T) -> bool)
    requires SortedBy(s, le)
    requires forall i :: 0 <= i < |s| ==> le(s[i], x)
    ensures SortedBy(s + [x], le)
  {
    var r := s + [x];
    forall i, j | 0 <= i < j < |r| ensures le(r[i], r[j]) {
      assert r[i] == s[i];
    }
  }

  /** Sorts `s` by `le`, keeping equal elements in their input order. */
  function SortBy<T(!new)>(s: seq<T>, le: (T, T) -> bool): (r: seq<T>)
    requires TotalPreorder(le)
    ensures SortedBy(r, le)
    ensures multiset(r) == multiset(s)
    ensures |r| == |s|
  {
    if |s| == 0 then []
    else
      assert s == s[..|s| - 1] + [s[|s| - 1]];
      InsertBy(SortBy(s[..|s| - 1], le), s[|s| - 1], le)
  }

  /** A property of every element survives any permutation. */
  lemma PermutationKeeps<T>(a: seq<T>, b: seq<T>, p: T -> bool)
    requires multiset(a) == multiset(b)
    requires forall i :: 0 <= i < |a| ==> p(a[i])
    ensures forall i :: 0 <= i < |b| ==> p(b[i])
  {
    forall i | 0 <= i < |b| ensures p(b[i]) {
      assert b[i] in multiset(a);
      var j :| 0 <= j < |a| && a[j] == b[i];
    }
  }

  /** The first `k` elements of a sorted list are its smallest: any
      element left out comes after each of them. */
  lemma SortedPrefixIsSmallest<T>(s: seq<T>, le: (T, T) -> bool, k: int, x: T)
    requires SortedBy(s, le) && 0 <= k <= |s| && x in s
    ensures x in s[..k] || forall i :: 0 <= i < k ==> le(s[i], x)
  {
    var j :| 0 <= j < |s| && s[j] == x;
    if j < k {
      assert s[..k][j] == x;
    }
  }
}

=== FILE: text.dfy ===
/** Character and string rules the source takes from JavaScript:
    `toLowerCase`, `includes`, `startsWith`, `trim`, character-class
    filters and the default (code-unit) string ordering of `sort()`. */
module Text {
  import Seqs

  predicate IsDigit(c: char) { '0' <= c <= '9' }
  predicate IsUpper(c: char) { 'A' <= c <= 'Z' }
  predicate IsLower(c: char) { 'a' <= c <= 'z' }

  /** `toLowerCase` on one character; letters outside ASCII are kept. */
  function LowerChar(c: char): (r: char)
    ensures !IsUpper(r)
    ensures IsUpper(c) ==> IsLower(r)
    ensures !IsUpper(c) ==> r == c
  {
    if IsUpper(c) then (c as int + 32) as char else c
  }

  function Lower(s: string): (r: string)
    ensures |r| == |s|
    ensures forall i :: 0 <= i < |s| ==> r[i] == LowerChar(s[i])
  {
    seq(|s|, i requires 0 <= i < |s| => LowerChar(s[i]))
  }

  /** Lower-casing twice is lower-casing once. */
  lemma LowerIdempotent(s: string)
    ensures Lower(Lower(s)) == Lower(s)
  {
  }

  predicate StartsWith(s: string, prefix: string) {
    |prefix| <= |s| && s[..|prefix|] == prefix
  }

  /** `s.includes(needle)`: `needle` occurs at some position of `s`. */
  function Contains(s: string, needle: string): (r: bool)
    ensures r ==> |needle| <= |s|
    ensures StartsWith(s, needle) ==> r
    ensures |needle| == 0 ==> r
  {
    StartsWith(s, needle) || (|s| > 0 && Contains(s[1..], needle))
  }

  /** `needle` occupies the positions `i .. i + |needle|` of `s`. */
  ghost predicate OccursAt(s: string, needle: string, i: int) {
    0 <= i <= |s| - |needle| && s[i..i + |needle|] == needle
  }

  /** The scanning definition of `Contains` agrees with "occurs somewhere". */
  lemma {:induction false} ContainsIff(s: string, needle: string)
    ensures Contains(s, needle) <==> exists i :: OccursAt(s, needle, i)
  {
    if StartsWith(s, needle) {
      assert OccursAt(s, needle, 0);
    } else if |s| > 0 {
      ContainsIff(s[1..], needle);
      if Contains(s[1..], needle) {
        var i :| OccursAt(s[1..], needle, i);
        assert s[1..][i..i + |needle|] == s[i + 1..i + 1 + |needle|];
        assert OccursAt(s, needle, i + 1);
      }
      if i :| OccursAt(s, needle, i) {
        assert i != 0;
        assert s[1..][i - 1..i - 1 + |needle|] == s[i..i + |needle|];
        assert OccursAt(s[1..], needle, i - 1);
      }
    }
  }

  /** A string built around `w` includes `w`. */
  lemma ContainsWord(a: string, w: string, b: string)
    ensures Contains(a + w + b, w)
  {
    assert StartsWith(w, w);
    ContainsInfix(a, w, b, w);
  }

  /** Every string includes the empty string. */
  lemma ContainsEmpty(s: string)
    ensures Contains(s, "")
  {
    assert StartsWith(s, "");
  }

  /** An occurrence inside a part is an occurrence in the whole. */
  lemma ContainsInfix(a: string, b: string, c: string, needle: string)
    requires Contains(b, needle)
    ensures Contains(a + b + c, needle)
  {
    ContainsIff(b, needle);
    var i :| OccursAt(b, needle, i);
    assert (a + b + c)[|a| + i..|a| + i + |needle|] == needle;
    assert OccursAt(a + b + c, needle, |a| + i);
    ContainsIff(a + b + c, needle);
  }

  /** The white-space and line-terminator characters `trim` removes. */
  predicate IsWhitespace(c: char) {
    c == ' ' || c == '\t' || c == '\n' || c == '\r' || c == '\U{0B}' || c == '\U{0C}'
    || c == '\U{A0}' || c == '\U{1680}' || ('\U{2000}' <= c <= '\U{200A}')
    || c == '\U{2028}' || c == '\U{2029}' || c == '\U{202F}' || c == '\U{205F}'
    || c == '\U{3000}' || c == '\U{FEFF}'
  }

  function TrimStart(s: string): (r: string)
    ensures |r| <= |s| && r == s[|s| - |r|..]
    ensures |r| > 0 ==> !IsWhitespace(r[0])
    ensures forall i :: 0 <= i < |s| - |r| ==> IsWhitespace(s[i])
  {
    if |s| > 0 && IsWhitespace(s[0]) then TrimStart(s[1..]) else s
  }

  function TrimEnd(s: string): (r: string)
    ensures |r| <= |s| && r == s[..|r|]
    ensures |r| > 0 ==> !IsWhitespace(r[|r| - 1])
    ensures forall i :: |r| <= i < |s| ==> IsWhitespace(s[i])
  {
    if |s| > 0 && IsWhitespace(s[|s| - 1]) then TrimEnd(s[..|s| - 1]) else s
  }

  /** `trim`: removes leading and trailing white space and nothing else. */
  function Trim(s: string): (r: string)
    ensures |r| > 0 ==> !IsWhitespace(r[0]) && !IsWhitespace(r[|r| - 1])
    ensures StripsEnds(r, s)
    ensures IsInfix(r, s)
  {
    var t := TrimStart(s);
    var r := TrimEnd(t);
    TrimPiece(s, t, r);
    r
  }

  /** Dropping leading white space, then trailing white space, leaves the
      piece between the two. */
  lemma TrimPiece(s: string, t: string, r: string)
    requires |t| <= |s| && t == s[|s| - |t|..]
    requires forall k :: 0 <= k < |s| - |t| ==> IsWhitespace(s[k])
    requires |r| <= |t| && r == t[..|r|]
    requires forall k :: |r| <= k < |t| ==> IsWhitespace(t[k])
    ensures StripsEnds(r, s) && IsInfix(r, s)
  {
    var i := |s| - |t|;
    var j := i + |r|;
    assert r == s[i..j];
    forall k | j <= k < |s| ensures IsWhitespace(s[k]) {
      assert s[k] == t[k - i];
    }
    StripsEndsAt(s, i, j);
  }

  /** `r` is a contiguous piece of `s`. */
  ghost predicate IsInfix(r: string, s: string) {
    exists i, j :: 0 <= i <= j <= |s| && r == s[i..j]
  }

  /** `r` is `s` less some white space at its start and some at its end:
      the piece `s[i..j]` with only white space before `i` and from `j` on. */
  ghost predicate StripsEnds(r: string, s: string) {
    exists i, j ::
      && 0 <= i <= j <= |s| && r == s[i..j]
      && (forall k :: 0 <= k < i ==> IsWhitespace(s[k]))
      && (forall k :: j <= k < |s| ==> IsWhitespace(s[k]))
  }

  /** A piece with only white space around it is such a stripping. */
  lemma StripsEndsAt(s: string, i: int, j: int)
    requires 0 <= i <= j <= |s|
    requires forall k :: 0 <= k < i ==> IsWhitespace(s[k])
    requires forall k :: j <= k < |s| ==> IsWhitespace(s[k])
    ensures StripsEnds(s[i..j], s) && IsInfix(s[i..j], s)
  {
  }

  /** A piece of a string whose characters all satisfy `p` has only such
      characters too. */
  lemma InfixKeeps(r: string, s: string, p: char -> bool)
    requires IsInfix(r, s)
    requires forall k :: 0 <= k < |s| ==> p(s[k])
    ensures forall k :: 0 <= k < |r| ==> p(r[k])
  {
    var i, j :| 0 <= i <= j <= |s| && r == s[i..j];
    forall k | 0 <= k < |r| ensures p(r[k]) {
      assert r[k] == s[i + k];
    }
  }

  /** Trimming an already trimmed string changes nothing. */
  lemma TrimIdempotent(s: string)
    ensures Trim(Trim(s)) == Trim(s)
  {
  }

  /** The characters of `s` that satisfy `keep`, in order: a global
      `replace` of the complementary character class by ''. */
  function Keep(s: string, keep: char -> bool): (r: string)
    ensures forall i :: 0 <= i < |r| ==> keep(r[i])
    ensures Seqs.IsSubseq(r, s)
  {
    Seqs.FilterIsSubseq(s, keep);
    Seqs.Filter(s, keep)
  }

  /** Keeping characters keeps every copy of a kept character and no copy
      of another. */
  lemma KeepCounts(s: string, keep: char -> bool)
    ensures forall c :: multiset(Keep(s, keep))[c] == if keep(c) then multiset(s)[c] else 0
  {
    Seqs.FilterCounts(s, keep);
  }

  /** `replace(/\D/g, '')` and `replace(/[^0-9]/g, '')`: every digit of
      `s`, each as often as it occurs there, in order, and nothing else. */
  function Digits(s: string): (r: string)
    ensures forall i :: 0 <= i < |r| ==> IsDigit(r[i])
    ensures Seqs.IsSubseq(r, s)
    ensures forall c :: multiset(r)[c] == if IsDigit(c) then multiset(s)[c] else 0
    ensures forall c :: c in r <==> c in s && IsDigit(c)
  {
    Seqs.FilterMembers(s, IsDigit);
    KeepCounts(s, IsDigit);
    Keep(s, IsDigit)
  }

  /** A string made only of digits has nothing to remove. */
  lemma DigitsOfDigitString(s: string)
    requires forall i :: 0 <= i < |s| ==> IsDigit(s[i])
    ensures Digits(s) == s
  {
    Seqs.FilterKeepsAll(s, IsDigit);
  }

  // ---------------------------------------------------------------------
  // Decimal text

  function DigitChar(d: nat): (r: char)
    requires d < 10
    ensures IsDigit(r)
  {
    ('0' as int + d) as char
  }

  function DigitValue(c: char): nat
    requires IsDigit(c)
  {
    c as int - '0' as int
  }

  /** `n.toString()` for a non-negative integer. */
  function ToDecimal(n: nat): (r: string)
    ensures |r| > 0
    ensures n < 10 ==> |r| == 1
    ensures n < 100 ==> |r| <= 2
    ensures forall i :: 0 <= i < |r| ==> IsDigit(r[i])
  {
    if n < 10 then [DigitChar(n)] else ToDecimal(n / 10) + [DigitChar(n % 10)]
  }

  /** The value of a string of decimal digits, leading zeros allowed. */
  function Value(s: string): nat
    requires forall i :: 0 <= i < |s| ==> IsDigit(s[i])
  {
    if |s| == 0 then 0 else Value(s[..|s| - 1]) * 10 + DigitValue(s[|s| - 1])
  }

  /** Reading back the decimal text of `n` gives `n`. */
  lemma {:induction false} ValueOfDecimal(n: nat)
    ensures Value(ToDecimal(n)) == n
    decreases n
  {
    if n >= 10 {
      ValueOfDecimal(n / 10);
      var s := ToDecimal(n);
      assert s[..|s| - 1] == ToDecimal(n / 10);
    }
  }

  /** A leading zero does not change the value. */
  lemma {:induction false} LeadingZero(s: string)
    requires forall i :: 0 <= i < |s| ==> IsDigit(s[i])
    ensures Value("0" + s) == Value(s)
  {
    if |s| > 0 {
      var t := "0" + s;
      assert t[..|t| - 1] == "0" + s[..|s| - 1];
      LeadingZero(s[..|s| - 1]);
    }
  }

  /** Default `sort()` order on strings: lexicographic by character. */
  predicate LexLe(a: string, b: string) {
    |a| == 0 || (|b| > 0 && (a[0] < b[0] || (a[0] == b[0] && LexLe(a[1..], b[1..]))))
  }

  lemma {:induction false} LexLeTotal(a: string, b: string)
    ensures LexLe(a, b) || LexLe(b, a)
  {
    if |a| > 0 && |b| > 0 && a[0] == b[0] {
      LexLeTotal(a[1..], b[1..]);
    }
  }

  lemma {:induction false} LexLeTransitive(a: string, b: string, c: string)
    requires LexLe(a, b) && LexLe(b, c)
    ensures LexLe(a, c)
  {
    if |a| > 0 && |b| > 0 && |c| > 0 && a[0] == b[0] && b[0] == c[0] {
      LexLeTransitive(a[1..], b[1..], c[1..]);
    }
  }
}
